=== FILE: README.md ===
# MITRE ATT&CK signature converter, modelled in Dafny

This project models the core of the MITRE ATT&CK signature converter. The
converter turns ATT&CK techniques into three kinds of detection rule: YARA
rules, Sigma rules and KQL (Kusto) queries. The model covers these parts:

- the `Technique` record and its indicator getters (`technique.dfy`): detection
  patterns, platform applicability, processes, files, registry keys, network
  cues and environment-agnostic cues;
- the shared converter logic (`base_converter.dfy`): the rendering context, id
  sanitising, and the rule-name and reference formats;
- the YARA string table and condition list (`yara.dfy`);
- the Sigma detection, log source, false positives, level, tags and rule id
  (`sigma.dfy`);
- the KQL table list and query parts (`kql.dfy`);
- the dotted-key configuration handler (`config.dfy`);
- the ATT&CK bundle parser and its lookups (`mitre_api.dfy`).

The model also includes the Python built-ins the core relies on
(`strings.dfy`, `seqs.dfy`, `wrappers.dfy`):

- `str.split`, `str.strip`, `str.lower` and `str.replace`;
- `re.findall(r'\b\w+\b')`;
- `str(n)`;
- `list(dict.fromkeys(...))`.

Python dictionaries keep insertion order, so the model represents them as
sequences. The catalogue of techniques is a `seq<Technique>` with distinct ids.
The tactic index is a `seq<TacticEntry>`. A Sigma selection is a `seq<Field>`
with distinct keys. A call that raises in Python returns a `Result`: an
`IndexError` on an empty reference list, the `AttributeError` of the Sigma
detection, and the failures of `set` and `merge_config`. A dictionary lookup
that yields nothing returns an `Option`.

Every operation is a pure function of its inputs. File reading, template
rendering and logging stay outside the model. The converters receive a
`Technique` value. The parser receives the list of bundle objects.

## Model

| member | source | states |
|---|---|---|
| Strings.Lower | mitre_sig_converter/models/technique.py:75-76 | lower-casing keeps the length and maps each character on its own |
| Strings.LowerIdempotent | mitre_sig_converter/models/technique.py:75-76 | lower-casing twice is lower-casing once, and leaves no upper-case ASCII letter |
| Strings.ReplaceChar | mitre_sig_converter/converter/base_converter.py:62-65 | `replace` of one character keeps every other character in place and puts the replacement at each occurrence |
| Strings.ReplaceCharRemoves | mitre_sig_converter/converter/base_converter.py:62-65 | after replacing `a` by another character no `a` is left, and replacing again changes nothing |
| Strings.ReplaceCharInverse | mitre_sig_converter/converter/base_converter.py:62-65 | replacing `a` by a character absent from the string is undone by the reverse replacement |
| Strings.Split | mitre_sig_converter/utils/config_handler.py:49 | `split` gives at least one piece, no piece holds the separator, and there is one piece exactly when the separator is absent |
| Strings.SplitFirst | mitre_sig_converter/api/mitre_api.py:139 | the first piece is the text before the first separator (the whole string if there is none), so it is a prefix |
| Strings.JoinSplit | mitre_sig_converter/utils/config_handler.py:49 | joining the pieces with the separator gives the string back |
| Strings.JoinAppend | mitre_sig_converter/converter/kql_converter.py:118 | joining two non-empty lists puts exactly one separator between their joins |
| Strings.SplitJoin | mitre_sig_converter/utils/config_handler.py:49 | splitting a join of separator-free pieces gives the pieces back |
| Strings.JoinContains | mitre_sig_converter/converter/kql_converter.py:118 | every piece of a join occurs in the joined text |
| Strings.TrimStartSpec | mitre_sig_converter/models/technique.py:40 | `lstrip` removes exactly the leading run of stripped characters |
| Strings.TrimEndSpec | mitre_sig_converter/models/technique.py:40 | `rstrip` removes exactly the trailing run of stripped characters |
| Strings.StripByEnds | mitre_sig_converter/models/technique.py:40 | a stripped string neither starts nor ends with a stripped character |
| Strings.StripEmptyIff | mitre_sig_converter/models/technique.py:36-40 | stripping leaves nothing exactly when every character would be stripped |
| Strings.StripByIdempotent | mitre_sig_converter/models/technique.py:40 | stripping twice is stripping once |
| Strings.NatToString | mitre_sig_converter/converter/yara_converter.py:64 | the decimal rendering of an index is a non-empty string of digits, "0" exactly for zero, and without a leading zero otherwise |
| Strings.NatToStringRoundTrip | mitre_sig_converter/converter/yara_converter.py:64 | reading the digits back gives the index |
| Strings.NatToStringInjective | mitre_sig_converter/converter/yara_converter.py:64 | distinct indices render to distinct strings |
| Strings.WordTokensAreWords | mitre_sig_converter/converter/sigma_converter.py:124 | every `\b\w+\b` match is a non-empty run of word characters |
| Strings.WordTokensCover | mitre_sig_converter/converter/sigma_converter.py:124 | the matches laid end to end are exactly the word characters of the name, in order |
| Strings.WordTokensNonWordHead | mitre_sig_converter/converter/sigma_converter.py:124 | a leading non-word character starts no match and is skipped |
| Strings.WordTokensRunHead | mitre_sig_converter/converter/sigma_converter.py:124 | a run of word characters ending at the end of the text or at a non-word character is one whole match, so matches are maximal runs |
| Strings.LowerWordTokensRunHead | mitre_sig_converter/converter/sigma_converter.py:124 | the same after lower-casing the text: the lower-cased run is the first match |
| Seqs.DedupSpec | mitre_sig_converter/converter/kql_converter.py:99 | `dict.fromkeys` keeps every element, once each |
| Seqs.Dedup | mitre_sig_converter/converter/kql_converter.py:99 | every kept element comes from the input, and nothing is added |
| Seqs.DedupFirstOccurrenceOrder | mitre_sig_converter/converter/kql_converter.py:99 | the kept elements are in the order of their first occurrences |
| Seqs.DedupNoDups | mitre_sig_converter/converter/kql_converter.py:99 | a list without duplicates is unchanged |
| Seqs.DedupAppendFresh | mitre_sig_converter/converter/kql_converter.py:96-99 | appending an unseen element appends it to the result |
| Seqs.DedupAppendSeen | mitre_sig_converter/converter/kql_converter.py:96-99 | appending an element already seen changes nothing |
| Seqs.DedupDropSeen | mitre_sig_converter/converter/kql_converter.py:96-99 | a repeat of an earlier element can be dropped before de-duplicating |
| Seqs.Filter | mitre_sig_converter/converter/sigma_converter.py:95-98 | a list comprehension with a test keeps only elements that pass, drawn from the input, and misses none that pass |
| Seqs.FilterAppend | mitre_sig_converter/converter/sigma_converter.py:95-98 | the kept elements of a concatenation are those of the first part, in order, then those of the second |
| Seqs.FilterSplit | mitre_sig_converter/converter/sigma_converter.py:95-98 | an element in the middle of the input is kept once, in its own place, exactly when it passes |
| Seqs.FilterAll | mitre_sig_converter/models/technique.py:48-52 | the filter keeps everything exactly when every element passes |
| Techniques.DetectionLinePatterns | mitre_sig_converter/models/technique.py:31-42 | no detection-line entry is empty, and there is at most one per line |
| Techniques.BlankLineCleansEmpty | mitre_sig_converter/models/technique.py:35-41 | a blank line cleans to the empty string, so the separate blank-line test never changes the outcome |
| Techniques.DetectionLinePatternsSpec | mitre_sig_converter/models/technique.py:31-42 | the detection-line entries are exactly the non-empty cleaned lines, in line order |
| Techniques.DescriptionPatternsSpec | mitre_sig_converter/models/technique.py:45-52 | the description entries are the stripped lines whose lower-cased text holds one of the five detection keywords, once per line, in line order |
| Techniques.DataSourcePatterns | mitre_sig_converter/models/technique.py:55-57 | one "Data Source: " entry per data source, in order |
| Techniques.DetectionPatterns | mitre_sig_converter/models/technique.py:21-59 | the non-empty cleaned detection lines (when there is detection text), then the stripped keyword lines of the description, then one entry per data source, each in order |
| Techniques.IsApplicableToPlatform | mitre_sig_converter/models/technique.py:61-87 | applicable exactly when no platform is listed, or when the lower-cased query equals or contains some lower-cased listed platform |
| Techniques.BaseId | mitre_sig_converter/models/technique.py:115 | the base id has no dot, is a prefix of the id, and is the whole id when there is no dot |
| Techniques.BaseIdOfSubId | mitre_sig_converter/models/technique.py:115 | the base id of a sub-technique id `p.s` is `p` |
| Techniques.CommonProcesses | mitre_sig_converter/models/technique.py:89-124 | empty when no platform qualifies; the base id's Windows table list alone for Windows-only platforms, its Unix list alone for Linux/macOS-only, and the Windows list followed by the Unix list when both qualify, each list in table order |
| Techniques.WindowsProcessesHaveExtension | mitre_sig_converter/models/technique.py:99-104 | every Windows process name carries a four-character extension |
| Techniques.UnixProcessesLackExtension | mitre_sig_converter/models/technique.py:107-111 | no Unix process name carries one |
| Techniques.CommonProcessesWindowsFirst | mitre_sig_converter/models/technique.py:113-122 | every Windows process comes before every Unix process |
| Techniques.InterpreterProcessesOnWindows | mitre_sig_converter/models/technique.py:99-117 | any technique under T1059 whose only platform is Windows gets cmd, powershell, wscript and cscript |
| Techniques.CommonProcessesSubtechniqueExample | mitre_sig_converter/models/technique.py:89-124 | T1059.001 on Windows is looked up under its parent and gets the four interpreter binaries |
| Techniques.CommonFilesSpec | mitre_sig_converter/models/technique.py:126-161 | files only for Windows or Unix-like platforms, with 0, 4, 5, 7 or 11 entries; the T1547 entries per platform; nothing for other ids |
| Techniques.CommonFiles | mitre_sig_converter/models/technique.py:126-161 | the full case table: Windows autostart locations for T1547 followed by the Unix ones when a Unix platform is present too, only the Unix ones without Windows, the five script globs for Windows T1059, and nothing in every other case |
| Techniques.CommonRegistryKeys | mitre_sig_converter/models/technique.py:163-191 | registry keys only when some platform is exactly "windows" |
| Techniques.CommonRegistryKeysSpec | mitre_sig_converter/models/technique.py:163-191 | keys exactly for Windows with a T1547 or T1112 id; the Run keys exactly for T1547; nothing else is possible |
| Techniques.NetworkIndicators | mitre_sig_converter/models/technique.py:193-230 | T1071, T1095, T1571 and T1572 each give their own indicator list (application-layer, non-application-layer, non-standard-port, tunnelling); any other id gives none |
| Techniques.AgnosticPatterns | mitre_sig_converter/models/technique.py:232-268 | T1055, T1059, T1569 and T1078 each give their own pattern list (injection, interpreter, system-service, valid-account); any other id gives none |
| Techniques.CuesSpec | mitre_sig_converter/models/technique.py:193-268 | the network and agnostic cue lists have 0, 3 or 4 entries, and are non-empty exactly for the id prefixes the tables name |
| Techniques.CuesIgnorePlatforms | mitre_sig_converter/models/technique.py:193-268 | the network and agnostic cues depend on the id alone |
| BaseConverter.CreateSignatureContext | mitre_sig_converter/converter/base_converter.py:119-136 | fails exactly on a missing technique; otherwise copies the record's fields and every derived indicator list |
| BaseConverter.SanitizeId | mitre_sig_converter/converter/base_converter.py:62-65 | dots become underscores, nothing else changes, and no dot is left |
| BaseConverter.SanitizeIdIdempotent | mitre_sig_converter/converter/base_converter.py:62-65 | sanitising twice is sanitising once |
| BaseConverter.SanitizeIdInverse | mitre_sig_converter/converter/base_converter.py:62-65 | for ids without underscores, turning underscores back into dots restores the id |
| BaseConverter.TechniquePath | mitre_sig_converter/converter/yara_converter.py:44 | the page path is the ATT&CK techniques URL followed by the id with every '.' turned into '/', character by character; no dot is left after the base URL |
| BaseConverter.TechniquePathInverse | mitre_sig_converter/converter/yara_converter.py:44 | the id can be read back from its page path by turning '/' back into '.' |
| BaseConverter.Reference | mitre_sig_converter/converter/yara_converter.py:44 | the reference is the page path followed by one "/" |
| BaseConverter.RuleName | mitre_sig_converter/converter/yara_converter.py:40 | the rule name is "MITRE_ATT_CK_" and the sanitised id, with no dot |
| YaraConverter.PrefixDeterminesKind | mitre_sig_converter/converter/yara_converter.py:59-132 | an entry id starts with the prefix of its own kind and of no other |
| YaraConverter.ParseStringId | mitre_sig_converter/converter/yara_converter.py:59-132 | reading an entry id back gives the kind and index it was made from |
| YaraConverter.StringIdInjective | mitre_sig_converter/converter/yara_converter.py:59-132 | different kinds or indices give different ids |
| YaraConverter.TextStrings | mitre_sig_converter/converter/yara_converter.py:61-83 | one text entry per file, process or registry key, with its enumerate index and value |
| YaraConverter.NetworkKind | mitre_sig_converter/converter/yara_converter.py:86-104 | first match wins: DNS when the text mentions "DNS", else HTTP when it mentions "HTTP", else port when it mentions a port in any case, else no entry |
| YaraConverter.AgnosticKind | mitre_sig_converter/converter/yara_converter.py:107-132 | first match wins, case-insensitively: memory allocation, else script, else service, else account or login, else no entry |
| YaraConverter.RegexSlotsSound | mitre_sig_converter/converter/yara_converter.py:86-132 | every regex entry names a classified indicator at its own enumerate index |
| YaraConverter.RegexSlotsComplete | mitre_sig_converter/converter/yara_converter.py:86-132 | no classified indicator is missed |
| YaraConverter.RegexSlotsIncreasing | mitre_sig_converter/converter/yara_converter.py:86-132 | regex entry indices strictly increase, so indices skip unclassified indicators |
| YaraConverter.RegexStringsFollowSlots | mitre_sig_converter/converter/yara_converter.py:86-132 | each regex entry carries the id and pattern of its slot |
| YaraConverter.StringTable | mitre_sig_converter/converter/yara_converter.py:59-134 | the table has every text entry and at most one regex entry per cue |
| YaraConverter.StringTableFollowsSlots | mitre_sig_converter/converter/yara_converter.py:59-134 | entry p of the table carries the id of slot p, and slots go section by section |
| YaraConverter.StringTableIdsDistinct | mitre_sig_converter/converter/yara_converter.py:59-134 | the string ids are pairwise distinct |
| YaraConverter.StringTableTextPart | mitre_sig_converter/converter/yara_converter.py:61-83 | the table starts with the files, then the processes, then the registry keys, as text entries |
| YaraConverter.StringTableRegexOnly | mitre_sig_converter/converter/yara_converter.py:85-132 | after the text entries come only regex entries |
| YaraConverter.StringTableHasNetworkEntries | mitre_sig_converter/converter/yara_converter.py:86-104 | every classified network indicator has its regex entry |
| YaraConverter.StringTableHasAgnosticEntries | mitre_sig_converter/converter/yara_converter.py:107-132 | every classified agnostic pattern has its regex entry |
| YaraConverter.GenerateStrings | mitre_sig_converter/converter/yara_converter.py:49-134 | the ids of a technique's string table are pairwise distinct |
| YaraConverter.IdGroupOfStringId | mitre_sig_converter/converter/yara_converter.py:156-166 | each id lands in the group of its own kind; memory, script, service and account ids land in "other" |
| YaraConverter.GroupIds | mitre_sig_converter/converter/yara_converter.py:156-166 | a group's list holds only ids with its prefix, misses none of them, and is empty exactly when no id has it |
| YaraConverter.GroupIdsFromTable | mitre_sig_converter/converter/yara_converter.py:156-166 | every id of a group is the id of some entry of the string table |
| YaraConverter.GroupIdsAppend | mitre_sig_converter/converter/yara_converter.py:156-166 | a group's ids from a concatenated table are those from the first part, then those from the second |
| YaraConverter.GroupIdsInOrder | mitre_sig_converter/converter/yara_converter.py:156-166 | an entry contributes its id to a group once, in its table position, exactly when its prefix puts it there |
| YaraConverter.UsedGroupsSpec | mitre_sig_converter/converter/yara_converter.py:169-197 | the non-empty groups come in group order, and each of them appears |
| YaraConverter.ConditionGroups | mitre_sig_converter/converter/yara_converter.py:156-197 | at most five groups, none empty, and some group exactly when there is some string |
| YaraConverter.ConditionGroupsCover | mitre_sig_converter/converter/yara_converter.py:156-166 | every string id is counted in some group |
| YaraConverter.ConditionGroupsUnique | mitre_sig_converter/converter/yara_converter.py:156-166 | no string id is counted in two groups |
| YaraConverter.ConditionGroupsOrdered | mitre_sig_converter/converter/yara_converter.py:169-197 | each condition group is the whole id list of one prefix group, and the groups come file, process, registry, network, other |
| YaraConverter.FragmentShape | mitre_sig_converter/converter/yara_converter.py:170-173 | a group of one id gives `$id`; a larger group gives `any of (` + the `$`-prefixed ids joined by ", " + `)`; every id of the group occurs in its fragment |
| YaraConverter.Conditions | mitre_sig_converter/converter/yara_converter.py:168-201 | one to five conditions; the fallback `filesize < 5MB` exactly when there are no strings; otherwise one condition per group |
| YaraConverter.GenerateConditions | mitre_sig_converter/converter/yara_converter.py:136-203 | the fallback condition appears exactly when the technique's string table is empty |
| YaraConverter.RuleName | mitre_sig_converter/converter/yara_converter.py:40 | the rule name is the shared rule-name format, with no dot |
| YaraConverter.Reference | mitre_sig_converter/converter/yara_converter.py:44 | the reference is the shared reference format |
| SigmaConverter.Lookup | mitre_sig_converter/converter/sigma_converter.py:64-67 | a key is found exactly when the selection holds it, with its values |
| SigmaConverter.UpdateSets | mitre_sig_converter/converter/sigma_converter.py:72-74 | after `update` the key holds the new values |
| SigmaConverter.UpdateFrame | mitre_sig_converter/converter/sigma_converter.py:72-74 | `update` leaves every other key as it was |
| SigmaConverter.UpdateKeys | mitre_sig_converter/converter/sigma_converter.py:72-74 | an existing key keeps its place; a new key goes last |
| SigmaConverter.UpdateDistinct | mitre_sig_converter/converter/sigma_converter.py:72-74 | `update` keeps the keys distinct |
| SigmaConverter.CommandLineValues | mitre_sig_converter/converter/sigma_converter.py:95-98 | the CommandLine values are agnostic patterns mentioning "command" or "argument", and none that do is missed |
| SigmaConverter.CommandLineValuesInOrder | mitre_sig_converter/converter/sigma_converter.py:95-98 | a pattern contributes itself once, in its place in the list, exactly when it mentions "command" or "argument" |
| SigmaConverter.SignificantKeywords | mitre_sig_converter/converter/sigma_converter.py:124-125 | the keywords are words of the lower-cased name longer than three characters, and none of those is missed |
| SigmaConverter.SignificantKeywordsNonWordHead | mitre_sig_converter/converter/sigma_converter.py:124-125 | a leading non-word character of the name contributes no keyword |
| SigmaConverter.SignificantKeywordsWordHead | mitre_sig_converter/converter/sigma_converter.py:124-125 | a leading whole word gives its lower-cased form first when it is longer than three characters, then the keywords of the rest, in order |
| SigmaConverter.SelectionRules | mitre_sig_converter/converter/sigma_converter.py:70-119 | the selection is empty exactly when none of the six rules fires: none of the three indicator guards holds and no command, network or login cue occurs |
| SigmaConverter.SelectionIndicatorFields | mitre_sig_converter/converter/sigma_converter.py:70-86 | Image, TargetFilename and TargetObject are present exactly when their guards hold, with the getter lists |
| SigmaConverter.SelectionCueFields | mitre_sig_converter/converter/sigma_converter.py:88-113 | CommandLine, DestinationPort and EventID are present exactly when their cues occur, with the fixed port and event lists |
| SigmaConverter.SelectionLookup | mitre_sig_converter/converter/sigma_converter.py:70-113 | each selection key holds what the last rule for that key put there |
| SigmaConverter.FallbackHasOnlyEventType | mitre_sig_converter/converter/sigma_converter.py:122-130 | the fallback selection holds only `EventType\|contains` |
| SigmaConverter.GenerateDetection | mitre_sig_converter/converter/sigma_converter.py:64-132 | the alternative selection and the "selection or selection_alt" condition appear exactly when an agnostic pattern mentions login or account |
| SigmaConverter.DetectionIndicatorFields | mitre_sig_converter/converter/sigma_converter.py:70-86 | for a technique, each indicator field is present exactly when its getter's list is non-empty |
| SigmaConverter.DetectionCueFields | mitre_sig_converter/converter/sigma_converter.py:88-113 | for a technique, the cue fields follow its agnostic patterns |
| SigmaConverter.DetectionFallback | mitre_sig_converter/converter/sigma_converter.py:121-130 | with no indicators and no cues, the selection is the name's keywords, or empty when there are none |
| SigmaConverter.DetectionKeysDistinct | mitre_sig_converter/converter/sigma_converter.py:64-132 | the selection's keys are distinct |
| SigmaConverter.Attribute | mitre_sig_converter/models/technique.py:11-19 | reading a data attribute fails exactly for names that are not among the nine dataclass fields |
| SigmaConverter.IndicatorAttribute | mitre_sig_converter/converter/sigma_converter.py:70-86 | the three indicator guards read the getters' lists; every other name reads the record |
| SigmaConverter.DetectionVia | mitre_sig_converter/converter/sigma_converter.py:64-132 | the detection fails with the first guard's error, and is built from the lists the guards read when all three reads succeed |
| SigmaConverter.DetectionViaGetters | mitre_sig_converter/converter/sigma_converter.py:64-132 | reading the guards through the getters gives the corrected detection |
| SigmaConverter.DetectionAsWrittenAlwaysRaises | mitre_sig_converter/converter/sigma_converter.py:70 | as written, the first guard raises AttributeError for every technique |
| SigmaConverter.DetectionOnSampleTechnique | mitre_sig_converter/converter/sigma_converter.py:64-132 | the corrected detection of a T1055 Windows technique selects on its processes |
| SigmaConverter.Product | mitre_sig_converter/converter/sigma_converter.py:147-155 | the product is windows when some platform is exactly "windows", else linux when one is "linux", else macos when one is "macos", else any |
| SigmaConverter.PrefixCategory | mitre_sig_converter/converter/sigma_converter.py:158-170 | registry_event exactly for T1547, authentication exactly for T1078, network_connection exactly for T1071, process_creation for every other id |
| SigmaConverter.DetermineLogSource | mitre_sig_converter/converter/sigma_converter.py:144-176 | registry_event only with a windows product; a T1547 technique gets file_event exactly when the product is not windows |
| SigmaConverter.DetermineLevel | mitre_sig_converter/converter/sigma_converter.py:217-227 | high exactly for T1055, low exactly for T1071, medium otherwise |
| SigmaConverter.GenerateFalsePositives | mitre_sig_converter/converter/sigma_converter.py:188-204 | administrative activity first; T1059, T1055, T1078 and T1071 each add their own two entries (scripting, DLL injection/antivirus, user activity, network traffic); any other id gives the one entry |
| SigmaConverter.GenerateTags | mitre_sig_converter/converter/sigma_converter.py:239-255 | the technique tag, one tag per tactic in order, one lower-cased tag per platform in order, then the agnostic tag |
| SigmaConverter.TagTactic | mitre_sig_converter/converter/sigma_converter.py:246 | a tag names a tactic exactly when it has the tactic prefix, and the prefix plus the tactic is the tag |
| SigmaConverter.TagsNameTactics | mitre_sig_converter/converter/sigma_converter.py:245-246 | each tactic can be read back from its tag |
| SigmaConverter.RuleId | mitre_sig_converter/converter/sigma_converter.py:40 | "mitre_attack_" and the sanitised, lower-cased id, with no dot and no upper-case letter |
| SigmaConverter.References | mitre_sig_converter/converter/sigma_converter.py:48 | one reference: the shared reference without its trailing "/" |
| KqlConverter.WindowsTables | mitre_sig_converter/converter/kql_converter.py:62-73 | the list for each of the five prefixes (T1055, T1059, T1547, T1078, T1071), nothing for other ids |
| KqlConverter.LinuxTables | mitre_sig_converter/converter/kql_converter.py:75-84 | Syslog and LinuxAuditLogs for T1059, T1547 and T1078, NetworkEvents and DnsEvents for T1071, nothing for other ids |
| KqlConverter.MacosTables | mitre_sig_converter/converter/kql_converter.py:86-93 | MacOSAuditLogs and Syslog for T1059, T1547 and T1078, nothing for other ids |
| KqlConverter.DetermineTables | mitre_sig_converter/converter/kql_converter.py:59-101 | no duplicates, exactly the platform candidates and the agnostic pair, always SecurityAlert |
| KqlConverter.TablesEndWithIncident | mitre_sig_converter/converter/kql_converter.py:96-99 | the list always ends with SecurityIncident |
| KqlConverter.TablesAgnosticOnly | mitre_sig_converter/converter/kql_converter.py:59-101 | the list is just the agnostic pair exactly when no platform branch adds a table |
| KqlConverter.TablesFirstOccurrenceOrder | mitre_sig_converter/converter/kql_converter.py:59-101 | tables keep the order of their first appearance among the candidates |
| KqlConverter.AnyContainsClause | mitre_sig_converter/converter/kql_converter.py:118-121 | the clause is parenthesised |
| KqlConverter.AnyContainsClauseDisjunction | mitre_sig_converter/converter/kql_converter.py:118-121 | the clause is, in parentheses, one contains-test per indicator in the indicators' order, separated by " or " |
| KqlConverter.AnyContainsClauseMentionsAll | mitre_sig_converter/converter/kql_converter.py:118-121 | every indicator's contains-test occurs in the clause |
| KqlConverter.AnyContainsClauseSingle | mitre_sig_converter/converter/kql_converter.py:118-121 | a single indicator gives its one test in parentheses |
| KqlConverter.PartFor | mitre_sig_converter/converter/kql_converter.py:113-151 | a table's where-clause is found exactly when some part reads that table |
| KqlConverter.QueryPartsContent | mitre_sig_converter/converter/kql_converter.py:113-151 | each part is present exactly when its list is non-empty (DNS: when some indicator mentions DNS), with its clause |
| KqlConverter.GenerateQueryParts | mitre_sig_converter/converter/kql_converter.py:113-151 | a technique's parts are built from its process, file, registry and network getters, and there are none exactly when all three lists are empty and no network indicator mentions DNS |
| KqlConverter.GenerateQueryPartsContent | mitre_sig_converter/converter/kql_converter.py:113-151 | for a technique, the Process, file, registry and DNS parts are each present exactly when their getter list is non-empty (DNS: when some network indicator mentions DNS), with the clause over that list |
| KqlConverter.QueryPartsOrdered | mitre_sig_converter/converter/kql_converter.py:113-151 | parts come process, file, registry, DNS, each table at most once |
| KqlConverter.QueryId | mitre_sig_converter/converter/kql_converter.py:40 | "MITRE_ATT_CK_" and the sanitised id, with no dot |
| KqlConverter.QueryIdIsYaraRuleName | mitre_sig_converter/converter/kql_converter.py:40 | the query id equals the YARA rule name of the same technique |
| KqlConverter.Reference | mitre_sig_converter/converter/kql_converter.py:44 | the technique page with a trailing "/" |
| ConfigHandler.GetPath | mitre_sig_converter/utils/config_handler.py:47-53 | a missing first segment, or a scalar where a map is needed, gives nothing |
| ConfigHandler.Get | mitre_sig_converter/utils/config_handler.py:36-53 | the default when the path fails, in particular when the first segment is absent |
| ConfigHandler.SetPath | mitre_sig_converter/utils/config_handler.py:63-67 | fails exactly when a proper prefix of the path ends at a scalar; on success the first segment is added to the top-level keys |
| ConfigHandler.Set | mitre_sig_converter/utils/config_handler.py:55-67 | fails exactly when the dotted key runs through a scalar |
| ConfigHandler.GetAfterSet | mitre_sig_converter/utils/config_handler.py:36-67 | `get(k)` after a successful `set(k, v)` is `v` |
| ConfigHandler.SetFrame | mitre_sig_converter/utils/config_handler.py:36-67 | `set` changes no key whose path parts ways with the key set |
| ConfigHandler.DeepUpdate | mitre_sig_converter/utils/config_handler.py:113-119 | succeeds exactly when no non-empty map meets a scalar; a scalar succeeds only under an empty update and is then kept; a merged map has the union of both key sets, every scalar of the update under its key, and every key the update does not mention unchanged |
| ConfigHandler.Merged | mitre_sig_converter/utils/config_handler.py:113-119 | a merge into a map has the union of the keys; an empty update leaves a scalar alone |
| ConfigHandler.MergeConfig | mitre_sig_converter/utils/config_handler.py:106-121 | the merged configuration has the union of the keys and keeps every key the other side lacks |
| ConfigHandler.MergeEmptyIdentity | mitre_sig_converter/utils/config_handler.py:106-121 | merging the empty configuration changes nothing |
| ConfigHandler.MergeLeafPaths | mitre_sig_converter/utils/config_handler.py:113-119 | after a merge every leaf path of the merged-in tree holds its value |
| ConfigHandler.MergeUntouchedPaths | mitre_sig_converter/utils/config_handler.py:113-119 | a merge changes no path the merged-in tree does not reach |
| ConfigHandler.MergeIntoScalarExamples | mitre_sig_converter/utils/config_handler.py:113-119 | merging a non-empty map into a scalar raises; merging an empty one keeps the scalar |
| MitreApi.PrimaryId | mitre_sig_converter/api/mitre_api.py:50 | an empty reference list raises; a missing one gives the empty id |
| MitreApi.MitreTactics | mitre_sig_converter/api/mitre_api.py:56-58 | the tactics are phase names of mitre-attack phases, and none of those is missed |
| MitreApi.MitreTacticsInOrder | mitre_sig_converter/api/mitre_api.py:56-58 | a phase contributes its name once, in its place, exactly when it belongs to the mitre-attack chain |
| MitreApi.DataSourcesOf | mitre_sig_converter/api/mitre_api.py:60-66 | the data sources, else the detection text as a one-element list, else nothing |
| MitreApi.RelatedIds | mitre_sig_converter/api/mitre_api.py:71-75 | no related id equals the technique's own id, and every mitre-attack reference to another id contributes its id |
| MitreApi.RelatedIdsFromReferences | mitre_sig_converter/api/mitre_api.py:71-75 | every related id is the id of some mitre-attack reference to another technique |
| MitreApi.RelatedIdsAppend | mitre_sig_converter/api/mitre_api.py:71-75 | the related ids of a concatenated reference list are those of the first part, then those of the second |
| MitreApi.RelatedIdsInOrder | mitre_sig_converter/api/mitre_api.py:71-75 | a reference contributes its id once, in its place, exactly when it is a mitre-attack reference to another id |
| MitreApi.ToTechnique | mitre_sig_converter/api/mitre_api.py:48-87 | raises exactly for an attack pattern with an empty reference list; converts exactly the attack patterns whose id starts with "T", copying name, description, detection and platforms and deriving tactics, data sources, related ids and the sub-technique flag |
| MitreApi.FindById | mitre_sig_converter/api/mitre_api.py:107-109 | a technique is found exactly when its id is in the catalogue |
| MitreApi.FindByIdMember | mitre_sig_converter/api/mitre_api.py:107-109 | with distinct ids, looking up a member's id finds that member |
| MitreApi.Insert | mitre_sig_converter/api/mitre_api.py:77 | an existing id keeps its place; a new id is appended |
| MitreApi.FindInsert | mitre_sig_converter/api/mitre_api.py:77 | after inserting, the id finds the new technique and other ids are unaffected |
| MitreApi.ParseFrom | mitre_sig_converter/api/mitre_api.py:48-87 | the loop succeeds exactly when every object converts without raising |
| MitreApi.AllConvertIff | mitre_sig_converter/api/mitre_api.py:48-87 | the objects convert as a whole exactly when each one does |
| MitreApi.ParseTechniques | mitre_sig_converter/api/mitre_api.py:41-89 | parsing raises exactly when some object raises |
| MitreApi.ParseTechniquesIds | mitre_sig_converter/api/mitre_api.py:41-89 | the catalogue's ids are the converted ids, each once, in first-seen order |
| MitreApi.ParseTechniquesLastWins | mitre_sig_converter/api/mitre_api.py:77 | each id maps to the last technique parsed with it |
| MitreApi.AddTo | mitre_sig_converter/api/mitre_api.py:97-99 | a new tactic key is appended; a known one keeps its place |
| MitreApi.AddToIds | mitre_sig_converter/api/mitre_api.py:97-99 | the id is appended to that tactic's list and no other list changes |
| MitreApi.AddTacticsIds | mitre_sig_converter/api/mitre_api.py:96-99 | a technique is listed under a tactic exactly when it was before or the tactic is one of its own |
| MitreApi.BuildIndexIds | mitre_sig_converter/api/mitre_api.py:95-99 | the index lists an id under a tactic exactly when some catalogue entry with that id has the tactic |
| MitreApi.TacticIndexIff | mitre_sig_converter/api/mitre_api.py:91-101 | `_parse_tactics` lists a technique under a tactic exactly when the tactic is one of its own |
| MitreApi.Normalize | mitre_sig_converter/api/mitre_api.py:114 | each space becomes "-" and every other character is lower-cased, so the length is kept and no space is left |
| MitreApi.MatchingTactic | mitre_sig_converter/api/mitre_api.py:117-121 | no match exactly when no key lower-cases to the wanted name; a match is such a key |
| MitreApi.TechniquesFor | mitre_sig_converter/api/mitre_api.py:127 | the techniques are exactly those found for the listed ids |
| MitreApi.TechniquesForAppend | mitre_sig_converter/api/mitre_api.py:127 | the comprehension distributes over concatenation of the id list, so it keeps the list's order |
| MitreApi.TechniquesForInOrder | mitre_sig_converter/api/mitre_api.py:127 | an id contributes its technique in its place, once per occurrence, exactly when the catalogue holds it |
| MitreApi.GetTechniquesByTactic | mitre_sig_converter/api/mitre_api.py:111-127 | no match gives nothing; everything returned is in the catalogue |
| MitreApi.TechniquesByTacticIff | mitre_sig_converter/api/mitre_api.py:111-127 | over the parsed index, a technique is returned exactly when it lists the matched tactic |
| MitreApi.GetSubtechniques | mitre_sig_converter/api/mitre_api.py:129-132 | exactly the catalogue's sub-techniques whose id starts with the parent id and a dot |
| MitreApi.GetParentTechnique | mitre_sig_converter/api/mitre_api.py:134-140 | nothing for an id without a dot; otherwise the catalogue entry whose id is the base id, found exactly when that id is in the catalogue |
| MitreApi.ParentOfDottedId | mitre_sig_converter/api/mitre_api.py:134-140 | for any `p.s` with a dot-free `p`, the parent lookup finds exactly what looking up `p` finds |
| MitreApi.ParentOfSubtechnique | mitre_sig_converter/api/mitre_api.py:129-140 | the parent of every sub-technique of `p` is the technique with id `p` |

## Left out

- Template loading and rendering with Jinja2 and the `convert` methods' final
  text are not modelled. The model stops at the context values the
  templates receive.
- `_format_string` and `_to_regex` are not modelled. They are regular-expression
  rewrites, and no modelled operation calls them.
- The database layer, the CLI, the file handler and the logger are not modelled.
  They are I/O.
- `ConfigHandler.load_config`, `save_config` and `get_env_var` are not modelled.
  They read files or the environment.
- `MitreApi._load_enterprise_data` is not modelled. It reads a file. The parser
  takes the bundle's object list directly.
- KQL query parts after the DNS part are not modelled. That includes the HTTP part
  that starts at kql_converter.py:153, because the rest of the file is not part
  of this model.
- Strings.Lower: lower-cases ASCII letters only. Every marker the code tests
  against is ASCII, but non-ASCII platform names or technique names lower-case
  differently in Python.
- Strings.WordTokens: treats ASCII letters, digits and `_` as word characters.
  Python's `\w` also matches other Unicode letters and digits.
- ConfigHandler.MergeConfig: a failing merge returns an error and does not
  model the keys `deep_update` had already written before it raised.
- ConfigHandler.Value: a non-map value is one opaque string. Lists and numbers
  behave the same way, because the handler never looks inside them.
- MitreApi.MitreTactics: assumes every kill-chain phase has a `phase_name`.
  The code would put `None` into the tactic list otherwise.
- MitreApi.RelatedIds: a mitre-attack reference without `external_id` is
  modelled as contributing the empty id. The code appends `None`.
- `MitreApi.get_all_techniques` is modelled only as the catalogue sequence
  itself. It has no separate member.
- SigmaConverter.Attribute: covers data-attribute names only. Python's
  `getattr` also succeeds for the class's methods (`get_common_files` and so
  on) and for dunder names. The guards it stands in for read data attributes,
  so those names are not modelled.
- SigmaConverter.GenerateDetection: reads each of the first three guards as
  "the getter's list is non-empty". This is the corrected behaviour; see
  Findings.
- The Sigma `title`, `status` and `author` strings and the YARA and KQL `author`
  strings are constants. They are not modelled.

## Findings

| source | as written | input that shows it | evidently intended | confidence | as-written member | corrected member |
|---|---|---|---|---|---|---|
| mitre_sig_converter/converter/sigma_converter.py:70-87 | the guards read `technique.common_processes`, `technique.common_files` and `technique.common_registry_keys`, which are not fields of the `Technique` dataclass, so the first guard raises `AttributeError` | any technique, e.g. id "T1055", name "Process Injection", platforms ["Windows"] | guard each selection field on the matching getter (`get_common_processes()` and so on) returning a non-empty list | not executed | SigmaConverter.DetectionAsWrittenAlwaysRaises | SigmaConverter.DetectionViaGetters |

=== FILE: base_converter.dfy ===
/** What the three converters share: the rendering context built from a
    technique (with its `None` check), id sanitising, and the reference URL. */
module BaseConverter {
  import opened Wrappers
  import opened Strings
  import opened Techniques

  /** The `ValueError("Technique cannot be None")` every converter raises. */
  datatype ConvertError = TechniqueIsNone

  /** The context dictionary handed to the templates. */
  datatype Context = Context(
    technique: Technique,
    id: string,
    name: string,
    description: string,
    tactics: seq<string>,
    platforms: seq<string>,
    detectionPatterns: seq<string>,
    agnosticPatterns: seq<string>,
    commonProcesses: seq<string>,
    commonFiles: seq<string>,
    registryKeys: seq<string>,
    networkIndicators: seq<string>)

  /** `BaseConverter.create_signature_context`: fails on a missing technique,
      otherwise copies the record's fields and every derived indicator list. */
  function CreateSignatureContext(t: Option<Technique>): (r: Result<Context, ConvertError>)
    ensures r.Failure? <==> t.None?
    ensures r.Failure? ==> r.error == TechniqueIsNone
    ensures t.Some? ==> r.Success? && r.value.technique == t.value
                        && r.value.id == t.value.id && r.value.name == t.value.name
                        && r.value.description == t.value.description
                        && r.value.tactics == t.value.tactics && r.value.platforms == t.value.platforms
    ensures t.Some? ==> r.Success? && r.value.detectionPatterns == DetectionPatterns(t.value)
                        && r.value.agnosticPatterns == AgnosticPatterns(t.value)
                        && r.value.commonProcesses == CommonProcesses(t.value)
                        && r.value.commonFiles == CommonFiles(t.value)
                        && r.value.registryKeys == CommonRegistryKeys(t.value)
                        && r.value.networkIndicators == NetworkIndicators(t.value)
  {
    match t
    case None => Failure(TechniqueIsNone)
    case Some(tech) =>
      Success(Context(
        tech, tech.id, tech.name, tech.description, tech.tactics, tech.platforms,
        DetectionPatterns(tech), AgnosticPatterns(tech), CommonProcesses(tech),
        CommonFiles(tech), CommonRegistryKeys(tech), NetworkIndicators(tech)))
  }

  /** `BaseConverter._sanitize_id`: dots become underscores, nothing else moves. */
  function SanitizeId(id: string): (r: string)
    ensures '.' !in r
    ensures |r| == |id|
    ensures forall i :: 0 <= i < |id| && id[i] != '.' ==> r[i] == id[i]
    ensures forall i :: 0 <= i < |id| && id[i] == '.' ==> r[i] == '_'
  {
    ReplaceCharRemoves(id, '.', '_');
    ReplaceChar(id, '.', '_')
  }

  /** Sanitising a sanitised id changes nothing. */
  lemma SanitizeIdIdempotent(id: string)
    ensures SanitizeId(SanitizeId(id)) == SanitizeId(id)
  {
    ReplaceCharRemoves(id, '.', '_');
  }

  /** Sanitising loses nothing for ids without underscores: turning the
      underscores back into dots gives the id back. */
  lemma SanitizeIdInverse(id: string)
    requires '_' !in id
    ensures ReplaceChar(SanitizeId(id), '_', '.') == id
  {
    ReplaceCharInverse(id, '.', '_');
  }

  const AttackTechniqueBase: string := "https://attack.mitre.org/techniques/"

  /** The technique's page: the base URL, the id with '.' turned into '/'. */
  function TechniquePath(id: string): (r: string)
    ensures StartsWith(r, AttackTechniqueBase)
    ensures |r| == |AttackTechniqueBase| + |id|
    ensures forall i :: 0 <= i < |id| ==>
              r[|AttackTechniqueBase| + i] == (if id[i] == '.' then '/' else id[i])
    ensures '.' !in r[|AttackTechniqueBase|..]
  {
    AttackTechniqueBase + ReplaceChar(id, '.', '/')
  }

  /** The id can be read back from its page path (ids never contain '/'). */
  lemma TechniquePathInverse(id: string)
    requires '/' !in id
    ensures ReplaceChar(TechniquePath(id)[|AttackTechniqueBase|..], '/', '.') == id
  {
    assert TechniquePath(id)[|AttackTechniqueBase|..] == ReplaceChar(id, '.', '/');
    ReplaceCharInverse(id, '.', '/');
  }

  /** The reference URL of the YARA and KQL rules: the page path plus "/". */
  function Reference(id: string): (r: string)
    ensures |r| == |TechniquePath(id)| + 1
    ensures r[..|r| - 1] == TechniquePath(id)
    ensures r[|r| - 1] == '/'
  {
    TechniquePath(id) + "/"
  }

  /** The rule/query name of the YARA and KQL rules. */
  function RuleName(id: string): (r: string)
    ensures StartsWith(r, "MITRE_ATT_CK_")
    ensures '.' !in r
    ensures r[13..] == SanitizeId(id)
  {
    "MITRE_ATT_CK_" + SanitizeId(id)
  }
}

=== FILE: config.dfy ===
/** The dotted-key configuration tree: `get` walks nested maps, `set` creates
    missing intermediate maps, `merge_config` deep-updates one tree with
    another. */
module ConfigHandler {
  import opened Wrappers
  import opened Strings

  /** A configuration value: a nested map, or anything else (a scalar or a
      list, which the handler never looks inside). */
  datatype Value = Leaf(scalar: string) | Node(entries: map<string, Value>)

  /** The configuration itself is always a map at the top. */
  type Config = map<string, Value>

  datatype ConfigError =
    | NotAMapping(key: string)   // `setdefault` or item assignment on a non-map
    | MergeIntoScalar            // `deep_update` asked to write into a non-map

  // ---------------------------------------------------------------------
  // get
  // ---------------------------------------------------------------------

  /** `value = value[k]` for each segment: `None` when a segment is missing
      (`KeyError`) or an intermediate value is not a map (`TypeError`). */
  function GetPath(c: Config, path: seq<string>): (r: Option<Value>)
    ensures path != [] && path[0] !in c ==> r.None?
    ensures |path| > 1 && path[0] in c && c[path[0]].Leaf? ==> r.None?
    decreases |path|
  {
    if path == [] then Some(Node(c))
    else if path[0] !in c then None
    else if |path| == 1 then Some(c[path[0]])
    else
      match c[path[0]]
      case Leaf(_) => None
      case Node(sub) => GetPath(sub, path[1..])
  }

  /** `ConfigHandler.get`: the value at the dotted key, or `default`. */
  function Get(c: Config, key: string, default: Value): (r: Value)
    ensures GetPath(c, Split(key, '.')).None? ==> r == default
    ensures Split(key, '.')[0] !in c ==> r == default
  {
    GetPath(c, Split(key, '.')).GetOr(default)
  }

  // ---------------------------------------------------------------------
  // set
  // ---------------------------------------------------------------------

  /** Some proper prefix of the path ends at a non-map value: `setdefault`
      then returns that value and the next step raises. */
  predicate Blocked(c: Config, path: seq<string>)
    decreases |path|
  {
    |path| > 1 && path[0] in c
    && (c[path[0]].Leaf? || Blocked(c[path[0]].entries, path[1..]))
  }

  /** The loop of `ConfigHandler.set` on a split key. */
  function SetPath(c: Config, path: seq<string>, v: Value): (r: Result<Config, ConfigError>)
    requires |path| >= 1
    ensures r.Failure? <==> Blocked(c, path)
    ensures r.Success? ==> path[0] in r.value && r.value.Keys == c.Keys + {path[0]}
    decreases |path|
  {
    if |path| == 1 then Success(c[path[0] := v])
    else if path[0] !in c then
      var sub := SetPath(map[], path[1..], v);
      Success(c[path[0] := Node(sub.value)])
    else
      match c[path[0]]
      case Leaf(_) => Failure(NotAMapping(path[0]))
      case Node(sub) =>
        var s :- SetPath(sub, path[1..], v);
        Success(c[path[0] := Node(s)])
  }

  /** `ConfigHandler.set`. A failing call raises before any intermediate map
      is created, so the configuration is left as it was. */
  function Set(c: Config, key: string, v: Value): (r: Result<Config, ConfigError>)
    ensures r.Failure? <==> Blocked(c, Split(key, '.'))
  {
    SetPath(c, Split(key, '.'), v)
  }

  /** After a successful `set`, the path holds the new value. */
  lemma {:induction false} GetAfterSetPath(c: Config, path: seq<string>, v: Value)
    requires |path| >= 1 && !Blocked(c, path)
    ensures GetPath(SetPath(c, path, v).value, path) == Some(v)
    decreases |path|
  {
    if |path| > 1 {
      if path[0] !in c {
        GetAfterSetPath(map[], path[1..], v);
      } else {
        GetAfterSetPath(c[path[0]].entries, path[1..], v);
      }
    }
  }

  /** `get(k)` after `set(k, v)` is `v`. */
  lemma GetAfterSet(c: Config, key: string, v: Value, default: Value)
    requires Set(c, key, v).Success?
    ensures Get(Set(c, key, v).value, key, default) == v
  {
    GetAfterSetPath(c, Split(key, '.'), v);
  }

  /** Two paths part ways at some segment, agreeing on every one before it. */
  predicate Diverge(p: seq<string>, q: seq<string>)
    decreases |p|
  {
    |p| > 0 && |q| > 0 && (p[0] != q[0] || Diverge(p[1..], q[1..]))
  }

  /** `set` changes no path that parts ways with the key. */
  lemma {:induction false} SetPathFrame(c: Config, p: seq<string>, q: seq<string>, v: Value)
    requires |p| >= 1 && !Blocked(c, p) && Diverge(p, q)
    ensures GetPath(SetPath(c, p, v).value, q) == GetPath(c, q)
    decreases |p|
  {
    if p[0] == q[0] {
      assert |p| > 1 && |q| > 1;
      if p[0] !in c {
        SetPathFrame(map[], p[1..], q[1..], v);
      } else {
        SetPathFrame(c[p[0]].entries, p[1..], q[1..], v);
      }
    }
  }

  /** The frame property in terms of dotted keys. */
  lemma SetFrame(c: Config, key: string, other: string, v: Value, default: Value)
    requires Set(c, key, v).Success? && Diverge(Split(key, '.'), Split(other, '.'))
    ensures Get(Set(c, key, v).value, other, default) == Get(c, other, default)
  {
    SetPathFrame(c, Split(key, '.'), Split(other, '.'), v);
  }

  // ---------------------------------------------------------------------
  // merge_config
  // ---------------------------------------------------------------------

  /** `d.get(k, {})`. */
  function Child(dm: map<string, Value>, k: string): (r: Value)
    ensures k !in dm ==> r == Node(map[])
  {
    if k in dm then dm[k] else Node(map[])
  }

  /** `deep_update(d, u)` raises exactly when it meets a non-map `d` with a
      non-empty `u` (an empty `u` leaves the loop body unrun). */
  predicate Mergeable(d: Value, u: map<string, Value>)
    decreases Node(u)
  {
    match d
    case Leaf(_) => u == map[]
    case Node(dm) => forall k | k in u && u[k].Node? :: Mergeable(Child(dm, k), u[k].entries)
  }

  /** What `deep_update(d, u)` returns when it does not raise: map values of
      `u` are merged recursively, every other value of `u` replaces the old
      one, and keys `u` does not mention keep their values. */
  function Merged(d: Value, u: map<string, Value>): (r: Value)
    requires Mergeable(d, u)
    ensures d.Leaf? ==> r == d
    ensures d.Node? ==> r.Node? && r.entries.Keys == d.entries.Keys + u.Keys
    decreases Node(u)
  {
    match d
    case Leaf(_) => d
    case Node(dm) =>
      Node(map k | k in dm.Keys + u.Keys ::
        if k in u then (if u[k].Node? then Merged(Child(dm, k), u[k].entries) else u[k]) else dm[k])
  }

  /** `deep_update`. */
  function DeepUpdate(d: Value, u: map<string, Value>): (r: Result<Value, ConfigError>)
    ensures r.Success? <==> Mergeable(d, u)
    ensures r.Success? ==> r.value == Merged(d, u)
    ensures d.Leaf? ==> (r.Success? <==> u == map[]) && (r.Success? ==> r.value == d)
    ensures r.Success? && d.Node? ==> r.value.Node? && r.value.entries.Keys == d.entries.Keys + u.Keys
    ensures r.Success? && d.Node? ==> forall k :: k in u && u[k].Leaf? ==> r.value.entries[k] == u[k]
    ensures r.Success? && d.Node? ==> forall k :: k in d.entries && k !in u ==> r.value.entries[k] == d.entries[k]
  {
    if Mergeable(d, u) then Success(Merged(d, u)) else Failure(MergeIntoScalar)
  }

  /** `ConfigHandler.merge_config`. */
  function MergeConfig(c: Config, o: Config): (r: Result<Config, ConfigError>)
    ensures r.Success? <==> Mergeable(Node(c), o)
    ensures r.Success? ==> r.value.Keys == c.Keys + o.Keys
    ensures r.Success? ==> forall k :: k in c && k !in o ==> r.value[k] == c[k]
  {
    var merged :- DeepUpdate(Node(c), o);
    Success(merged.entries)
  }

  /** Merging the empty configuration changes nothing. */
  lemma MergeEmptyIdentity(c: Config)
    ensures MergeConfig(c, map[]) == Success(c)
  {
    assert Mergeable(Node(c), map[]);
    assert Merged(Node(c), map[]).entries == c;
  }

  /** Every leaf path of `u`: a path through maps of `u` ending at a non-map. */
  predicate LeafPath(u: map<string, Value>, p: seq<string>)
    decreases |p|
  {
    |p| >= 1 && p[0] in u
    && (if |p| == 1 then u[p[0]].Leaf? else u[p[0]].Node? && LeafPath(u[p[0]].entries, p[1..]))
  }

  /** After a merge, each leaf path of the merged-in tree holds its value. */
  lemma {:induction false} MergeLeafPaths(dm: map<string, Value>, u: map<string, Value>, p: seq<string>)
    requires Mergeable(Node(dm), u) && LeafPath(u, p)
    ensures GetPath(Merged(Node(dm), u).entries, p) == GetPath(u, p)
    decreases |p|
  {
    if |p| > 1 {
      var sub := u[p[0]].entries;
      var child := Child(dm, p[0]);
      assert Mergeable(child, sub);
      assert p[1] in sub;
      assert child.Node?;
      MergeLeafPaths(child.entries, sub, p[1..]);
    }
  }

  /** A path that leaves `u` somewhere: at some segment `u` has no entry,
      after passing only through maps of `u`. */
  predicate MissedBy(u: map<string, Value>, p: seq<string>)
    decreases |p|
  {
    |p| >= 1 && (p[0] !in u || (u[p[0]].Node? && MissedBy(u[p[0]].entries, p[1..])))
  }

  /** A merge changes no path the merged-in tree does not reach. */
  lemma {:induction false} MergeUntouchedPaths(dm: map<string, Value>, u: map<string, Value>, p: seq<string>)
    requires Mergeable(Node(dm), u) && MissedBy(u, p)
    ensures GetPath(Merged(Node(dm), u).entries, p) == GetPath(dm, p)
    decreases |p|
  {
    if p[0] in u {
      var sub := u[p[0]].entries;
      var child := Child(dm, p[0]);
      assert Mergeable(child, sub);
      assert |p| > 1;
      if child.Node? {
        MergeUntouchedPaths(child.entries, sub, p[1..]);
      }
    }
  }

  /** Merging a nested map into a scalar raises, but merging an empty map
      into it keeps the scalar. */
  lemma MergeIntoScalarExamples()
    ensures MergeConfig(map["a" := Leaf("y")], map["a" := Node(map["b" := Leaf("x")])]).Failure?
    ensures MergeConfig(map["a" := Leaf("y")], map["a" := Node(map[])]) == Success(map["a" := Leaf("y")])
  {
    var c := map["a" := Leaf("y")];
    var o := map["a" := Node(map["b" := Leaf("x")])];
    assert "b" in map["b" := Leaf("x")];
    assert !Mergeable(Leaf("y"), map["b" := Leaf("x")]);
    assert Child(c, "a") == Leaf("y");
    assert "a" in o && o["a"].Node? && !Mergeable(Child(c, "a"), o["a"].entries);
    assert Mergeable(Node(c), map["a" := Node(map[])]);
    assert Merged(Node(c), map["a" := Node(map[])]).entries == c;
  }
}

=== FILE: kql.dfy ===
/** The KQL query's derived parts: the de-duplicated table list, the ordered
    where-clauses built from the technique's indicators, and the query id. */
module KqlConverter {
  import opened Wrappers
  import opened Strings
  import opened Seqs
  import opened Techniques
  import BaseConverter
  import YaraConverter

  // ---------------------------------------------------------------------
  // Tables
  // ---------------------------------------------------------------------

  /** Every table name a platform branch can contribute. */
  const PlatformTableNames: set<string> := {
    "SecurityEvent", "WindowsEvent", "SecurityAlert", "ProcessEvents", "RegistryEvents",
    "SigninLogs", "AuditLogs", "NetworkEvents", "DnsEvents", "CommonSecurityLog",
    "Syslog", "LinuxAuditLogs", "MacOSAuditLogs"}

  /** The tables every query reads, appended last. */
  const AgnosticTables: seq<string> := ["SecurityAlert", "SecurityIncident"]

  /** The tables the Windows branch adds for the first matching prefix. */
  function WindowsTables(id: string): (r: seq<string>)
    ensures forall i :: 0 <= i < |r| ==> r[i] in PlatformTableNames
    ensures r != [] <==> StartsWith(id, "T1055") || StartsWith(id, "T1059") || StartsWith(id, "T1547")
                         || StartsWith(id, "T1078") || StartsWith(id, "T1071")
    ensures r != [] ==> r[0] != "SecurityAlert"
    ensures StartsWith(id, "T1055") ==> r == ["SecurityEvent", "WindowsEvent", "SecurityAlert"]
    ensures StartsWith(id, "T1059") ==> r == ["SecurityEvent", "WindowsEvent", "ProcessEvents"]
    ensures StartsWith(id, "T1547") ==> r == ["SecurityEvent", "WindowsEvent", "RegistryEvents"]
    ensures StartsWith(id, "T1078") ==> r == ["SecurityEvent", "SigninLogs", "AuditLogs"]
    ensures StartsWith(id, "T1071") ==> r == ["NetworkEvents", "DnsEvents", "CommonSecurityLog"]
  {
    if StartsWith(id, "T1055") then ["SecurityEvent", "WindowsEvent", "SecurityAlert"]
    else if StartsWith(id, "T1059") then ["SecurityEvent", "WindowsEvent", "ProcessEvents"]
    else if StartsWith(id, "T1547") then ["SecurityEvent", "WindowsEvent", "RegistryEvents"]
    else if StartsWith(id, "T1078") then ["SecurityEvent", "SigninLogs", "AuditLogs"]
    else if StartsWith(id, "T1071") then ["NetworkEvents", "DnsEvents", "CommonSecurityLog"]
    else []
  }

  /** The tables the Linux branch adds for the first matching prefix. */
  function LinuxTables(id: string): (r: seq<string>)
    ensures forall i :: 0 <= i < |r| ==> r[i] in PlatformTableNames
    ensures r != [] <==> StartsWith(id, "T1059") || StartsWith(id, "T1547") || StartsWith(id, "T1078")
                         || StartsWith(id, "T1071")
    ensures r != [] ==> r[0] != "SecurityAlert"
    ensures (StartsWith(id, "T1059") || StartsWith(id, "T1547") || StartsWith(id, "T1078"))
              ==> r == ["Syslog", "LinuxAuditLogs"]
    ensures StartsWith(id, "T1071") ==> r == ["NetworkEvents", "DnsEvents"]
  {
    if StartsWith(id, "T1059") then ["Syslog", "LinuxAuditLogs"]
    else if StartsWith(id, "T1547") then ["Syslog", "LinuxAuditLogs"]
    else if StartsWith(id, "T1078") then ["Syslog", "LinuxAuditLogs"]
    else if StartsWith(id, "T1071") then ["NetworkEvents", "DnsEvents"]
    else []
  }

  /** The tables the macOS branch adds for the first matching prefix. */
  function MacosTables(id: string): (r: seq<string>)
    ensures forall i :: 0 <= i < |r| ==> r[i] in PlatformTableNames
    ensures r != [] <==> StartsWith(id, "T1059") || StartsWith(id, "T1547") || StartsWith(id, "T1078")
    ensures r != [] ==> r[0] != "SecurityAlert"
    ensures r != [] ==> r == ["MacOSAuditLogs", "Syslog"]
  {
    if StartsWith(id, "T1059") then ["MacOSAuditLogs", "Syslog"]
    else if StartsWith(id, "T1547") then ["MacOSAuditLogs", "Syslog"]
    else if StartsWith(id, "T1078") then ["MacOSAuditLogs", "Syslog"]
    else []
  }

  /** What the three independent platform checks contribute, in order. */
  function PlatformTables(t: Technique): (r: seq<string>)
    ensures forall i :: 0 <= i < |r| ==> r[i] in PlatformTableNames
    ensures r != [] ==> r[0] != "SecurityAlert"
  {
    (if HasPlatformExactly(t.platforms, "windows") then WindowsTables(t.id) else [])
    + (if HasPlatformExactly(t.platforms, "linux") then LinuxTables(t.id) else [])
    + (if HasPlatformExactly(t.platforms, "macos") then MacosTables(t.id) else [])
  }

  /** `_determine_tables`: the candidates, then the agnostic pair, de-duplicated
      in first-occurrence order. */
  function DetermineTables(t: Technique): (r: seq<string>)
    ensures NoDups(r)
    ensures forall x :: x in r <==> x in PlatformTables(t) + AgnosticTables
    ensures "SecurityAlert" in r
  {
    var candidates := PlatformTables(t) + AgnosticTables;
    assert candidates[|candidates| - 2] == "SecurityAlert";
    DedupSpec(candidates);
    Dedup(candidates)
  }

  /** The agnostic incident table is never a platform table. */
  lemma IncidentNotPlatformTable()
    ensures "SecurityIncident" !in PlatformTableNames
  {
    assert |"SecurityIncident"| == 16;
  }

  /** The table list always ends with `SecurityIncident`. */
  lemma TablesEndWithIncident(t: Technique)
    ensures |DetermineTables(t)| >= 2
    ensures DetermineTables(t)[|DetermineTables(t)| - 1] == "SecurityIncident"
  {
    var pts := PlatformTables(t);
    var pre := pts + ["SecurityAlert"];
    IncidentNotPlatformTable();
    assert "SecurityIncident" !in pts;
    assert "SecurityIncident" !in pre;
    assert AgnosticTables == ["SecurityAlert"] + ["SecurityIncident"];
    assert pts + AgnosticTables == pre + ["SecurityIncident"];
    DedupAppendFresh(pre, "SecurityIncident");
    DedupSpec(pre);
    assert pre[|pre| - 1] == "SecurityAlert";
    assert |Dedup(pre)| >= 1;
    var r := Dedup(pre) + ["SecurityIncident"];
    assert DetermineTables(t) == r;
    assert r[|r| - 1] == "SecurityIncident";
  }

  /** The list is exactly the agnostic pair when, and only when, no platform
      branch contributed a table. */
  lemma TablesAgnosticOnly(t: Technique)
    ensures DetermineTables(t) == AgnosticTables <==> PlatformTables(t) == []
  {
    var pts := PlatformTables(t);
    if pts == [] {
      assert Dedup(AgnosticTables) == AgnosticTables by {
        DedupNoDups(AgnosticTables);
      }
    } else {
      IncidentNotPlatformTable();
      assert pts[0] in DetermineTables(t);
      assert pts[0] != "SecurityIncident";
    }
  }

  /** The tables keep the order in which they first appear among the
      candidates. */
  lemma TablesFirstOccurrenceOrder(t: Technique)
    ensures forall i, j :: 0 <= i < j < |DetermineTables(t)| ==>
              FirstIndex(PlatformTables(t) + AgnosticTables, DetermineTables(t)[i])
              < FirstIndex(PlatformTables(t) + AgnosticTables, DetermineTables(t)[j])
  {
    DedupFirstOccurrenceOrder(PlatformTables(t) + AgnosticTables);
  }

  // ---------------------------------------------------------------------
  // Query parts
  // ---------------------------------------------------------------------

  datatype QueryPart = QueryPart(table: string, where: string)

  /** `Field contains "v"`. */
  function ContainsTest(field: string, v: string): (r: string)
    ensures StartsWith(r, field + " contains \"")
    ensures |r| == |field| + |v| + 12
  {
    field + " contains \"" + v + "\""
  }

  /** The `Field contains "v"` test of every value, in order. */
  function Tests(field: string, values: seq<string>): (r: seq<string>)
    ensures |r| == |values|
    ensures forall i :: 0 <= i < |values| ==> r[i] == ContainsTest(field, values[i])
  {
    seq(|values|, i requires 0 <= i < |values| => ContainsTest(field, values[i]))
  }

  /** `"(" + " or ".join(Field contains "v" for v in values) + ")"`. */
  function AnyContainsClause(field: string, values: seq<string>): (r: string)
    ensures |r| >= 2 && r[0] == '(' && r[|r| - 1] == ')'
  {
    "(" + Join(Tests(field, values), " or ") + ")"
  }

  /** The disjunction written out value by value: one test per value, in
      the values' order, separated by " or ". */
  function Disjunction(field: string, values: seq<string>): string
    decreases |values|
  {
    if values == [] then ""
    else if |values| == 1 then ContainsTest(field, values[0])
    else ContainsTest(field, values[0]) + " or " + Disjunction(field, values[1..])
  }

  /** The clause is the value-by-value disjunction in parentheses. */
  lemma AnyContainsClauseDisjunction(field: string, values: seq<string>)
    ensures AnyContainsClause(field, values) == "(" + Disjunction(field, values) + ")"
  {
    JoinTests(field, values);
  }

  lemma {:induction false} JoinTests(field: string, values: seq<string>)
    ensures Join(Tests(field, values), " or ") == Disjunction(field, values)
    decreases |values|
  {
    if |values| > 1 {
      JoinTests(field, values[1..]);
      assert Tests(field, values)[1..] == Tests(field, values[1..]);
    }
  }

  /** Every value's test occurs in the clause: one disjunct per indicator. */
  lemma AnyContainsClauseMentionsAll(field: string, values: seq<string>)
    ensures forall i :: 0 <= i < |values| ==> Contains(AnyContainsClause(field, values), ContainsTest(field, values[i]))
  {
    var tests := Tests(field, values);
    forall i | 0 <= i < |values|
      ensures Contains(AnyContainsClause(field, values), ContainsTest(field, values[i]))
    {
      JoinContains(tests, " or ", i);
      ContainsInHead(Join(tests, " or "), ")", tests[i]);
      ContainsInTail("(", Join(tests, " or ") + ")", tests[i]);
      assert AnyContainsClause(field, values) == "(" + (Join(tests, " or ") + ")");
    }
  }

  /** A single indicator gives the single test in parentheses. */
  lemma AnyContainsClauseSingle(field: string, v: string)
    ensures AnyContainsClause(field, [v]) == "(" + ContainsTest(field, v) + ")"
  {
    assert Tests(field, [v]) == [ContainsTest(field, v)];
  }

  /** `any("DNS" in indicator for indicator in network_indicators)`. */
  predicate MentionsDns(indicators: seq<string>) {
    exists i :: 0 <= i < |indicators| && Contains(indicators[i], "DNS")
  }

  const DnsWhere: string := "isnotempty(QueryName)"

  /** `_generate_query_parts`, up to and including the DNS part, over the
      four indicator lists. */
  function QueryParts(processes: seq<string>, files: seq<string>, keys: seq<string>, network: seq<string>): (r: seq<QueryPart>)
    ensures |r| <= 4
  {
    GuardedParts(processes != [], files != [], keys != [], network != [] && MentionsDns(network),
                 AnyContainsClause("Process", processes), AnyContainsClause("TargetFilename", files),
                 AnyContainsClause("RegistryKey", keys))
  }

  /** The query parts of a technique. */
  function GenerateQueryParts(t: Technique): (r: seq<QueryPart>)
    ensures r == QueryParts(CommonProcesses(t), CommonFiles(t), CommonRegistryKeys(t), NetworkIndicators(t))
    ensures r == [] <==> CommonProcesses(t) == [] && CommonFiles(t) == [] && CommonRegistryKeys(t) == []
                         && !MentionsDns(NetworkIndicators(t))
  {
    QueryParts(CommonProcesses(t), CommonFiles(t), CommonRegistryKeys(t), NetworkIndicators(t))
  }

  /** The where-clause of the part reading `table`, if there is one. */
  function PartFor(parts: seq<QueryPart>, table: string): (r: Option<string>)
    ensures r.Some? <==> exists i :: 0 <= i < |parts| && parts[i].table == table
    ensures r.Some? ==> exists i :: 0 <= i < |parts| && parts[i] == QueryPart(table, r.value)
    decreases |parts|
  {
    if parts == [] then None
    else if parts[0].table == table then Some(parts[0].where)
    else
      var r := PartFor(parts[1..], table);
      assert forall i :: 1 <= i < |parts| ==> parts[i] == parts[1..][i - 1];
      assert r.Some? ==> exists i :: 1 <= i < |parts| && parts[i] == QueryPart(table, r.value) by {
        if r.Some? {
          var i :| 0 <= i < |parts[1..]| && parts[1..][i] == QueryPart(table, r.value);
          assert parts[i + 1] == QueryPart(table, r.value);
        }
      }
      r
  }

  /** Rank of a part's table in the order the parts are appended. */
  function TableRank(table: string): nat {
    if table == "ProcessEvents" then 0
    else if table == "FileEvents" then 1
    else if table == "RegistryEvents" then 2
    else 3
  }

  /** Each part is present exactly when its indicator list is non-empty (for
      DNS: when some indicator mentions "DNS"), and carries the clause over
      that list. */
  lemma QueryPartsContent(processes: seq<string>, files: seq<string>, keys: seq<string>, network: seq<string>)
    ensures var parts := QueryParts(processes, files, keys, network);
            PartFor(parts, "ProcessEvents") == (if processes != [] then Some(AnyContainsClause("Process", processes)) else None)
            && PartFor(parts, "FileEvents") == (if files != [] then Some(AnyContainsClause("TargetFilename", files)) else None)
            && PartFor(parts, "RegistryEvents") == (if keys != [] then Some(AnyContainsClause("RegistryKey", keys)) else None)
            && PartFor(parts, "DnsEvents") == (if MentionsDns(network) then Some(DnsWhere) else None)
  {
    TableNamesDistinct();
    var c1, c2, c3 := AnyContainsClause("Process", processes), AnyContainsClause("TargetFilename", files),
                      AnyContainsClause("RegistryKey", keys);
    PartsLookup(processes != [], files != [], keys != [], network != [] && MentionsDns(network), c1, c2, c3, "ProcessEvents");
    PartsLookup(processes != [], files != [], keys != [], network != [] && MentionsDns(network), c1, c2, c3, "FileEvents");
    PartsLookup(processes != [], files != [], keys != [], network != [] && MentionsDns(network), c1, c2, c3, "RegistryEvents");
    PartsLookup(processes != [], files != [], keys != [], network != [] && MentionsDns(network), c1, c2, c3, "DnsEvents");
  }

  /** The four guarded parts, with their clauses abstracted. */
  function GuardedParts(p: bool, f: bool, k: bool, d: bool, c1: string, c2: string, c3: string): seq<QueryPart> {
    (if p then [QueryPart("ProcessEvents", c1)] else [])
    + ((if f then [QueryPart("FileEvents", c2)] else [])
       + ((if k then [QueryPart("RegistryEvents", c3)] else [])
          + (if d then [QueryPart("DnsEvents", DnsWhere)] else [])))
  }

  lemma PartsLookup(p: bool, f: bool, k: bool, d: bool, c1: string, c2: string, c3: string, table: string)
    ensures PartFor(GuardedParts(p, f, k, d, c1, c2, c3), table) ==
              if p && table == "ProcessEvents" then Some(c1)
              else if f && table == "FileEvents" then Some(c2)
              else if k && table == "RegistryEvents" then Some(c3)
              else if d && table == "DnsEvents" then Some(DnsWhere)
              else None
  {
    var ps := if p then [QueryPart("ProcessEvents", c1)] else [];
    var fs := if f then [QueryPart("FileEvents", c2)] else [];
    var ks := if k then [QueryPart("RegistryEvents", c3)] else [];
    var ds := if d then [QueryPart("DnsEvents", DnsWhere)] else [];
    assert GuardedParts(p, f, k, d, c1, c2, c3) == ps + (fs + (ks + ds));
    PartForAppend(ks, ds, table);
    PartForAppend(fs, ks + ds, table);
    PartForAppend(ps, fs + (ks + ds), table);
  }

  lemma TableNamesDistinct()
    ensures |"ProcessEvents"| == 13 && |"FileEvents"| == 10 && |"RegistryEvents"| == 14 && |"DnsEvents"| == 9
  {
  }

  /** A lookup in a concatenation looks in the first list, then the second. */
  lemma {:induction false} PartForAppend(a: seq<QueryPart>, b: seq<QueryPart>, table: string)
    ensures PartFor(a + b, table) == if PartFor(a, table).Some? then PartFor(a, table) else PartFor(b, table)
    decreases |a|
  {
    if a != [] {
      PartForAppend(a[1..], b, table);
      assert (a + b)[1..] == a[1..] + b;
    } else {
      assert a + b == b;
    }
  }

  /** The same, for a technique's own indicator lists. */
  lemma GenerateQueryPartsContent(t: Technique)
    ensures PartFor(GenerateQueryParts(t), "ProcessEvents")
            == (if CommonProcesses(t) != [] then Some(AnyContainsClause("Process", CommonProcesses(t))) else None)
    ensures PartFor(GenerateQueryParts(t), "FileEvents")
            == (if CommonFiles(t) != [] then Some(AnyContainsClause("TargetFilename", CommonFiles(t))) else None)
    ensures PartFor(GenerateQueryParts(t), "RegistryEvents")
            == (if CommonRegistryKeys(t) != [] then Some(AnyContainsClause("RegistryKey", CommonRegistryKeys(t))) else None)
    ensures PartFor(GenerateQueryParts(t), "DnsEvents")
            == (if MentionsDns(NetworkIndicators(t)) then Some(DnsWhere) else None)
  {
    QueryPartsContent(CommonProcesses(t), CommonFiles(t), CommonRegistryKeys(t), NetworkIndicators(t));
  }

  /** The parts come in the order process, file, registry, DNS, each table at
      most once. */
  lemma QueryPartsOrdered(processes: seq<string>, files: seq<string>, keys: seq<string>, network: seq<string>)
    ensures var parts := QueryParts(processes, files, keys, network);
            forall i, j :: 0 <= i < j < |parts| ==> TableRank(parts[i].table) < TableRank(parts[j].table)
  {
    GuardedPartsOrdered(processes != [], files != [], keys != [], network != [] && MentionsDns(network),
                        AnyContainsClause("Process", processes), AnyContainsClause("TargetFilename", files),
                        AnyContainsClause("RegistryKey", keys));
  }

  /** Every part's table ranks at least `n`. */
  predicate RanksFrom(parts: seq<QueryPart>, n: nat) {
    forall i :: 0 <= i < |parts| ==> n <= TableRank(parts[i].table)
  }

  /** The parts' tables have strictly increasing ranks. */
  predicate RanksIncrease(parts: seq<QueryPart>) {
    forall i, j :: 0 <= i < j < |parts| ==> TableRank(parts[i].table) < TableRank(parts[j].table)
  }

  /** A part ranked `m`, below everything after it, keeps the ranks
      increasing whether or not it is added. */
  lemma PrependRanked(b: bool, e: QueryPart, rest: seq<QueryPart>, m: nat, n: nat)
    requires RanksIncrease(rest) && RanksFrom(rest, n) && TableRank(e.table) == m < n
    ensures RanksIncrease((if b then [e] else []) + rest)
    ensures RanksFrom((if b then [e] else []) + rest, m)
  {
    var r := (if b then [e] else []) + rest;
    if b {
      forall i, j | 0 <= i < j < |r|
        ensures TableRank(r[i].table) < TableRank(r[j].table)
      {
        assert r[j] == rest[j - 1];
        if i > 0 {
          assert r[i] == rest[i - 1];
        }
      }
    } else {
      assert r == rest;
    }
  }

  lemma TableRanks()
    ensures TableRank("ProcessEvents") == 0 && TableRank("FileEvents") == 1
    ensures TableRank("RegistryEvents") == 2 && TableRank("DnsEvents") == 3
  {
    TableNamesDistinct();
  }

  /** The guarded parts come in rank order, whichever guards hold. */
  lemma GuardedPartsOrdered(p: bool, f: bool, k: bool, d: bool, c1: string, c2: string, c3: string)
    ensures RanksIncrease(GuardedParts(p, f, k, d, c1, c2, c3))
  {
    TableRanks();
    var ds := if d then [QueryPart("DnsEvents", DnsWhere)] else [];
    assert RanksIncrease(ds) && RanksFrom(ds, 3);
    var e3, e2, e1 := QueryPart("RegistryEvents", c3), QueryPart("FileEvents", c2), QueryPart("ProcessEvents", c1);
    var r3 := (if k then [e3] else []) + ds;
    PrependRanked(k, e3, ds, 2, 3);
    var r2 := (if f then [e2] else []) + r3;
    PrependRanked(f, e2, r3, 1, 2);
    PrependRanked(p, e1, r2, 0, 1);
  }

  // ---------------------------------------------------------------------
  // Query id and reference
  // ---------------------------------------------------------------------

  /** `query_id`: "MITRE_ATT_CK_" and the id with dots turned into underscores. */
  function QueryId(t: Technique): (r: string)
    ensures StartsWith(r, "MITRE_ATT_CK_") && '.' !in r
    ensures r[13..] == BaseConverter.SanitizeId(t.id)
  {
    "MITRE_ATT_CK_" + ReplaceChar(t.id, '.', '_')
  }

  /** A KQL query and the YARA rule for the same technique share one name. */
  lemma QueryIdIsYaraRuleName(t: Technique)
    ensures QueryId(t) == YaraConverter.RuleName(t)
  {
  }

  /** The reference: the technique page with a trailing slash. */
  function Reference(t: Technique): (r: string)
    ensures r == BaseConverter.TechniquePath(t.id) + "/"
  {
    "https://attack.mitre.org/techniques/" + ReplaceChar(t.id, '.', '/') + "/"
  }
}

=== FILE: mitre_api.dfy ===
/** The ATT&CK catalogue: turning parsed attack-pattern objects into
    techniques (an insertion-ordered dict keyed by id), the tactic index, and
    the tactic, sub-technique and parent lookups over them. */
module MitreApi {
  import opened Wrappers
  import opened Strings
  import opened Seqs
  import opened Techniques

  // ---------------------------------------------------------------------
  // Parsed records
  // ---------------------------------------------------------------------

  /** An entry of `external_references`; `None` for an absent key. */
  datatype ExternalReference = ExternalReference(sourceName: Option<string>, externalId: Option<string>)

  /** An entry of `kill_chain_phases`. */
  datatype KillChainPhase = KillChainPhase(killChainName: Option<string>, phaseName: string)

  /** One STIX object of the bundle; `None` for an absent key. */
  datatype AttackObject = AttackObject(
    objectType: Option<string>,
    name: Option<string>,
    description: Option<string>,
    externalReferences: Option<seq<ExternalReference>>,
    killChainPhases: Option<seq<KillChainPhase>>,
    platforms: Option<seq<string>>,
    dataSources: Option<seq<string>>,
    detection: Option<string>)

  /** `[][0]`: an attack pattern whose reference list is present but empty. */
  datatype ParseError = IndexError

  const AttackPattern: string := "attack-pattern"
  const MitreAttack: string := "mitre-attack"

  /** `obj.get('external_references', [{}])[0].get('external_id', '')`. */
  function PrimaryId(obj: AttackObject): (r: Result<string, ParseError>)
    ensures r.Failure? <==> obj.externalReferences == Some([])
    ensures obj.externalReferences.None? ==> r == Success("")
  {
    match obj.externalReferences
    case None => Success("")
    case Some(refs) => if refs == [] then Failure(IndexError) else Success(refs[0].externalId.GetOr(""))
  }

  predicate MitrePhase(p: KillChainPhase) {
    p.killChainName == Some(MitreAttack)
  }

  /** The phase names of `ps`, position by position. */
  function PhaseNames(ps: seq<KillChainPhase>): (r: seq<string>)
    ensures |r| == |ps| && forall i :: 0 <= i < |ps| ==> r[i] == ps[i].phaseName
  {
    seq(|ps|, i requires 0 <= i < |ps| => ps[i].phaseName)
  }

  lemma PhaseNamesAppend(a: seq<KillChainPhase>, b: seq<KillChainPhase>)
    ensures PhaseNames(a + b) == PhaseNames(a) + PhaseNames(b)
  {
    assert forall i :: 0 <= i < |a + b| ==> PhaseNames(a + b)[i] == (PhaseNames(a) + PhaseNames(b))[i];
  }

  /** The phase names of the `mitre-attack` kill-chain phases, in order. */
  function MitreTactics(phases: seq<KillChainPhase>): (r: seq<string>)
    ensures |r| <= |phases|
    ensures forall i :: 0 <= i < |r| ==> exists p :: p in phases && MitrePhase(p) && p.phaseName == r[i]
    ensures forall p :: p in phases && MitrePhase(p) ==> p.phaseName in r
  {
    var kept := Filter(phases, MitrePhase);
    var r := PhaseNames(kept);
    forall i | 0 <= i < |r|
      ensures exists p :: p in phases && MitrePhase(p) && p.phaseName == r[i]
    {
      assert kept[i] in phases && MitrePhase(kept[i]);
    }
    assert forall p :: p in kept ==> p.phaseName in r by {
      forall p | p in kept
        ensures p.phaseName in r
      {
        var k :| 0 <= k < |kept| && kept[k] == p;
        assert r[k] == p.phaseName;
      }
    }
    r
  }

  /** `MitreTactics` keeps the phases in their order and with their
      multiplicity: a phase in the middle of the list contributes its name,
      in its place, exactly when it belongs to the `mitre-attack` chain. */
  lemma MitreTacticsInOrder(a: seq<KillChainPhase>, p: KillChainPhase, b: seq<KillChainPhase>)
    ensures MitreTactics(a + [p] + b)
         == MitreTactics(a) + (if MitrePhase(p) then [p.phaseName] else []) + MitreTactics(b)
  {
    var fa, fb := Filter(a, MitrePhase), Filter(b, MitrePhase);
    var mid := if MitrePhase(p) then [p] else [];
    calc {
      MitreTactics(a + [p] + b);
      PhaseNames(Filter(a + [p] + b, MitrePhase));
      { FilterSplit(a, p, b, MitrePhase); }
      PhaseNames(fa + mid + fb);
      { PhaseNamesAppend(fa + mid, fb); PhaseNamesAppend(fa, mid); }
      PhaseNames(fa) + PhaseNames(mid) + PhaseNames(fb);
      { assert PhaseNames(mid) == if MitrePhase(p) then [p.phaseName] else []; }
      MitreTactics(a) + (if MitrePhase(p) then [p.phaseName] else []) + MitreTactics(b);
    }
  }

  /** `x_mitre_data_sources`, else `[x_mitre_detection]`, else `[]`. */
  function DataSourcesOf(obj: AttackObject): (r: seq<string>)
    ensures obj.dataSources.Some? ==> r == obj.dataSources.value
    ensures obj.dataSources.None? && obj.detection.Some? ==> r == [obj.detection.value]
    ensures obj.dataSources.None? && obj.detection.None? ==> r == []
  {
    match obj.dataSources
    case Some(ds) => ds
    case None => if obj.detection.Some? then [obj.detection.value] else []
  }

  /** The id a reference contributes, `""` when it has none. */
  function RefId(ref: ExternalReference): string {
    ref.externalId.GetOr("")
  }

  /** A `mitre-attack` reference to some id other than `id`. */
  predicate RelatedRef(ref: ExternalReference, id: string) {
    ref.sourceName == Some(MitreAttack) && RefId(ref) != id
  }

  /** The ids of the `mitre-attack` references other than the technique's own:
      every such reference contributes its id, and nothing else does. */
  function RelatedIds(refs: seq<ExternalReference>, id: string): (r: seq<string>)
    ensures |r| <= |refs|
    ensures forall i :: 0 <= i < |r| ==> r[i] != id
    ensures forall j :: 0 <= j < |refs| && RelatedRef(refs[j], id) ==> RefId(refs[j]) in r
    decreases |refs|
  {
    if refs == [] then []
    else
      var rest := RelatedIds(refs[1..], id);
      assert forall j :: 1 <= j < |refs| ==> refs[j] == refs[1..][j - 1];
      (if RelatedRef(refs[0], id) then [RefId(refs[0])] else []) + rest
  }

  /** Every related id is the id of some `mitre-attack` reference to
      another technique: nothing else gets in. */
  lemma {:induction false} RelatedIdsFromReferences(refs: seq<ExternalReference>, id: string)
    ensures forall x :: x in RelatedIds(refs, id) ==> exists j :: 0 <= j < |refs| && RelatedRef(refs[j], id) && RefId(refs[j]) == x
    decreases |refs|
  {
    if refs != [] {
      RelatedIdsFromReferences(refs[1..], id);
      var rest := RelatedIds(refs[1..], id);
      forall x | x in RelatedIds(refs, id)
        ensures exists j :: 0 <= j < |refs| && RelatedRef(refs[j], id) && RefId(refs[j]) == x
      {
        if !(RelatedRef(refs[0], id) && x == RefId(refs[0])) {
          assert x in rest;
          var k :| 0 <= k < |refs[1..]| && RelatedRef(refs[1..][k], id) && RefId(refs[1..][k]) == x;
          assert refs[k + 1] == refs[1..][k];
        }
      }
    }
  }

  /** `RelatedIds` keeps the references in their order and with their
      multiplicity: the related ids of `a + b` are those of `a`, then those of `b`. */
  lemma {:induction false} RelatedIdsAppend(a: seq<ExternalReference>, b: seq<ExternalReference>, id: string)
    ensures RelatedIds(a + b, id) == RelatedIds(a, id) + RelatedIds(b, id)
    decreases |a|
  {
    if a == [] {
      assert a + b == b;
    } else {
      assert (a + b)[0] == a[0];
      assert (a + b)[1..] == a[1..] + b;
      RelatedIdsAppend(a[1..], b, id);
    }
  }

  /** A reference in the middle of the list contributes its id, in its place,
      exactly when it is a `mitre-attack` reference to another id. */
  lemma RelatedIdsInOrder(a: seq<ExternalReference>, ref: ExternalReference, b: seq<ExternalReference>, id: string)
    ensures RelatedIds(a + [ref] + b, id)
         == RelatedIds(a, id) + (if RelatedRef(ref, id) then [RefId(ref)] else []) + RelatedIds(b, id)
  {
    assert RelatedIds([ref], id) == (if RelatedRef(ref, id) then [RefId(ref)] else []) by {
      assert [ref][1..] == [];
    }
    calc {
      RelatedIds(a + [ref] + b, id);
      { RelatedIdsAppend(a + [ref], b, id); }
      RelatedIds(a + [ref], id) + RelatedIds(b, id);
      { RelatedIdsAppend(a, [ref], id); }
      RelatedIds(a, id) + RelatedIds([ref], id) + RelatedIds(b, id);
    }
  }

  /** An id the parser accepts: non-empty, starting with 'T'. */
  predicate AcceptedId(id: string) {
    id != [] && id[0] == 'T'
  }

  /** One iteration of the loop in `_parse_techniques`: `Some` technique for
      an accepted attack pattern, `None` for an object that is skipped. */
  function ToTechnique(obj: AttackObject): (r: Result<Option<Technique>, ParseError>)
    ensures r.Failure? <==> obj.objectType == Some(AttackPattern) && obj.externalReferences == Some([])
    ensures r.Success? && r.value.Some? <==>
              obj.objectType == Some(AttackPattern) && PrimaryId(obj).Success? && AcceptedId(PrimaryId(obj).value)
    ensures r.Success? && r.value.Some? ==>
              var t := r.value.value;
              t.id == PrimaryId(obj).value && (t.isSubtechnique <==> '.' in t.id)
              && t.tactics == MitreTactics(obj.killChainPhases.GetOr([]))
              && t.dataSources == DataSourcesOf(obj) && t.platforms == obj.platforms.GetOr([])
              && t.name == obj.name.GetOr("") && t.description == obj.description.GetOr("")
              && t.detection == obj.detection.GetOr("")
              && t.relatedTechniques == RelatedIds(obj.externalReferences.GetOr([]), t.id)
  {
    if obj.objectType != Some(AttackPattern) then Success(None)
    else
      var id :- PrimaryId(obj);
      if !AcceptedId(id) then Success(None)
      else
        Success(Some(Technique(
          id,
          obj.name.GetOr(""),
          obj.description.GetOr(""),
          MitreTactics(obj.killChainPhases.GetOr([])),
          obj.platforms.GetOr([]),
          DataSourcesOf(obj),
          obj.detection.GetOr(""),
          RelatedIds(obj.externalReferences.GetOr([]), id),
          '.' in id)))
  }

  // ---------------------------------------------------------------------
  // The catalogue: an insertion-ordered dict of techniques by id
  // ---------------------------------------------------------------------

  function Ids(cat: seq<Technique>): (r: seq<string>)
    ensures |r| == |cat|
    ensures forall i :: 0 <= i < |cat| ==> r[i] == cat[i].id
  {
    seq(|cat|, i requires 0 <= i < |cat| => cat[i].id)
  }

  /** `techniques.get(id)`. */
  function FindById(cat: seq<Technique>, id: string): (r: Option<Technique>)
    ensures r.Some? <==> id in Ids(cat)
    ensures r.Some? ==> r.value in cat && r.value.id == id
    decreases |cat|
  {
    if cat == [] then None
    else if cat[0].id == id then Some(cat[0])
    else
      assert Ids(cat) == [cat[0].id] + Ids(cat[1..]);
      FindById(cat[1..], id)
  }

  /** With distinct ids, looking up a member's id finds that member. */
  lemma {:induction false} FindByIdMember(cat: seq<Technique>, i: nat)
    requires NoDups(Ids(cat)) && i < |cat|
    ensures FindById(cat, cat[i].id) == Some(cat[i])
    decreases i
  {
    if i > 0 {
      assert cat[0].id != cat[i].id by {
        assert Ids(cat)[0] != Ids(cat)[i];
      }
      assert Ids(cat[1..]) == Ids(cat)[1..];
      FindByIdMember(cat[1..], i - 1);
    }
  }

  /** `techniques[t.id] = t`: an existing id keeps its position, a new one is
      appended. */
  function Insert(cat: seq<Technique>, t: Technique): (r: seq<Technique>)
    ensures Ids(r) == if t.id in Ids(cat) then Ids(cat) else Ids(cat) + [t.id]
    decreases |cat|
  {
    if cat == [] then [t]
    else if cat[0].id == t.id then
      IdsCons(cat[0], cat[1..]);
      IdsCons(t, cat[1..]);
      [t] + cat[1..]
    else
      var rest := Insert(cat[1..], t);
      IdsCons(cat[0], cat[1..]);
      IdsCons(cat[0], rest);
      [cat[0]] + rest
  }

  /** After inserting, the id finds the new technique; other ids are unaffected. */
  lemma {:induction false} FindInsert(cat: seq<Technique>, t: Technique, x: string)
    ensures FindById(Insert(cat, t), x) == if t.id == x then Some(t) else FindById(cat, x)
    decreases |cat|
  {
    if cat != [] && cat[0].id != t.id {
      FindInsert(cat[1..], t, x);
      assert Insert(cat, t)[1..] == Insert(cat[1..], t);
    }
  }

  /** The loop of `_parse_techniques` from a given partial catalogue. */
  function ParseFrom(cat: seq<Technique>, objs: seq<AttackObject>): (r: Result<seq<Technique>, ParseError>)
    ensures r.Success? <==> AllConvert(objs)
    decreases |objs|
  {
    if objs == [] then Success(cat)
    else
      match ToTechnique(objs[0])
      case Failure(e) => Failure(e)
      case Success(None) => ParseFrom(cat, objs[1..])
      case Success(Some(t)) => ParseFrom(Insert(cat, t), objs[1..])
  }

  /** No object raises on conversion. */
  predicate AllConvert(objs: seq<AttackObject>)
    decreases |objs|
  {
    objs == [] || (ToTechnique(objs[0]).Success? && AllConvert(objs[1..]))
  }

  lemma {:induction false} AllConvertIff(objs: seq<AttackObject>)
    ensures AllConvert(objs) <==> forall i :: 0 <= i < |objs| ==> ToTechnique(objs[i]).Success?
    decreases |objs|
  {
    if objs != [] {
      AllConvertIff(objs[1..]);
      assert forall i :: 1 <= i < |objs| ==> objs[i] == objs[1..][i - 1];
    }
  }

  /** `_parse_techniques` over the bundle's `objects` list (an empty bundle
      has none). */
  function ParseTechniques(objs: seq<AttackObject>): (r: Result<seq<Technique>, ParseError>)
    ensures r.Failure? <==> exists i :: 0 <= i < |objs| && ToTechnique(objs[i]).Failure?
  {
    AllConvertIff(objs);
    ParseFrom([], objs)
  }

  /** The techniques the objects convert to, in order, duplicates included. */
  function Converted(objs: seq<AttackObject>): (r: seq<Technique>)
    ensures |r| <= |objs|
    decreases |objs|
  {
    if objs == [] then []
    else
      var t := ToTechnique(objs[0]);
      (if t.Success? && t.value.Some? then [t.value.value] else []) + Converted(objs[1..])
  }

  /** The catalogue's ids are the converted ids, each once, in the order of
      their first occurrence. */
  lemma {:induction false} ParseFromIds(cat: seq<Technique>, objs: seq<AttackObject>)
    requires NoDups(Ids(cat))
    ensures ParseFrom(cat, objs).Success? ==>
              Ids(ParseFrom(cat, objs).value) == Dedup(Ids(cat) + Ids(Converted(objs)))
    decreases |objs|, 1
  {
    if objs == [] {
      assert Ids(cat) + Ids(Converted(objs)) == Ids(cat);
      DedupNoDups(Ids(cat));
    } else {
      var rest := objs[1..];
      match ToTechnique(objs[0])
      case Failure(_) =>
      case Success(None) =>
        assert ParseFrom(cat, objs) == ParseFrom(cat, rest);
        assert Converted(objs) == Converted(rest);
        ParseFromIds(cat, rest);
      case Success(Some(t)) =>
        assert ParseFrom(cat, objs) == ParseFrom(Insert(cat, t), rest);
        assert Converted(objs) == [t] + Converted(rest);
        ParseFromIdsInsert(cat, objs, t);
    }
  }

  /** The step of `ParseFromIds` for an object that converts to `t`. */
  lemma {:induction false} ParseFromIdsInsert(cat: seq<Technique>, objs: seq<AttackObject>, t: Technique)
    requires NoDups(Ids(cat)) && objs != []
    requires ParseFrom(cat, objs) == ParseFrom(Insert(cat, t), objs[1..])
    requires Converted(objs) == [t] + Converted(objs[1..])
    ensures ParseFrom(cat, objs).Success? ==>
              Ids(ParseFrom(cat, objs).value) == Dedup(Ids(cat) + Ids(Converted(objs)))
    decreases |objs|, 0
  {
    var rest := objs[1..];
    var tail := Ids(Converted(rest));
    ParseFromIds(Insert(cat, t), rest);
    InsertIdsStep(cat, t, tail);
    IdsCons(t, Converted(rest));
  }

  lemma IdsCons(t: Technique, ts: seq<Technique>)
    ensures Ids([t] + ts) == [t.id] + Ids(ts)
  {
  }

  /** Inserting one technique, seen through the de-duplicated id list. */
  lemma InsertIdsStep(cat: seq<Technique>, t: Technique, tail: seq<string>)
    requires NoDups(Ids(cat))
    ensures NoDups(Ids(Insert(cat, t)))
    ensures Dedup(Ids(Insert(cat, t)) + tail) == Dedup(Ids(cat) + ([t.id] + tail))
  {
    assert Ids(cat) + ([t.id] + tail) == Ids(cat) + [t.id] + tail;
    if t.id in Ids(cat) {
      DedupDropSeen(Ids(cat), t.id, tail);
    }
  }

  /** A parsed catalogue never holds an id twice, and keeps ids in the order
      they were first seen. */
  lemma ParseTechniquesIds(objs: seq<AttackObject>)
    requires ParseTechniques(objs).Success?
    ensures Ids(ParseTechniques(objs).value) == Dedup(Ids(Converted(objs)))
    ensures NoDups(Ids(ParseTechniques(objs).value))
  {
    ParseFromIds([], objs);
    assert Ids([]) + Ids(Converted(objs)) == Ids(Converted(objs));
    DedupSpec(Ids(Converted(objs)));
  }

  /** The last converted technique with a given id, if any. */
  function LastWithId(ts: seq<Technique>, x: string): (r: Option<Technique>)
    ensures r.Some? ==> r.value in ts && r.value.id == x
    ensures r.None? <==> x !in Ids(ts)
    decreases |ts|
  {
    if ts == [] then None
    else
      assert Ids(ts) == [ts[0].id] + Ids(ts[1..]);
      var later := LastWithId(ts[1..], x);
      if later.Some? then later else if ts[0].id == x then Some(ts[0]) else None
  }

  /** A later object with an id already seen replaces the earlier technique. */
  lemma {:induction false} ParseFromLastWins(cat: seq<Technique>, objs: seq<AttackObject>, x: string)
    ensures ParseFrom(cat, objs).Success? ==>
              FindById(ParseFrom(cat, objs).value, x)
              == if LastWithId(Converted(objs), x).Some? then LastWithId(Converted(objs), x) else FindById(cat, x)
    decreases |objs|
  {
    if objs != [] {
      var rest := objs[1..];
      match ToTechnique(objs[0])
      case Failure(_) =>
      case Success(None) =>
        assert ParseFrom(cat, objs) == ParseFrom(cat, rest);
        assert Converted(objs) == Converted(rest);
        ParseFromLastWins(cat, rest, x);
      case Success(Some(t)) =>
        assert ParseFrom(cat, objs) == ParseFrom(Insert(cat, t), rest);
        ParseFromLastWins(Insert(cat, t), rest, x);
        FindInsert(cat, t, x);
        assert Converted(objs) == [t] + Converted(rest);
        assert ([t] + Converted(rest))[1..] == Converted(rest);
    }
  }

  /** In the parsed catalogue each id maps to the last technique parsed with it. */
  lemma ParseTechniquesLastWins(objs: seq<AttackObject>, x: string)
    requires ParseTechniques(objs).Success?
    ensures FindById(ParseTechniques(objs).value, x) == LastWithId(Converted(objs), x)
  {
    ParseFromLastWins([], objs, x);
  }

  // ---------------------------------------------------------------------
  // The tactic index
  // ---------------------------------------------------------------------

  /** One `tactic: [technique ids]` entry. */
  datatype TacticEntry = TacticEntry(tactic: string, ids: seq<string>)

  /** The index's keys, in insertion order. */
  function Tactics(idx: seq<TacticEntry>): (r: seq<string>)
    ensures |r| == |idx|
    ensures forall i :: 0 <= i < |idx| ==> r[i] == idx[i].tactic
  {
    seq(|idx|, i requires 0 <= i < |idx| => idx[i].tactic)
  }

  /** `tactics.get(x, [])`. */
  function IndexIds(idx: seq<TacticEntry>, x: string): seq<string>
    decreases |idx|
  {
    if idx == [] then []
    else if idx[0].tactic == x then idx[0].ids
    else IndexIds(idx[1..], x)
  }

  /** `if x not in tactics: tactics[x] = []` then `tactics[x].append(id)`. */
  function AddTo(idx: seq<TacticEntry>, x: string, id: string): (r: seq<TacticEntry>)
    ensures Tactics(r) == if x in Tactics(idx) then Tactics(idx) else Tactics(idx) + [x]
    decreases |idx|
  {
    if idx == [] then [TacticEntry(x, [id])]
    else if idx[0].tactic == x then
      TacticsCons(idx[0], idx[1..]);
      TacticsCons(TacticEntry(x, idx[0].ids + [id]), idx[1..]);
      [TacticEntry(x, idx[0].ids + [id])] + idx[1..]
    else
      var rest := AddTo(idx[1..], x, id);
      TacticsCons(idx[0], idx[1..]);
      TacticsCons(idx[0], rest);
      [idx[0]] + rest
  }

  lemma TacticsCons(e: TacticEntry, idx: seq<TacticEntry>)
    ensures Tactics([e] + idx) == [e.tactic] + Tactics(idx)
  {
  }

  /** Adding appends the id to that tactic's list and touches no other. */
  lemma {:induction false} AddToIds(idx: seq<TacticEntry>, x: string, id: string, y: string)
    ensures IndexIds(AddTo(idx, x, id), y) == IndexIds(idx, y) + (if y == x then [id] else [])
    decreases |idx|
  {
    if idx != [] && idx[0].tactic != x {
      AddToIds(idx[1..], x, id, y);
      assert AddTo(idx, x, id)[1..] == AddTo(idx[1..], x, id);
    }
  }

  /** The inner loop: the technique's id under each of its tactics. */
  function AddTactics(idx: seq<TacticEntry>, tactics: seq<string>, id: string): seq<TacticEntry>
    decreases |tactics|
  {
    if tactics == [] then idx else AddTactics(AddTo(idx, tactics[0], id), tactics[1..], id)
  }

  lemma {:induction false} AddTacticsIds(idx: seq<TacticEntry>, tactics: seq<string>, id: string, y: string, z: string)
    ensures z in IndexIds(AddTactics(idx, tactics, id), y) <==> z in IndexIds(idx, y) || (z == id && y in tactics)
    decreases |tactics|
  {
    if tactics != [] {
      var idx' := AddTo(idx, tactics[0], id);
      assert AddTactics(idx, tactics, id) == AddTactics(idx', tactics[1..], id);
      AddTacticsIds(idx', tactics[1..], id, y, z);
      AddToIds(idx, tactics[0], id, y);
      assert z in IndexIds(idx', y) <==> z in IndexIds(idx, y) || (y == tactics[0] && z == id);
      assert y in tactics <==> y == tactics[0] || y in tactics[1..];
    }
  }

  /** The outer loop over the catalogue. */
  function BuildIndex(idx: seq<TacticEntry>, cat: seq<Technique>): seq<TacticEntry>
    decreases |cat|
  {
    if cat == [] then idx else BuildIndex(AddTactics(idx, cat[0].tactics, cat[0].id), cat[1..])
  }

  lemma {:induction false} BuildIndexIds(idx: seq<TacticEntry>, cat: seq<Technique>, y: string, z: string)
    ensures z in IndexIds(BuildIndex(idx, cat), y)
            <==> z in IndexIds(idx, y) || exists i :: 0 <= i < |cat| && cat[i].id == z && y in cat[i].tactics
    decreases |cat|
  {
    if cat != [] {
      BuildIndexIds(AddTactics(idx, cat[0].tactics, cat[0].id), cat[1..], y, z);
      AddTacticsIds(idx, cat[0].tactics, cat[0].id, y, z);
      assert forall i :: 1 <= i < |cat| ==> cat[i] == cat[1..][i - 1];
      if exists i :: 0 <= i < |cat| && cat[i].id == z && y in cat[i].tactics {
        var i :| 0 <= i < |cat| && cat[i].id == z && y in cat[i].tactics;
        if i > 0 {
          assert cat[1..][i - 1].id == z && y in cat[1..][i - 1].tactics;
        }
      }
    }
  }

  /** `_parse_tactics`. */
  function ParseTactics(cat: seq<Technique>): seq<TacticEntry> {
    BuildIndex([], cat)
  }

  /** The index lists technique `z` under tactic `y` exactly when `y` is one
      of that technique's tactics. */
  lemma TacticIndexIff(cat: seq<Technique>, y: string, z: string)
    ensures z in IndexIds(ParseTactics(cat), y) <==> exists i :: 0 <= i < |cat| && cat[i].id == z && y in cat[i].tactics
  {
    BuildIndexIds([], cat, y, z);
  }

  // ---------------------------------------------------------------------
  // Lookups
  // ---------------------------------------------------------------------

  /** `tactic.lower().replace(' ', '-')`. */
  function Normalize(tactic: string): (r: string)
    ensures |r| == |tactic| && ' ' !in r
    ensures forall i :: 0 <= i < |tactic| ==> r[i] == (if tactic[i] == ' ' then '-' else LowerChar(tactic[i]))
  {
    ReplaceCharRemoves(Lower(tactic), ' ', '-');
    ReplaceChar(Lower(tactic), ' ', '-')
  }

  /** The first key whose lower-case form equals `wanted`. */
  function MatchingTactic(keys: seq<string>, wanted: string): (r: Option<string>)
    ensures r.None? <==> forall i :: 0 <= i < |keys| ==> Lower(keys[i]) != wanted
    ensures r.Some? ==> exists i :: 0 <= i < |keys| && keys[i] == r.value && Lower(keys[i]) == wanted
                                    && forall j :: 0 <= j < i ==> Lower(keys[j]) != wanted
    decreases |keys|
  {
    if keys == [] then None
    else if Lower(keys[0]) == wanted then Some(keys[0])
    else
      var r := MatchingTactic(keys[1..], wanted);
      assert forall i :: 1 <= i < |keys| ==> keys[i] == keys[1..][i - 1];
      assert r.Some? ==> exists i :: 0 <= i < |keys| && keys[i] == r.value && Lower(keys[i]) == wanted
                                     && forall j :: 0 <= j < i ==> Lower(keys[j]) != wanted by {
        if r.Some? {
          var i :| 0 <= i < |keys[1..]| && keys[1..][i] == r.value && Lower(keys[1..][i]) == wanted
                   && forall j :: 0 <= j < i ==> Lower(keys[1..][j]) != wanted;
          assert forall j :: 0 <= j < i + 1 ==> Lower(keys[j]) != wanted by {
            forall j | 0 <= j < i + 1
              ensures Lower(keys[j]) != wanted
            {
              if j > 0 {
                assert keys[j] == keys[1..][j - 1];
              }
            }
          }
          assert keys[i + 1] == r.value;
        }
      }
      r
  }

  /** `[techniques[tid] for tid in ids if tid in techniques]`. */
  function TechniquesFor(cat: seq<Technique>, ids: seq<string>): (r: seq<Technique>)
    ensures forall t :: t in r <==> exists j :: 0 <= j < |ids| && FindById(cat, ids[j]) == Some(t)
    decreases |ids|
  {
    if ids == [] then []
    else
      var rest := TechniquesFor(cat, ids[1..]);
      assert forall j :: 1 <= j < |ids| ==> ids[j] == ids[1..][j - 1];
      var head := if ids[0] in Ids(cat) then [FindById(cat, ids[0]).value] else [];
      assert forall t :: t in head + rest <==> exists j :: 0 <= j < |ids| && FindById(cat, ids[j]) == Some(t) by {
        forall t | exists j :: 0 <= j < |ids| && FindById(cat, ids[j]) == Some(t)
          ensures t in head + rest
        {
          var j :| 0 <= j < |ids| && FindById(cat, ids[j]) == Some(t);
          if j > 0 {
            assert FindById(cat, ids[1..][j - 1]) == Some(t);
          }
        }
      }
      head + rest
  }

  /** `TechniquesFor` distributes over concatenation: the comprehension keeps
      the order of the id list. */
  lemma {:induction false} TechniquesForAppend(cat: seq<Technique>, a: seq<string>, b: seq<string>)
    ensures TechniquesFor(cat, a + b) == TechniquesFor(cat, a) + TechniquesFor(cat, b)
    decreases |a|
  {
    if a == [] {
      assert a + b == b;
    } else {
      assert (a + b)[0] == a[0];
      assert (a + b)[1..] == a[1..] + b;
      TechniquesForAppend(cat, a[1..], b);
    }
  }

  /** An id in the middle of the list contributes its technique, in its place
      and once per occurrence, exactly when the catalogue holds that id. */
  lemma TechniquesForInOrder(cat: seq<Technique>, a: seq<string>, id: string, b: seq<string>)
    ensures TechniquesFor(cat, a + [id] + b)
         == TechniquesFor(cat, a) + (if id in Ids(cat) then [FindById(cat, id).value] else []) + TechniquesFor(cat, b)
  {
    assert TechniquesFor(cat, [id]) == (if id in Ids(cat) then [FindById(cat, id).value] else []) by {
      assert [id][1..] == [];
    }
    calc {
      TechniquesFor(cat, a + [id] + b);
      { TechniquesForAppend(cat, a + [id], b); }
      TechniquesFor(cat, a + [id]) + TechniquesFor(cat, b);
      { TechniquesForAppend(cat, a, [id]); }
      TechniquesFor(cat, a) + TechniquesFor(cat, [id]) + TechniquesFor(cat, b);
    }
  }

  /** `get_techniques_by_tactic` over a catalogue and its tactic index. An
      empty matching key counts as no match (it is falsy). */
  function GetTechniquesByTactic(cat: seq<Technique>, idx: seq<TacticEntry>, tactic: string): (r: seq<Technique>)
    ensures MatchingTactic(Tactics(idx), Normalize(tactic)).None? ==> r == []
    ensures forall t :: t in r ==> t in cat
  {
    var m := MatchingTactic(Tactics(idx), Normalize(tactic));
    if m.None? || m.value == "" then [] else TechniquesFor(cat, IndexIds(idx, m.value))
  }

  /** Over the index built from the catalogue, the techniques returned for a
      matched tactic key are exactly those listing that key among their tactics. */
  lemma TechniquesByTacticIff(cat: seq<Technique>, tactic: string, t: Technique)
    requires NoDups(Ids(cat))
    requires MatchingTactic(Tactics(ParseTactics(cat)), Normalize(tactic)).Some?
    requires MatchingTactic(Tactics(ParseTactics(cat)), Normalize(tactic)).value != ""
    ensures t in GetTechniquesByTactic(cat, ParseTactics(cat), tactic)
            <==> t in cat && MatchingTactic(Tactics(ParseTactics(cat)), Normalize(tactic)).value in t.tactics
  {
    var idx := ParseTactics(cat);
    var key := MatchingTactic(Tactics(idx), Normalize(tactic)).value;
    var ids := IndexIds(idx, key);
    if t in GetTechniquesByTactic(cat, idx, tactic) {
      var j :| 0 <= j < |ids| && FindById(cat, ids[j]) == Some(t);
      TacticIndexIff(cat, key, ids[j]);
      var i :| 0 <= i < |cat| && cat[i].id == ids[j] && key in cat[i].tactics;
      FindByIdMember(cat, i);
    }
    if t in cat && key in t.tactics {
      var i :| 0 <= i < |cat| && cat[i] == t;
      TacticIndexIff(cat, key, t.id);
      FindByIdMember(cat, i);
      var j :| 0 <= j < |ids| && ids[j] == t.id;
      assert FindById(cat, ids[j]) == Some(t);
    }
  }

  /** The sub-technique test: flagged, with an id starting with `parent + '.'`. */
  predicate SubtechniqueOf(t: Technique, parentId: string) {
    t.isSubtechnique && StartsWith(t.id, parentId + ".")
  }

  /** `get_subtechniques`. */
  function GetSubtechniques(cat: seq<Technique>, parentId: string): (r: seq<Technique>)
    ensures forall i :: 0 <= i < |r| ==> r[i] in cat && SubtechniqueOf(r[i], parentId)
    ensures forall i :: 0 <= i < |cat| && SubtechniqueOf(cat[i], parentId) ==> cat[i] in r
  {
    Filter(cat, t => SubtechniqueOf(t, parentId))
  }

  /** `get_parent_technique`: `None` for an id without '.', otherwise the
      technique whose id is the text before the first '.'. */
  function GetParentTechnique(cat: seq<Technique>, subId: string): (r: Option<Technique>)
    ensures '.' !in subId ==> r.None?
    ensures r.Some? ==> r.value in cat && StartsWith(subId, r.value.id) && '.' !in r.value.id
    ensures r.Some? ==> r.value.id == BaseId(subId)
    ensures '.' in subId ==> (r.Some? <==> BaseId(subId) in Ids(cat))
  {
    if '.' !in subId then None else FindById(cat, BaseId(subId))
  }

  /** For any id `p.s` whose part before the first dot is `p`, the parent
      lookup finds exactly what looking up `p` finds: the catalogue's entry
      for `p` when there is one, and nothing otherwise. */
  lemma ParentOfDottedId(cat: seq<Technique>, p: string, s: string)
    requires '.' !in p
    ensures GetParentTechnique(cat, p + "." + s) == FindById(cat, p)
  {
    assert '.' in p + "." + s by { assert (p + "." + s)[|p|] == '.'; }
    BaseIdOfSubId(p, s);
  }

  /** The parent of every sub-technique of `p` is `p` itself. */
  lemma ParentOfSubtechnique(cat: seq<Technique>, p: string, s: Technique)
    requires '.' !in p && s in GetSubtechniques(cat, p)
    ensures GetParentTechnique(cat, s.id) == FindById(cat, p)
  {
    var i :| 0 <= i < |GetSubtechniques(cat, p)| && GetSubtechniques(cat, p)[i] == s;
    assert StartsWith(s.id, p + ".");
    var rest := s.id[|p| + 1..];
    assert s.id == p + ['.'] + rest;
    IndexOfAfter(p, '.', rest);
    SplitFirst(s.id, '.');
  }
}

=== FILE: seqs.dfy ===
/** Sequence helpers: duplicate-freedom, order-preserving de-duplication (what
    `list(dict.fromkeys(xs))` computes), and filtering (a list comprehension
    with an `if`). */
module Seqs {

  /** No element occurs twice. */
  predicate NoDups<T(==)>(xs: seq<T>) {
    forall i, j :: 0 <= i < j < |xs| ==> xs[i] != xs[j]
  }

  /** Index of the first occurrence of `x` in `xs`. */
  function FirstIndex<T(==)>(xs: seq<T>, x: T): (i: nat)
    requires x in xs
    ensures i < |xs| && xs[i] == x && x !in xs[..i]
  {
    if xs[0] == x then 0
    else
      var j := FirstIndex(xs[1..], x);
      assert xs[..j + 1] == [xs[0]] + xs[1..][..j];
      j + 1
  }

  /** `list(dict.fromkeys(xs))`: every element once, at its first occurrence. */
  function Dedup<T(==)>(xs: seq<T>): (r: seq<T>)
    ensures forall i :: 0 <= i < |r| ==> r[i] in xs
    ensures |r| <= |xs|
    decreases |xs|
  {
    if xs == [] then []
    else
      var init := xs[..|xs| - 1];
      var last := xs[|xs| - 1];
      assert xs == init + [last];
      var d := Dedup(init);
      if last in init then d else d + [last]
  }

  /** The de-duplicated list holds every element of `xs`, each once. */
  lemma {:induction false} DedupSpec<T>(xs: seq<T>)
    ensures NoDups(Dedup(xs))
    ensures forall i :: 0 <= i < |xs| ==> xs[i] in Dedup(xs)
    decreases |xs|
  {
    if xs != [] {
      var init := xs[..|xs| - 1];
      var last := xs[|xs| - 1];
      assert xs == init + [last];
      DedupSpec(init);
      var d := Dedup(init);
      assert forall i :: 0 <= i < |init| ==> xs[i] == init[i];
      if last !in init {
        assert Dedup(xs) == d + [last];
        assert last !in d;
      } else {
        assert Dedup(xs) == d;
      }
    }
  }

  /** Appending an element not seen before appends it to the de-duplicated list. */
  lemma DedupAppendFresh<T>(xs: seq<T>, y: T)
    requires y !in xs
    ensures Dedup(xs + [y]) == Dedup(xs) + [y]
  {
    assert (xs + [y])[..|xs|] == xs;
  }

  /** Appending an element already seen changes nothing. */
  lemma DedupAppendSeen<T>(xs: seq<T>, y: T)
    requires y in xs
    ensures Dedup(xs + [y]) == Dedup(xs)
  {
    assert (xs + [y])[..|xs|] == xs;
  }

  /** An element already present earlier can be dropped before de-duplicating. */
  lemma {:induction false} DedupDropSeen<T>(a: seq<T>, y: T, b: seq<T>)
    requires y in a
    ensures Dedup(a + [y] + b) == Dedup(a + b)
    decreases |b|
  {
    if b == [] {
      assert a + [y] + b == a + [y];
      assert a + b == a;
      DedupAppendSeen(a, y);
    } else {
      var b0 := b[..|b| - 1];
      var z := b[|b| - 1];
      DedupDropSeen(a, y, b0);
      assert a + [y] + b == (a + [y] + b0) + [z];
      assert a + b == (a + b0) + [z];
      assert (z in a + [y] + b0) <==> (z in a + b0);
      if z in a + b0 {
        DedupAppendSeen(a + [y] + b0, z);
        DedupAppendSeen(a + b0, z);
      } else {
        DedupAppendFresh(a + [y] + b0, z);
        DedupAppendFresh(a + b0, z);
      }
    }
  }

  /** A list without duplicates is its own de-duplication. */
  lemma {:induction false} DedupNoDups<T>(xs: seq<T>)
    requires NoDups(xs)
    ensures Dedup(xs) == xs
    decreases |xs|
  {
    if xs != [] {
      var init := xs[..|xs| - 1];
      DedupNoDups(init);
      assert xs == init + [xs[|xs| - 1]];
    }
  }

  /** The kept elements appear in the order of their first occurrences. */
  lemma {:induction false} DedupFirstOccurrenceOrder<T>(xs: seq<T>)
    ensures forall i, j :: 0 <= i < j < |Dedup(xs)| ==>
              FirstIndex(xs, Dedup(xs)[i]) < FirstIndex(xs, Dedup(xs)[j])
    decreases |xs|
  {
    if xs != [] {
      var init := xs[..|xs| - 1];
      var last := xs[|xs| - 1];
      assert xs == init + [last];
      DedupFirstOccurrenceOrder(init);
      FirstIndexPrefix(init, last);
    }
  }

  /** A position holding `x` with no earlier `x` is the first index of `x`. */
  lemma {:induction false} FirstIndexUnique<T>(xs: seq<T>, x: T, k: nat)
    requires k < |xs| && xs[k] == x && x !in xs[..k]
    ensures FirstIndex(xs, x) == k
    decreases k
  {
    if k > 0 {
      assert xs[0] == xs[..k][0];
      assert xs[1..][k - 1] == x;
      assert xs[1..][..k - 1] == xs[..k][1..];
      FirstIndexUnique(xs[1..], x, k - 1);
    }
  }

  /** First occurrences in `init` stay first occurrences in `init + [y]`, and a
      fresh `y` first occurs at the end. */
  lemma FirstIndexPrefix<T>(init: seq<T>, y: T)
    ensures forall x :: x in init ==> FirstIndex(init + [y], x) == FirstIndex(init, x)
    ensures y !in init ==> FirstIndex(init + [y], y) == |init|
  {
    var xs := init + [y];
    forall x | x in init
      ensures FirstIndex(xs, x) == FirstIndex(init, x)
    {
      var i := FirstIndex(init, x);
      assert xs[..i] == init[..i];
      FirstIndexUnique(xs, x, i);
    }
    if y !in init {
      assert xs[..|init|] == init;
      FirstIndexUnique(xs, y, |init|);
    }
  }

  /** Where the elements of each part of a four-part concatenation sit. */
  lemma ConcatParts<T>(a: seq<T>, b: seq<T>, c: seq<T>, d: seq<T>)
    ensures forall i :: 0 <= i < |a| ==> (a + b + c + d)[i] == a[i]
    ensures forall i :: 0 <= i < |b| ==> (a + b + c + d)[|a| + i] == b[i]
    ensures forall i :: 0 <= i < |c| ==> (a + b + c + d)[|a| + |b| + i] == c[i]
  {
  }

  /** The elements of `xs` satisfying `p`, in order. */
  function Filter<T>(xs: seq<T>, p: T -> bool): (r: seq<T>)
    ensures |r| <= |xs|
    ensures forall i :: 0 <= i < |r| ==> r[i] in xs && p(r[i])
    ensures forall i :: 0 <= i < |xs| && p(xs[i]) ==> xs[i] in r
    decreases |xs|
  {
    if xs == [] then []
    else
      assert xs == [xs[0]] + xs[1..];
      (if p(xs[0]) then [xs[0]] else []) + Filter(xs[1..], p)
  }

  /** One step of `Filter`: the head, if it passes, then the filtered tail. */
  lemma FilterCons<T>(xs: seq<T>, p: T -> bool)
    requires xs != []
    ensures Filter(xs, p) == (if p(xs[0]) then [xs[0]] else []) + Filter(xs[1..], p)
  {
  }

  /** `FilterCons` for a list written as a head and a tail. */
  lemma FilterPrepend<T>(x: T, xs: seq<T>, p: T -> bool)
    ensures Filter([x] + xs, p) == (if p(x) then [x] else []) + Filter(xs, p)
  {
    FilterCons([x] + xs, p);
    assert ([x] + xs)[1..] == xs;
  }

  /** Filtering distributes over concatenation: the kept elements of `a`
      come first, in order, then those of `b`. With `FilterCons` this pins
      the result down as the in-order subsequence of the passing elements. */
  lemma {:induction false} FilterAppend<T>(a: seq<T>, b: seq<T>, p: T -> bool)
    ensures Filter(a + b, p) == Filter(a, p) + Filter(b, p)
    decreases |a|
  {
    if a != [] {
      FilterAppend(a[1..], b, p);
      assert (a + b)[1..] == a[1..] + b;
      FilterCons(a + b, p);
      FilterCons(a, p);
    } else {
      assert a + b == b;
    }
  }

  /** The in-order reading of `Filter`: an element in the middle of the
      input contributes itself, in its own place and once, exactly when it
      passes; the elements before and after it are filtered independently. */
  lemma FilterSplit<T>(a: seq<T>, x: T, b: seq<T>, p: T -> bool)
    ensures Filter(a + [x] + b, p) == Filter(a, p) + (if p(x) then [x] else []) + Filter(b, p)
  {
    assert Filter([x], p) == (if p(x) then [x] else []) by {
      FilterCons([x], p);
      assert [x][1..] == [];
    }
    calc {
      Filter(a + [x] + b, p);
      { FilterAppend(a + [x], b, p); }
      Filter(a + [x], p) + Filter(b, p);
      { FilterAppend(a, [x], p); }
      Filter(a, p) + Filter([x], p) + Filter(b, p);
    }
  }

  /** Filtering keeps everything exactly when every element passes. */
  lemma {:induction false} FilterAll<T>(xs: seq<T>, p: T -> bool)
    ensures Filter(xs, p) == xs <==> forall i :: 0 <= i < |xs| ==> p(xs[i])
    decreases |xs|
  {
    if xs != [] {
      FilterAll(xs[1..], p);
      assert xs == [xs[0]] + xs[1..];
      if !p(xs[0]) {
        assert |Filter(xs, p)| < |xs|;
      }
    }
  }
}

=== FILE: sigma.dfy ===
/** The Sigma rule's derived parts: the detection section (a selection map
    merged field by field, an escalated condition, a keyword fallback), the
    log source, level, false positives, tags and the rule id. */
module SigmaConverter {
  import opened Wrappers
  import opened Strings
  import opened Seqs
  import opened Techniques
  import BaseConverter

  // ---------------------------------------------------------------------
  // The selection map
  // ---------------------------------------------------------------------

  /** One `key: [values]` entry of a selection. */
  datatype Field = Field(key: string, values: seq<string>)

  /** The keys of a selection, in order. */
  function Keys(sel: seq<Field>): (r: seq<string>)
    ensures |r| == |sel|
    ensures forall i :: 0 <= i < |sel| ==> r[i] == sel[i].key
  {
    seq(|sel|, i requires 0 <= i < |sel| => sel[i].key)
  }

  /** A Python dict of fields: insertion-ordered, keys distinct. */
  predicate DistinctKeys(sel: seq<Field>) {
    NoDups(Keys(sel))
  }

  /** `sel[key]`, or `None` when the key is absent. */
  function Lookup(sel: seq<Field>, key: string): (r: Option<seq<string>>)
    ensures r.Some? <==> key in Keys(sel)
    ensures r.Some? ==> exists i :: 0 <= i < |sel| && sel[i] == Field(key, r.value)
    decreases |sel|
  {
    if sel == [] then None
    else if sel[0].key == key then Some(sel[0].values)
    else
      var r := Lookup(sel[1..], key);
      KeysCons(sel);
      assert r.Some? ==> exists i :: 1 <= i < |sel| && sel[i] == Field(key, r.value) by {
        if r.Some? {
          var i :| 0 <= i < |sel[1..]| && sel[1..][i] == Field(key, r.value);
          assert sel[i + 1] == Field(key, r.value);
        }
      }
      r
  }

  lemma KeysCons(sel: seq<Field>)
    requires sel != []
    ensures Keys(sel) == [sel[0].key] + Keys(sel[1..])
  {
  }

  /** `sel.update({f.key: f.values})`: an existing key keeps its position and
      takes the new value; a new key goes at the end. */
  function Update(sel: seq<Field>, f: Field): (r: seq<Field>)
    ensures r != []
    ensures |r| == |sel| + (if f.key in Keys(sel) then 0 else 1)
    decreases |sel|
  {
    if sel == [] then [f]
    else if sel[0].key == f.key then [f] + sel[1..]
    else
      KeysCons(sel);
      [sel[0]] + Update(sel[1..], f)
  }

  /** After the update the key holds the new values. */
  lemma {:induction false} UpdateSets(sel: seq<Field>, f: Field)
    ensures Lookup(Update(sel, f), f.key) == Some(f.values)
    decreases |sel|
  {
    if sel != [] && sel[0].key != f.key {
      UpdateSets(sel[1..], f);
      assert Update(sel, f)[1..] == Update(sel[1..], f);
    }
  }

  /** Every other key is left as it was. */
  lemma {:induction false} UpdateFrame(sel: seq<Field>, f: Field, k: string)
    requires k != f.key
    ensures Lookup(Update(sel, f), k) == Lookup(sel, k)
    decreases |sel|
  {
    if sel != [] && sel[0].key != f.key {
      UpdateFrame(sel[1..], f, k);
      assert Update(sel, f)[1..] == Update(sel[1..], f);
    }
  }

  /** The update adds `f.key` to the keys and nothing else. */
  lemma {:induction false} UpdateKeys(sel: seq<Field>, f: Field)
    ensures Keys(Update(sel, f)) == if f.key in Keys(sel) then Keys(sel) else Keys(sel) + [f.key]
    decreases |sel|
  {
    if sel != [] {
      KeysCons(sel);
      if sel[0].key == f.key {
        assert Keys(Update(sel, f)) == [f.key] + Keys(sel[1..]);
      } else {
        UpdateKeys(sel[1..], f);
        KeysCons(Update(sel, f));
        assert Update(sel, f)[1..] == Update(sel[1..], f);
      }
    }
  }

  /** Updating keeps the keys distinct. */
  lemma UpdateDistinct(sel: seq<Field>, f: Field)
    requires DistinctKeys(sel)
    ensures DistinctKeys(Update(sel, f))
  {
    UpdateKeys(sel, f);
  }

  const ImageKey: string := "Image|endswith"
  const TargetFilenameKey: string := "TargetFilename|endswith"
  const TargetObjectKey: string := "TargetObject|contains"
  const CommandLineKey: string := "CommandLine|contains"
  const DestinationPortKey: string := "DestinationPort"
  const EventIdKey: string := "EventID"
  const EventTypeKey: string := "EventType"
  const EventTypeContainsKey: string := "EventType|contains"

  /** Common ports excluded from the port rule. */
  const ExcludedPorts: seq<string> := ["!80", "!443", "!53", "!22", "!3389"]
  /** Windows logon and Kerberos event ids. */
  const AuthEventIds: seq<string> := ["4624", "4625", "4648", "4768", "4769", "4776"]
  /** The event types of `selection_alt`. */
  const AuthEventTypes: seq<string> := ["authentication", "login", "auth"]

  const SelectionOnly: string := "selection"
  const SelectionOrAlt: string := "selection or selection_alt"

  // ---------------------------------------------------------------------
  // Agnostic-pattern cues
  // ---------------------------------------------------------------------

  /** `word in p.lower()`. */
  predicate Mentions(p: string, word: string) {
    Contains(Lower(p), word)
  }

  /** `any(word in p.lower() for p in ps)`. */
  predicate AnyMentions(ps: seq<string>, word: string) {
    exists i :: 0 <= i < |ps| && Mentions(ps[i], word)
  }

  /** `any(a in p.lower() or b in p.lower() for p in ps)`. */
  predicate AnyMentionsEither(ps: seq<string>, a: string, b: string) {
    exists i :: 0 <= i < |ps| && (Mentions(ps[i], a) || Mentions(ps[i], b))
  }

  predicate CommandOrArgument(p: string) {
    Mentions(p, "command") || Mentions(p, "argument")
  }

  /** The patterns that go under `CommandLine|contains`, in order. */
  function CommandLineValues(ps: seq<string>): (r: seq<string>)
    ensures forall i :: 0 <= i < |r| ==> r[i] in ps && CommandOrArgument(r[i])
    ensures forall i :: 0 <= i < |ps| && CommandOrArgument(ps[i]) ==> ps[i] in r
  {
    Filter(ps, CommandOrArgument)
  }

  /** `CommandLineValues` keeps the patterns in their order and with their
      multiplicity: a pattern in the middle of the list contributes itself,
      in its place, exactly when it mentions a command or an argument. */
  lemma CommandLineValuesInOrder(a: seq<string>, p: string, b: seq<string>)
    ensures CommandLineValues(a + [p] + b)
         == CommandLineValues(a) + (if CommandOrArgument(p) then [p] else []) + CommandLineValues(b)
  {
    FilterSplit(a, p, b, CommandOrArgument);
  }

  predicate CommandCue(ps: seq<string>) {
    ps != [] && AnyMentions(ps, "command")
  }

  predicate NetworkCue(ps: seq<string>) {
    ps != [] && AnyMentionsEither(ps, "network", "port")
  }

  predicate AuthCue(ps: seq<string>) {
    ps != [] && AnyMentionsEither(ps, "login", "account")
  }

  // ---------------------------------------------------------------------
  // Detection
  // ---------------------------------------------------------------------

  datatype Detection = Detection(selection: seq<Field>, selectionAlt: Option<seq<Field>>, condition: string)

  /** The technique's lists the selection rules read. */
  datatype RuleInputs = RuleInputs(processes: seq<string>, files: seq<string>, registryKeys: seq<string>,
                                   agnostic: seq<string>)

  function RuleInputsOf(t: Technique): (r: RuleInputs)
    ensures r.processes == CommonProcesses(t) && r.files == CommonFiles(t)
    ensures r.registryKeys == CommonRegistryKeys(t) && r.agnostic == AgnosticPatterns(t)
  {
    RuleInputs(CommonProcesses(t), CommonFiles(t), CommonRegistryKeys(t), AgnosticPatterns(t))
  }

  /** The six selection rules, applied in order. The first three are guarded
      by the flags the caller passes. */
  function SelectionRules(ins: RuleInputs, useProcesses: bool, useFiles: bool, useRegistry: bool): (r: seq<Field>)
    ensures r == [] <==> !useProcesses && !useFiles && !useRegistry
                         && !CommandCue(ins.agnostic) && !NetworkCue(ins.agnostic) && !AuthCue(ins.agnostic)
  {
    var agn := ins.agnostic;
    var s1 := Guarded([], useProcesses, Field(ImageKey, ins.processes));
    var s2 := Guarded(s1, useFiles, Field(TargetFilenameKey, ins.files));
    var s3 := Guarded(s2, useRegistry, Field(TargetObjectKey, ins.registryKeys));
    var s4 := Guarded(s3, CommandCue(agn), Field(CommandLineKey, CommandLineValues(agn)));
    var s5 := Guarded(s4, NetworkCue(agn), Field(DestinationPortKey, ExcludedPorts));
    Guarded(s5, AuthCue(agn), Field(EventIdKey, AuthEventIds))
  }

  /** `if guard: sel.update({f.key: f.values})`. */
  function Guarded(sel: seq<Field>, guard: bool, f: Field): (r: seq<Field>)
    ensures r == [] <==> sel == [] && !guard
  {
    if guard then Update(sel, f) else sel
  }

  /** A keyword worth matching on: longer than three characters. */
  predicate Significant(k: string) {
    |k| > 3
  }

  /** The lower-cased words of the name longer than three characters. */
  function SignificantKeywords(name: string): (r: seq<string>)
    ensures forall i :: 0 <= i < |r| ==> |r[i]| > 3 && r[i] in WordTokens(Lower(name))
    ensures forall i :: 0 <= i < |WordTokens(Lower(name))| && |WordTokens(Lower(name))[i]| > 3 ==>
              WordTokens(Lower(name))[i] in r
  {
    Filter(WordTokens(Lower(name)), Significant)
  }

  /** A name that starts with a non-word character yields the keywords of
      the rest of the name. */
  lemma SignificantKeywordsNonWordHead(c: char, name: string)
    requires !IsWordChar(c)
    ensures SignificantKeywords([c] + name) == SignificantKeywords(name)
  {
    LowerAppend([c], name);
    assert Lower([c]) == [LowerChar(c)];
    WordTokensNonWordHead(LowerChar(c), Lower(name));
  }

  /** A name that starts with a whole word `w` (a run of word characters
      ending at the end of the name or at a non-word character) yields
      `w` lower-cased first, when it is longer than three characters, and
      then the keywords of the rest, in order. With the previous lemma and
      `SignificantKeywords("") == []` this fixes the keywords and their order. */
  lemma SignificantKeywordsWordHead(w: string, rest: string)
    requires w != [] && forall k :: 0 <= k < |w| ==> IsWordChar(w[k])
    requires rest == [] || !IsWordChar(rest[0])
    ensures SignificantKeywords(w + rest)
         == (if |w| > 3 then [Lower(w)] else []) + SignificantKeywords(rest)
  {
    LowerWordTokensRunHead(w, rest);
    FilterPrepend(Lower(w), WordTokens(Lower(rest)), Significant);
  }

  /** The detection section for given guard outcomes on the first three rules. */
  function BuildDetection(ins: RuleInputs, name: string, useProcesses: bool, useFiles: bool, useRegistry: bool): Detection {
    var sel := SelectionRules(ins, useProcesses, useFiles, useRegistry);
    var auth := AuthCue(ins.agnostic);
    var kws := SignificantKeywords(name);
    Detection(
      if sel == [] && kws != [] then [Field(EventTypeContainsKey, kws)] else sel,
      if auth then Some([Field(EventTypeKey, AuthEventTypes)]) else None,
      if auth then SelectionOrAlt else SelectionOnly)
  }

  /** `_generate_detection` with each guard read as "the getter's list is
      non-empty". */
  function GenerateDetection(t: Technique): (r: Detection)
    ensures r.selectionAlt.Some? <==> AuthCue(AgnosticPatterns(t))
    ensures r.condition == SelectionOrAlt <==> AuthCue(AgnosticPatterns(t))
    ensures r.condition == SelectionOnly <==> !AuthCue(AgnosticPatterns(t))
  {
    BuildDetection(RuleInputsOf(t), t.name, CommonProcesses(t) != [], CommonFiles(t) != [], CommonRegistryKeys(t) != [])
  }

  /** Which selection fields the detection holds, and their values: each
      indicator field exactly when its getter's list is non-empty. */
  lemma DetectionIndicatorFields(t: Technique)
    ensures var sel := GenerateDetection(t).selection;
            Lookup(sel, ImageKey) == (if CommonProcesses(t) != [] then Some(CommonProcesses(t)) else None)
            && Lookup(sel, TargetFilenameKey) == (if CommonFiles(t) != [] then Some(CommonFiles(t)) else None)
            && Lookup(sel, TargetObjectKey) == (if CommonRegistryKeys(t) != [] then Some(CommonRegistryKeys(t)) else None)
  {
    var p, f, k := CommonProcesses(t) != [], CommonFiles(t) != [], CommonRegistryKeys(t) != [];
    SelectionIndicatorFields(RuleInputsOf(t), p, f, k);
    FallbackHasOnlyEventType(RuleInputsOf(t), t.name, p, f, k);
  }

  /** The agnostic-pattern fields: command lines when some pattern mentions
      "command", the excluded ports when one mentions network or port, the
      logon event ids when one mentions login or account. */
  lemma DetectionCueFields(t: Technique)
    ensures var sel, agn := GenerateDetection(t).selection, AgnosticPatterns(t);
            Lookup(sel, CommandLineKey) == (if CommandCue(agn) then Some(CommandLineValues(agn)) else None)
            && Lookup(sel, DestinationPortKey) == (if NetworkCue(agn) then Some(ExcludedPorts) else None)
            && Lookup(sel, EventIdKey) == (if AuthCue(agn) then Some(AuthEventIds) else None)
  {
    var p, f, k := CommonProcesses(t) != [], CommonFiles(t) != [], CommonRegistryKeys(t) != [];
    SelectionCueFields(RuleInputsOf(t), p, f, k);
    FallbackHasOnlyEventType(RuleInputsOf(t), t.name, p, f, k);
  }

  /** When no rule fires the selection is the name's keywords (or empty), and
      otherwise the keywords never appear. */
  lemma DetectionFallback(t: Technique)
    ensures var agn := AgnosticPatterns(t);
            var none := CommonProcesses(t) == [] && CommonFiles(t) == [] && CommonRegistryKeys(t) == []
                        && !CommandCue(agn) && !NetworkCue(agn) && !AuthCue(agn);
            var kws := SignificantKeywords(t.name);
            (none ==> GenerateDetection(t).selection == (if kws != [] then [Field(EventTypeContainsKey, kws)] else []))
            && (!none ==> Lookup(GenerateDetection(t).selection, EventTypeContainsKey).None?)
  {
    var p, f, k := CommonProcesses(t) != [], CommonFiles(t) != [], CommonRegistryKeys(t) != [];
    SelectionIndicatorFields(RuleInputsOf(t), p, f, k);
  }

  /** The fallback selection carries only `EventType|contains`. */
  lemma FallbackHasOnlyEventType(ins: RuleInputs, name: string, useProcesses: bool, useFiles: bool, useRegistry: bool)
    ensures var sel := BuildDetection(ins, name, useProcesses, useFiles, useRegistry).selection;
            SelectionRules(ins, useProcesses, useFiles, useRegistry) == [] ==>
              Lookup(sel, ImageKey).None? && Lookup(sel, TargetFilenameKey).None? && Lookup(sel, TargetObjectKey).None?
              && Lookup(sel, CommandLineKey).None? && Lookup(sel, DestinationPortKey).None? && Lookup(sel, EventIdKey).None?
  {
    if SelectionRules(ins, useProcesses, useFiles, useRegistry) == [] {
      var sel := BuildDetection(ins, name, useProcesses, useFiles, useRegistry).selection;
      var kws := SignificantKeywords(name);
      assert sel == if kws != [] then [Field(EventTypeContainsKey, kws)] else [];
      KeysDistinct();
      assert Keys(sel) == [] || Keys(sel) == [EventTypeContainsKey];
    }
  }

  /** Field by field, what the rules put in the selection: each indicator
      field exactly when its flag is set, and never the keywords. */
  lemma SelectionIndicatorFields(ins: RuleInputs, useProcesses: bool, useFiles: bool, useRegistry: bool)
    ensures var sel := SelectionRules(ins, useProcesses, useFiles, useRegistry);
            Lookup(sel, ImageKey) == (if useProcesses then Some(ins.processes) else None)
            && Lookup(sel, TargetFilenameKey) == (if useFiles then Some(ins.files) else None)
            && Lookup(sel, TargetObjectKey) == (if useRegistry then Some(ins.registryKeys) else None)
            && Lookup(sel, EventTypeContainsKey).None?
  {
    KeysDistinct();
    SelectionLookup(ins, useProcesses, useFiles, useRegistry, ImageKey);
    SelectionLookup(ins, useProcesses, useFiles, useRegistry, TargetFilenameKey);
    SelectionLookup(ins, useProcesses, useFiles, useRegistry, TargetObjectKey);
    SelectionLookup(ins, useProcesses, useFiles, useRegistry, EventTypeContainsKey);
  }

  /** The fields the agnostic-pattern cues put in the selection. */
  lemma SelectionCueFields(ins: RuleInputs, useProcesses: bool, useFiles: bool, useRegistry: bool)
    ensures var sel, agn := SelectionRules(ins, useProcesses, useFiles, useRegistry), ins.agnostic;
            Lookup(sel, CommandLineKey) == (if CommandCue(agn) then Some(CommandLineValues(agn)) else None)
            && Lookup(sel, DestinationPortKey) == (if NetworkCue(agn) then Some(ExcludedPorts) else None)
            && Lookup(sel, EventIdKey) == (if AuthCue(agn) then Some(AuthEventIds) else None)
  {
    KeysDistinct();
    SelectionLookup(ins, useProcesses, useFiles, useRegistry, CommandLineKey);
    SelectionLookup(ins, useProcesses, useFiles, useRegistry, DestinationPortKey);
    SelectionLookup(ins, useProcesses, useFiles, useRegistry, EventIdKey);
  }

  /** What the rules leave under one key: the last rule for that key wins. */
  lemma SelectionLookup(ins: RuleInputs, useProcesses: bool, useFiles: bool, useRegistry: bool, k: string)
    ensures var agn := ins.agnostic;
      Lookup(SelectionRules(ins, useProcesses, useFiles, useRegistry), k) ==
        if AuthCue(agn) && k == EventIdKey then Some(AuthEventIds)
        else if NetworkCue(agn) && k == DestinationPortKey then Some(ExcludedPorts)
        else if CommandCue(agn) && k == CommandLineKey then Some(CommandLineValues(agn))
        else if useRegistry && k == TargetObjectKey then Some(ins.registryKeys)
        else if useFiles && k == TargetFilenameKey then Some(ins.files)
        else if useProcesses && k == ImageKey then Some(ins.processes)
        else None
  {
    var agn := ins.agnostic;
    var s1 := Guarded([], useProcesses, Field(ImageKey, ins.processes));
    var s2 := Guarded(s1, useFiles, Field(TargetFilenameKey, ins.files));
    var s3 := Guarded(s2, useRegistry, Field(TargetObjectKey, ins.registryKeys));
    var s4 := Guarded(s3, CommandCue(agn), Field(CommandLineKey, CommandLineValues(agn)));
    var s5 := Guarded(s4, NetworkCue(agn), Field(DestinationPortKey, ExcludedPorts));
    Stage([], useProcesses, Field(ImageKey, ins.processes), k);
    Stage(s1, useFiles, Field(TargetFilenameKey, ins.files), k);
    Stage(s2, useRegistry, Field(TargetObjectKey, ins.registryKeys), k);
    Stage(s3, CommandCue(agn), Field(CommandLineKey, CommandLineValues(agn)), k);
    Stage(s4, NetworkCue(agn), Field(DestinationPortKey, ExcludedPorts), k);
    Stage(s5, AuthCue(agn), Field(EventIdKey, AuthEventIds), k);
  }

  /** One guarded `update`, seen from one key. */
  lemma Stage(sel: seq<Field>, guard: bool, f: Field, k: string)
    ensures Lookup(Guarded(sel, guard, f), k) == if guard && k == f.key then Some(f.values) else Lookup(sel, k)
  {
    if guard {
      if k == f.key {
        UpdateSets(sel, f);
      } else {
        UpdateFrame(sel, f, k);
      }
    }
  }

  /** The selection keys differ pairwise (their lengths do). */
  lemma KeysDistinct()
    ensures ImageKey !in [TargetFilenameKey, TargetObjectKey, CommandLineKey, DestinationPortKey, EventIdKey, EventTypeContainsKey]
    ensures TargetFilenameKey !in [TargetObjectKey, CommandLineKey, DestinationPortKey, EventIdKey, EventTypeContainsKey]
    ensures TargetObjectKey !in [CommandLineKey, DestinationPortKey, EventIdKey, EventTypeContainsKey]
    ensures CommandLineKey !in [DestinationPortKey, EventIdKey, EventTypeContainsKey]
    ensures DestinationPortKey !in [EventIdKey, EventTypeContainsKey]
    ensures EventIdKey != EventTypeContainsKey
  {
    assert |ImageKey| == 14 && |TargetFilenameKey| == 23 && |TargetObjectKey| == 21;
    assert |CommandLineKey| == 20 && |DestinationPortKey| == 15 && |EventIdKey| == 7;
    assert |EventTypeContainsKey| == 18;
  }

  // ---------------------------------------------------------------------
  // The detection as written: attribute reads on the record
  // ---------------------------------------------------------------------

  /** A Python attribute value of the `Technique` record. */
  datatype AttributeValue = Text(s: string) | TextList(xs: seq<string>) | Flag(b: bool)

  datatype AttributeError = AttributeError(name: string)

  /** Python truthiness of an attribute value. */
  predicate Truthy(v: AttributeValue) {
    match v
    case Text(s) => s != []
    case TextList(xs) => xs != []
    case Flag(b) => b
  }

  /** `getattr(technique, name)` for data-attribute names: the record has
      exactly its nine declared fields, and any other data-attribute name
      raises `AttributeError`. Methods and dunder attributes are not among
      the names modelled here. */
  function Attribute(t: Technique, name: string): (r: Result<AttributeValue, AttributeError>)
    ensures r.Failure? <==> name !in TechniqueFields
  {
    if name == "id" then Success(Text(t.id))
    else if name == "name" then Success(Text(t.name))
    else if name == "description" then Success(Text(t.description))
    else if name == "tactics" then Success(TextList(t.tactics))
    else if name == "platforms" then Success(TextList(t.platforms))
    else if name == "data_sources" then Success(TextList(t.dataSources))
    else if name == "detection" then Success(Text(t.detection))
    else if name == "related_techniques" then Success(TextList(t.relatedTechniques))
    else if name == "is_subtechnique" then Success(Flag(t.isSubtechnique))
    else Failure(AttributeError(name))
  }

  const TechniqueFields: set<string> := {
    "id", "name", "description", "tactics", "platforms", "data_sources",
    "detection", "related_techniques", "is_subtechnique"}

  /** The attributes the detection's guards read, as the corrected code
      supplies them: the three indicator lists come from the getters. */
  function IndicatorAttribute(t: Technique, name: string): (r: Result<AttributeValue, AttributeError>)
    ensures name == "common_processes" ==> r == Success(TextList(CommonProcesses(t)))
    ensures name == "common_files" ==> r == Success(TextList(CommonFiles(t)))
    ensures name == "common_registry_keys" ==> r == Success(TextList(CommonRegistryKeys(t)))
    ensures name != "common_processes" && name != "common_files" && name != "common_registry_keys" ==> r == Attribute(t, name)
  {
    if name == "common_processes" then Success(TextList(CommonProcesses(t)))
    else if name == "common_files" then Success(TextList(CommonFiles(t)))
    else if name == "common_registry_keys" then Success(TextList(CommonRegistryKeys(t)))
    else Attribute(t, name)
  }

  /** `_generate_detection` over an attribute reader: the three guards read
      `common_processes`, `common_files` and `common_registry_keys` in turn
      and the first failing read is raised. */
  function DetectionVia(t: Technique, read: string -> Result<AttributeValue, AttributeError>): (r: Result<Detection, AttributeError>)
    ensures read("common_processes").Failure? ==> r == Failure(read("common_processes").error)
    ensures (read("common_processes").Success? && read("common_files").Success? && read("common_registry_keys").Success?)
            ==> r == Success(BuildDetection(RuleInputsOf(t), t.name, Truthy(read("common_processes").value),
                                            Truthy(read("common_files").value),
                                            Truthy(read("common_registry_keys").value)))
  {
    var processes :- read("common_processes");
    var files :- read("common_files");
    var registry :- read("common_registry_keys");
    Success(BuildDetection(RuleInputsOf(t), t.name, Truthy(processes), Truthy(files), Truthy(registry)))
  }

  /** `_generate_detection` as written: the attributes are read off the
      record itself. */
  function GenerateDetectionAsWritten(t: Technique): Result<Detection, AttributeError> {
    DetectionVia(t, name => Attribute(t, name))
  }

  /** Reading the indicator attributes through the getters gives the
      corrected detection. */
  lemma DetectionViaGetters(t: Technique)
    ensures DetectionVia(t, name => IndicatorAttribute(t, name)) == Success(GenerateDetection(t))
  {
    var ins := RuleInputsOf(t);
    var read := name => IndicatorAttribute(t, name);
    IndicatorReads(t, ins);
    assert read("common_processes") == IndicatorAttribute(t, "common_processes");
    assert read("common_files") == IndicatorAttribute(t, "common_files");
    assert read("common_registry_keys") == IndicatorAttribute(t, "common_registry_keys");
    DetectionViaLists(t, read, ins);
  }

  lemma IndicatorReads(t: Technique, ins: RuleInputs)
    requires ins == RuleInputsOf(t)
    ensures IndicatorAttribute(t, "common_processes") == Success(TextList(ins.processes))
    ensures IndicatorAttribute(t, "common_files") == Success(TextList(ins.files))
    ensures IndicatorAttribute(t, "common_registry_keys") == Success(TextList(ins.registryKeys))
  {
  }

  /** Reading the three indicator lists of `ins` gives the detection built
      with "that list is non-empty" as each guard. */
  lemma DetectionViaLists(t: Technique, read: string -> Result<AttributeValue, AttributeError>, ins: RuleInputs)
    requires read("common_processes") == Success(TextList(ins.processes))
    requires read("common_files") == Success(TextList(ins.files))
    requires read("common_registry_keys") == Success(TextList(ins.registryKeys))
    ensures DetectionVia(t, read)
            == Success(BuildDetection(RuleInputsOf(t), t.name, ins.processes != [], ins.files != [], ins.registryKeys != []))
  {
    assert Truthy(TextList(ins.processes)) == (ins.processes != []);
    assert Truthy(TextList(ins.files)) == (ins.files != []);
    assert Truthy(TextList(ins.registryKeys)) == (ins.registryKeys != []);
  }

  /** The corrected selection is a well-formed dict: its keys are distinct. */
  lemma DetectionKeysDistinct(t: Technique)
    ensures DistinctKeys(GenerateDetection(t).selection)
  {
    SelectionDistinct(RuleInputsOf(t), CommonProcesses(t) != [], CommonFiles(t) != [], CommonRegistryKeys(t) != []);
  }

  lemma SelectionDistinct(ins: RuleInputs, useProcesses: bool, useFiles: bool, useRegistry: bool)
    ensures DistinctKeys(SelectionRules(ins, useProcesses, useFiles, useRegistry))
  {
    var agn := ins.agnostic;
    var s1 := Guarded([], useProcesses, Field(ImageKey, ins.processes));
    var s2 := Guarded(s1, useFiles, Field(TargetFilenameKey, ins.files));
    var s3 := Guarded(s2, useRegistry, Field(TargetObjectKey, ins.registryKeys));
    var s4 := Guarded(s3, CommandCue(agn), Field(CommandLineKey, CommandLineValues(agn)));
    var s5 := Guarded(s4, NetworkCue(agn), Field(DestinationPortKey, ExcludedPorts));
    GuardedDistinct([], useProcesses, Field(ImageKey, ins.processes));
    GuardedDistinct(s1, useFiles, Field(TargetFilenameKey, ins.files));
    GuardedDistinct(s2, useRegistry, Field(TargetObjectKey, ins.registryKeys));
    GuardedDistinct(s3, CommandCue(agn), Field(CommandLineKey, CommandLineValues(agn)));
    GuardedDistinct(s4, NetworkCue(agn), Field(DestinationPortKey, ExcludedPorts));
    GuardedDistinct(s5, AuthCue(agn), Field(EventIdKey, AuthEventIds));
  }

  lemma GuardedDistinct(sel: seq<Field>, guard: bool, f: Field)
    requires DistinctKeys(sel)
    ensures DistinctKeys(Guarded(sel, guard, f))
  {
    if guard {
      UpdateDistinct(sel, f);
    }
  }

  /** As written, the first guard raises for every technique, so no Sigma
      rule is ever produced; the corrected detection exists for every input. */
  lemma DetectionAsWrittenAlwaysRaises(t: Technique)
    ensures GenerateDetectionAsWritten(t) == Failure(AttributeError("common_processes"))
  {
    var read := name => Attribute(t, name);
    assert Attribute(t, "common_processes") == Failure(AttributeError("common_processes")) by {
      assert |"common_processes"| == 16;
    }
    assert read("common_processes").Failure?;
    assert GenerateDetectionAsWritten(t) == DetectionVia(t, read);
  }

  /** The test suite's sample technique (process injection on Windows): the
      corrected detection selects on the injection-target processes where the
      code as written raises. */
  lemma DetectionOnSampleTechnique()
    ensures var t := Technique("T1055", "Process Injection", "Test description",
                               ["defense-evasion", "privilege-escalation"], ["Windows"], ["Process monitoring"],
                               "Test detection", [], false);
            GenerateDetectionAsWritten(t).Failure?
            && Lookup(GenerateDetection(t).selection, ImageKey) == Some(CommonProcesses(t))
            && CommonProcesses(t) != []
  {
    var t := Technique("T1055", "Process Injection", "Test description",
                       ["defense-evasion", "privilege-escalation"], ["Windows"], ["Process monitoring"],
                       "Test detection", [], false);
    DetectionAsWrittenAlwaysRaises(t);
    DetectionIndicatorFields(t);
    SampleHasProcesses(t);
  }

  lemma SampleHasProcesses(t: Technique)
    requires t.id == "T1055" && t.platforms == ["Windows"]
    ensures CommonProcesses(t) != []
  {
    WindowsOnly(t.platforms);
    assert BaseId(t.id) == "T1055" by {
      assert '.' !in t.id;
    }
    assert "T1055" in WindowsProcesses;
  }

  // ---------------------------------------------------------------------
  // Log source, level, false positives, tags, rule id
  // ---------------------------------------------------------------------

  datatype LogSource = LogSource(product: string, category: string)

  /** The product: windows, then linux, then macos, else any. */
  function Product(platforms: seq<string>): (r: string)
    ensures r in {"windows", "linux", "macos", "any"}
    ensures r == "windows" <==> HasPlatformExactly(platforms, "windows")
    ensures r == "linux" <==> !HasPlatformExactly(platforms, "windows") && HasPlatformExactly(platforms, "linux")
    ensures r == "macos" <==> !HasPlatformExactly(platforms, "windows") && !HasPlatformExactly(platforms, "linux")
                              && HasPlatformExactly(platforms, "macos")
    ensures r == "any" <==> !HasPlatformExactly(platforms, "windows") && !HasPlatformExactly(platforms, "linux")
                            && !HasPlatformExactly(platforms, "macos")
  {
    if HasPlatformExactly(platforms, "windows") then "windows"
    else if HasPlatformExactly(platforms, "linux") then "linux"
    else if HasPlatformExactly(platforms, "macos") then "macos"
    else "any"
  }

  /** The category by technique prefix, before the non-Windows rewrite. */
  function PrefixCategory(id: string): (r: string)
    ensures r in {"process_creation", "registry_event", "authentication", "network_connection"}
    ensures r == "registry_event" <==> StartsWith(id, "T1547")
    ensures r == "authentication" <==> StartsWith(id, "T1078")
    ensures r == "network_connection" <==> StartsWith(id, "T1071")
    ensures r == "process_creation" <==> !StartsWith(id, "T1547") && !StartsWith(id, "T1078") && !StartsWith(id, "T1071")
  {
    if StartsWith(id, "T1055") then "process_creation"
    else if StartsWith(id, "T1059") then "process_creation"
    else if StartsWith(id, "T1547") then "registry_event"
    else if StartsWith(id, "T1078") then "authentication"
    else if StartsWith(id, "T1071") then "network_connection"
    else "process_creation"
  }

  /** `_determine_logsource`. */
  function DetermineLogSource(t: Technique): (r: LogSource)
    ensures r.product == Product(t.platforms)
    ensures r.category == "registry_event" ==> r.product == "windows"
    ensures r.category == "registry_event" <==> StartsWith(t.id, "T1547") && r.product == "windows"
    ensures r.category == "file_event" <==> StartsWith(t.id, "T1547") && r.product != "windows"
    ensures !StartsWith(t.id, "T1547") ==> r.category == PrefixCategory(t.id)
  {
    var product := Product(t.platforms);
    var category := PrefixCategory(t.id);
    LogSource(product, if category == "registry_event" && product != "windows" then "file_event" else category)
  }

  /** `_determine_level`. */
  function DetermineLevel(t: Technique): (r: string)
    ensures r in {"high", "medium", "low"}
    ensures r == "high" <==> StartsWith(t.id, "T1055")
    ensures r == "low" <==> StartsWith(t.id, "T1071")
  {
    if StartsWith(t.id, "T1055") then "high"
    else if StartsWith(t.id, "T1059") then "medium"
    else if StartsWith(t.id, "T1078") then "medium"
    else if StartsWith(t.id, "T1071") then "low"
    else "medium"
  }

  const AdministrativeActivity: string := "Legitimate administrative activity"

  /** `_generate_falsepositives`. */
  function GenerateFalsePositives(t: Technique): (r: seq<string>)
    ensures |r| == 1 || |r| == 3
    ensures r[0] == AdministrativeActivity
    ensures |r| == 3 <==> StartsWith(t.id, "T1059") || StartsWith(t.id, "T1055")
                          || StartsWith(t.id, "T1078") || StartsWith(t.id, "T1071")
    ensures StartsWith(t.id, "T1059") ==>
              r == [AdministrativeActivity, "Legitimate scripting activity", "System administration scripts"]
    ensures StartsWith(t.id, "T1055") ==>
              r == [AdministrativeActivity, "Legitimate software with DLL injection", "Antivirus software"]
    ensures StartsWith(t.id, "T1078") ==>
              r == [AdministrativeActivity, "Legitimate user activity", "Authorized administrative access"]
    ensures StartsWith(t.id, "T1071") ==>
              r == [AdministrativeActivity, "Legitimate network traffic", "Regular application communication"]
  {
    [AdministrativeActivity]
    + if StartsWith(t.id, "T1059") then ["Legitimate scripting activity", "System administration scripts"]
      else if StartsWith(t.id, "T1055") then ["Legitimate software with DLL injection", "Antivirus software"]
      else if StartsWith(t.id, "T1078") then ["Legitimate user activity", "Authorized administrative access"]
      else if StartsWith(t.id, "T1071") then ["Legitimate network traffic", "Regular application communication"]
      else []
  }

  /** `_generate_tags`. */
  function GenerateTags(t: Technique): (r: seq<string>)
    ensures |r| == |t.tactics| + |t.platforms| + 2
    ensures r[0] == "attack." + t.id
    ensures forall i :: 0 <= i < |t.tactics| ==> r[1 + i] == TacticTagPrefix + t.tactics[i]
    ensures forall j :: 0 <= j < |t.platforms| ==> r[1 + |t.tactics| + j] == "platform." + Lower(t.platforms[j])
    ensures r[|r| - 1] == "mitre.environment.agnostic"
  {
    ["attack." + t.id]
    + seq(|t.tactics|, i requires 0 <= i < |t.tactics| => TacticTagPrefix + t.tactics[i])
    + seq(|t.platforms|, j requires 0 <= j < |t.platforms| => "platform." + Lower(t.platforms[j]))
    + ["mitre.environment.agnostic"]
  }

  const TacticTagPrefix: string := "attack.tactic."

  /** The tactic a tag names, if it is a tactic tag. */
  function TagTactic(tag: string): (r: Option<string>)
    ensures r.Some? <==> StartsWith(tag, TacticTagPrefix)
    ensures r.Some? ==> TacticTagPrefix + r.value == tag
  {
    if StartsWith(tag, TacticTagPrefix) then
      assert tag == tag[..|TacticTagPrefix|] + tag[|TacticTagPrefix|..];
      Some(tag[|TacticTagPrefix|..])
    else None
  }

  /** Each tactic can be read back from its tag. */
  lemma TagsNameTactics(t: Technique)
    ensures forall i :: 0 <= i < |t.tactics| ==> TagTactic(GenerateTags(t)[1 + i]) == Some(t.tactics[i])
  {
    forall i | 0 <= i < |t.tactics|
      ensures TagTactic(GenerateTags(t)[1 + i]) == Some(t.tactics[i])
    {
      var tag := GenerateTags(t)[1 + i];
      assert tag == TacticTagPrefix + t.tactics[i];
      assert tag[..|TacticTagPrefix|] == TacticTagPrefix;
      assert tag[|TacticTagPrefix|..] == t.tactics[i];
    }
  }

  /** The rule id: "mitre_attack_" and the sanitised, lower-cased id. */
  function RuleId(t: Technique): (r: string)
    ensures StartsWith(r, "mitre_attack_")
    ensures '.' !in r
    ensures forall i :: 0 <= i < |r| ==> !('A' <= r[i] <= 'Z')
    ensures r[13..] == Lower(BaseConverter.SanitizeId(t.id))
  {
    var tail := Lower(ReplaceChar(t.id, '.', '_'));
    LowerIdempotent(ReplaceChar(t.id, '.', '_'));
    ReplaceCharRemoves(t.id, '.', '_');
    assert '.' !in tail by {
      forall i | 0 <= i < |tail|
        ensures tail[i] != '.'
      {
        assert ReplaceChar(t.id, '.', '_')[i] != '.';
      }
    }
    var r := "mitre_attack_" + tail;
    assert r[13..] == tail;
    r
  }

  /** The Sigma reference: the technique page, without the trailing slash the
      YARA and KQL references carry. */
  function References(t: Technique): (r: seq<string>)
    ensures |r| == 1 && r[0] + "/" == BaseConverter.Reference(t.id)
  {
    ["https://attack.mitre.org/techniques/" + ReplaceChar(t.id, '.', '/')]
  }
}

=== FILE: strings.dfy ===
/** The handful of Python `str` operations the converters rely on, over
    `string` (= `seq<char>`): `lower`, `startswith`, `in`, `replace` of one
    character, `split` on one character, `join`, `strip`, decimal rendering of
    an index, and the word tokens `re.findall(r'\b\w+\b', s)` returns. */
module Strings {

  /* ---------------- case ---------------- */

  /** ASCII lower-casing of one character (every marker the program tests is ASCII). */
  function LowerChar(c: char): char {
    if 'A' <= c <= 'Z' then (c as int + 32) as char else c
  }

  /** `s.lower()`, restricted to ASCII letters. */
  function Lower(s: string): (r: string)
    ensures |r| == |s|
    ensures forall i :: 0 <= i < |s| ==> r[i] == LowerChar(s[i])
  {
    seq(|s|, i requires 0 <= i < |s| => LowerChar(s[i]))
  }

  /** Lower-casing twice is lower-casing once, and a lower-cased string has no
      upper-case ASCII letter left. */
  lemma LowerIdempotent(s: string)
    ensures Lower(Lower(s)) == Lower(s)
    ensures forall i :: 0 <= i < |s| ==> !('A' <= Lower(s)[i] <= 'Z')
  {
  }

  /** Lower-casing works character by character, so it distributes over
      concatenation and keeps word and non-word characters apart. */
  lemma LowerAppend(a: string, b: string)
    ensures Lower(a + b) == Lower(a) + Lower(b)
    ensures forall i :: 0 <= i < |a| ==> (IsWordChar(Lower(a)[i]) <==> IsWordChar(a[i]))
  {
    assert forall i :: 0 <= i < |a + b| ==> Lower(a + b)[i] == (Lower(a) + Lower(b))[i];
  }

  /* ---------------- prefixes and substrings ---------------- */

  /** `s.startswith(p)`. */
  predicate StartsWith(s: string, p: string) {
    |p| <= |s| && s[..|p|] == p
  }

  /** `t` occurs in `s` starting at position `k`. */
  predicate ContainsAt(s: string, t: string, k: int) {
    0 <= k && k + |t| <= |s| && s[k..k + |t|] == t
  }

  /** Python's `t in s` for strings. */
  predicate Contains(s: string, t: string) {
    exists k | 0 <= k <= |s| - |t| :: ContainsAt(s, t, k)
  }

  /** A prefix is in particular a substring. */
  lemma StartsWithContains(s: string, p: string)
    requires StartsWith(s, p)
    ensures Contains(s, p)
  {
    assert ContainsAt(s, p, 0);
  }

  /** A string starts with `p` exactly when the prefix test succeeds on any
      extension of it that is at least as long as `p`. */
  lemma StartsWithAppend(s: string, t: string, p: string)
    requires |p| <= |s|
    ensures StartsWith(s + t, p) <==> StartsWith(s, p)
  {
    assert (s + t)[..|p|] == s[..|p|];
  }

  /** One differing position rules a prefix out. */
  lemma NotStartsWith(s: string, p: string, i: nat)
    requires i < |p| && i < |s| && s[i] != p[i]
    ensures !StartsWith(s, p)
  {
    if |p| <= |s| {
      assert s[..|p|][i] == s[i];
    }
  }

  /* ---------------- replace ---------------- */

  /** `s.replace(a, b)` for single characters `a` and `b`. */
  function ReplaceChar(s: string, a: char, b: char): (r: string)
    ensures |r| == |s|
    ensures forall i :: 0 <= i < |s| && s[i] != a ==> r[i] == s[i]
    ensures forall i :: 0 <= i < |s| && s[i] == a ==> r[i] == b
  {
    seq(|s|, i requires 0 <= i < |s| => if s[i] == a then b else s[i])
  }

  /** After replacing `a` by some other character no `a` is left, and the
      replacement is idempotent. */
  lemma ReplaceCharRemoves(s: string, a: char, b: char)
    requires a != b
    ensures a !in ReplaceChar(s, a, b)
    ensures ReplaceChar(ReplaceChar(s, a, b), a, b) == ReplaceChar(s, a, b)
  {
  }

  /** Replacing `a` by a character `b` the string did not contain is undone by
      replacing `b` back by `a`. */
  lemma ReplaceCharInverse(s: string, a: char, b: char)
    requires b !in s
    ensures ReplaceChar(ReplaceChar(s, a, b), b, a) == s
  {
    var r := ReplaceChar(ReplaceChar(s, a, b), b, a);
    assert forall i :: 0 <= i < |s| ==> s[i] != b;
    assert forall i :: 0 <= i < |s| ==> r[i] == s[i];
  }

  /* ---------------- split and join ---------------- */

  /** Position of the first `c` in `s`. */
  function IndexOf(s: string, c: char): (i: nat)
    requires c in s
    ensures i < |s| && s[i] == c && c !in s[..i]
  {
    if s[0] == c then 0
    else
      assert s == [s[0]] + s[1..];
      var j := IndexOf(s[1..], c);
      assert s[..j + 1] == [s[0]] + s[1..][..j];
      j + 1
  }

  /** `s.split(c)` for a one-character separator: the pieces between the
      occurrences of `c`, always at least one. */
  function Split(s: string, c: char): (r: seq<string>)
    ensures |r| >= 1
    ensures forall i :: 0 <= i < |r| ==> c !in r[i]
    ensures c !in s <==> |r| == 1
    decreases |s|
  {
    if c !in s then [s]
    else
      var i := IndexOf(s, c);
      [s[..i]] + Split(s[i + 1..], c)
  }

  /** `sep.join(xs)`. */
  function Join(xs: seq<string>, sep: string): string
    decreases |xs|
  {
    if |xs| == 0 then ""
    else if |xs| == 1 then xs[0]
    else xs[0] + sep + Join(xs[1..], sep)
  }

  /** Joining a list of two or more strings: the head, a separator, then
      the join of the rest. */
  lemma JoinCons(x: string, rest: seq<string>, sep: string)
    requires rest != []
    ensures Join([x] + rest, sep) == x + sep + Join(rest, sep)
  {
    assert ([x] + rest)[1..] == rest;
  }

  /** Joining two non-empty lists puts one separator between their joins. */
  lemma {:induction false} JoinAppend(a: seq<string>, b: seq<string>, sep: string)
    requires a != [] && b != []
    ensures Join(a + b, sep) == Join(a, sep) + sep + Join(b, sep)
    decreases |a|
  {
    assert (a + b)[0] == a[0];
    assert (a + b)[1..] == a[1..] + b;
    if |a| > 1 {
      JoinAppend(a[1..], b, sep);
    }
  }

  /** The first piece of a split is the text before the first separator, or
      the whole string when there is none. */
  lemma SplitFirst(s: string, c: char)
    ensures c in s ==> Split(s, c)[0] == s[..IndexOf(s, c)]
    ensures c !in s ==> Split(s, c)[0] == s
    ensures StartsWith(s, Split(s, c)[0])
  {
  }

  /** Joining the pieces of a split with the separator gives the string back. */
  lemma {:induction false} JoinSplit(s: string, c: char)
    ensures Join(Split(s, c), [c]) == s
    decreases |s|
  {
    if c in s {
      var i := IndexOf(s, c);
      var rest := Split(s[i + 1..], c);
      calc {
        Join(Split(s, c), [c]);
        { SplitCons(s, c); }
        Join([s[..i]] + rest, [c]);
        { JoinCons(s[..i], rest, [c]); }
        s[..i] + [c] + Join(rest, [c]);
        { JoinSplit(s[i + 1..], c); }
        s[..i] + [c] + s[i + 1..];
        { SplitAround(s, i); }
        s;
      }
    }
  }

  /** A string is its text before position `i`, the character there, and
      the text after it. */
  lemma SplitAround(s: string, i: nat)
    requires i < |s|
    ensures s == s[..i] + [s[i]] + s[i + 1..]
  {
  }

  /** In `a + [c] + b` with no `c` in `a`, the first `c` is the one after `a`. */
  lemma {:induction false} IndexOfAfter(a: string, c: char, b: string)
    requires c !in a
    ensures IndexOf(a + [c] + b, c) == |a|
    ensures (a + [c] + b)[..|a|] == a && (a + [c] + b)[|a| + 1..] == b
    decreases |a|
  {
    var s := a + [c] + b;
    if a != [] {
      IndexOfAfter(a[1..], c, b);
      assert s[0] == a[0];
      assert s[1..] == a[1..] + [c] + b;
    }
  }

  /** One step of `Split`: the piece before the first separator, then the
      split of the rest. */
  lemma SplitCons(s: string, c: char)
    requires c in s
    ensures Split(s, c) == [s[..IndexOf(s, c)]] + Split(s[IndexOf(s, c) + 1..], c)
  {
  }

  /** Splitting a join of separator-free pieces gives the pieces back. */
  lemma {:induction false} SplitJoin(xs: seq<string>, c: char)
    requires |xs| >= 1
    requires forall i :: 0 <= i < |xs| ==> c !in xs[i]
    ensures Split(Join(xs, [c]), c) == xs
    decreases |xs|
  {
    if |xs| > 1 {
      var tail := Join(xs[1..], [c]);
      var j := xs[0] + [c] + tail;
      assert Join(xs, [c]) == j;
      SplitJoin(xs[1..], c);
      IndexOfAfter(xs[0], c, tail);
      assert j[|xs[0]|] == c;
      SplitCons(j, c);
      assert xs == [xs[0]] + xs[1..];
    }
  }

  /** A substring of the tail is a substring of the whole. */
  lemma ContainsInHead(a: string, b: string, t: string)
    requires Contains(a, t)
    ensures Contains(a + b, t)
  {
    var k :| 0 <= k <= |a| - |t| && ContainsAt(a, t, k);
    assert (a + b)[k..k + |t|] == a[k..k + |t|];
    assert ContainsAt(a + b, t, k);
  }

  /** Every string contains itself. */
  lemma ContainsSelf(s: string)
    ensures Contains(s, s)
  {
    assert ContainsAt(s, s, 0);
  }

  lemma ContainsInTail(a: string, b: string, t: string)
    requires Contains(b, t)
    ensures Contains(a + b, t)
  {
    var k :| 0 <= k <= |b| - |t| && ContainsAt(b, t, k);
    assert (a + b)[|a| + k..|a| + k + |t|] == b[k..k + |t|];
    assert ContainsAt(a + b, t, |a| + k);
  }

  /** Every piece of a join occurs in it. */
  lemma {:induction false} JoinContains(xs: seq<string>, sep: string, i: nat)
    requires i < |xs|
    ensures Contains(Join(xs, sep), xs[i])
    decreases |xs|
  {
    if |xs| == 1 || i == 0 {
      var j := Join(xs, sep);
      assert |xs| > 1 ==> j == xs[0] + (sep + Join(xs[1..], sep));
      assert j[0..|xs[0]|] == xs[0];
      assert ContainsAt(j, xs[0], 0);
    } else {
      JoinContains(xs[1..], sep, i - 1);
      assert Join(xs, sep) == (xs[0] + sep) + Join(xs[1..], sep);
      ContainsInTail(xs[0] + sep, Join(xs[1..], sep), xs[i]);
    }
  }

  /* ---------------- strip ---------------- */

  /** Python's `str.isspace()` for one character. */
  predicate IsSpace(c: char) {
    || c == ' '
    || ('\t' <= c <= '\r')
    || (0x1C <= c as int <= 0x1F)
    || c as int == 0x85 || c as int == 0xA0 || c as int == 0x1680
    || (0x2000 <= c as int <= 0x200A)
    || c as int == 0x2028 || c as int == 0x2029 || c as int == 0x202F
    || c as int == 0x205F || c as int == 0x3000
  }

  /** The characters a strip call removes: Python's whitespace (no argument)
      or the characters of an explicit argument. */
  datatype CharSet = Whitespace | Chars(chars: seq<char>)

  predicate Drops(drop: CharSet, c: char) {
    match drop
    case Whitespace => IsSpace(c)
    case Chars(cs) => c in cs
  }

  /** `s.lstrip(chars)`: drop the leading characters in `drop`. */
  function TrimStart(s: string, drop: CharSet): (r: string)
    ensures |r| <= |s|
    decreases |s|
  {
    if s != [] && Drops(drop, s[0]) then TrimStart(s[1..], drop) else s
  }

  /** What `lstrip` removes is a run of dropped characters, and what it keeps
      is the rest of the string, starting with a kept character. */
  lemma {:induction false} TrimStartSpec(s: string, drop: CharSet)
    ensures TrimStart(s, drop) == s[|s| - |TrimStart(s, drop)|..]
    ensures TrimStart(s, drop) == [] || !Drops(drop, TrimStart(s, drop)[0])
    ensures forall k :: 0 <= k < |s| - |TrimStart(s, drop)| ==> Drops(drop, s[k])
    decreases |s|
  {
    if s != [] && Drops(drop, s[0]) {
      TrimStartSpec(s[1..], drop);
    }
  }

  /** `s.rstrip(chars)`: drop the trailing characters in `drop`. */
  function TrimEnd(s: string, drop: CharSet): (r: string)
    ensures |r| <= |s|
    decreases |s|
  {
    if s != [] && Drops(drop, s[|s| - 1]) then TrimEnd(s[..|s| - 1], drop) else s
  }

  /** What `rstrip` removes is a run of dropped characters, and what it keeps
      is a prefix ending with a kept character. */
  lemma {:induction false} TrimEndSpec(s: string, drop: CharSet)
    ensures TrimEnd(s, drop) == s[..|TrimEnd(s, drop)|]
    ensures TrimEnd(s, drop) == [] || !Drops(drop, TrimEnd(s, drop)[|TrimEnd(s, drop)| - 1])
    ensures forall k :: |TrimEnd(s, drop)| <= k < |s| ==> Drops(drop, s[k])
    decreases |s|
  {
    if s != [] && Drops(drop, s[|s| - 1]) {
      TrimEndSpec(s[..|s| - 1], drop);
    }
  }

  /** `s.strip(chars)`. */
  function StripBy(s: string, drop: CharSet): (r: string)
    ensures |r| <= |s|
  {
    TrimEnd(TrimStart(s, drop), drop)
  }

  /** `s.strip()`. */
  function Strip(s: string): string {
    StripBy(s, Whitespace)
  }

  /** A stripped string neither starts nor ends with a character in `drop`. */
  lemma StripByEnds(s: string, drop: CharSet)
    ensures StripBy(s, drop) == [] || (!Drops(drop, StripBy(s, drop)[0]) && !Drops(drop, StripBy(s, drop)[|StripBy(s, drop)| - 1]))
  {
    var t := TrimStart(s, drop);
    TrimStartSpec(s, drop);
    TrimEndSpec(t, drop);
  }

  /** Stripping leaves nothing exactly when every character would be stripped. */
  lemma StripEmptyIff(s: string, drop: CharSet)
    ensures StripBy(s, drop) == [] <==> forall k :: 0 <= k < |s| ==> Drops(drop, s[k])
  {
    var t := TrimStart(s, drop);
    TrimStartSpec(s, drop);
    var n := |s| - |t|;
    assert forall k :: n <= k < |s| ==> s[k] == t[k - n];
    TrimEndSpec(t, drop);
  }

  /** Stripping is idempotent. */
  lemma StripByIdempotent(s: string, drop: CharSet)
    ensures StripBy(StripBy(s, drop), drop) == StripBy(s, drop)
  {
    var r := StripBy(s, drop);
    StripByEnds(s, drop);
    assert TrimStart(r, drop) == r;
    assert TrimEnd(r, drop) == r;
  }

  /* ---------------- decimal indices ---------------- */

  predicate IsDigit(c: char) {
    '0' <= c <= '9'
  }

  function DigitChar(d: nat): (c: char)
    requires d < 10
    ensures IsDigit(c)
  {
    ('0' as int + d) as char
  }

  /** `str(n)` for a natural number: its decimal digits, no leading zero. */
  function NatToString(n: nat): (r: string)
    ensures |r| >= 1
    ensures forall i :: 0 <= i < |r| ==> IsDigit(r[i])
    ensures n == 0 <==> r == "0"
    ensures |r| > 1 ==> r[0] != '0'
    decreases n
  {
    if n < 10 then [DigitChar(n)]
    else
      var head := NatToString(n / 10);
      assert head[0] != '0';
      head + [DigitChar(n % 10)]
  }

  /** `int(s)` for a string of decimal digits. */
  function DigitsValue(s: string): nat
    requires forall i :: 0 <= i < |s| ==> IsDigit(s[i])
    decreases |s|
  {
    if s == [] then 0
    else
      assert IsDigit(s[|s| - 1]);
      DigitsValue(s[..|s| - 1]) * 10 + (s[|s| - 1] as int - '0' as int)
  }

  /** Reading back the decimal rendering of `n` gives `n`. */
  lemma {:induction false} NatToStringRoundTrip(n: nat)
    ensures DigitsValue(NatToString(n)) == n
    decreases n
  {
    var s := NatToString(n);
    if n >= 10 {
      NatToStringRoundTrip(n / 10);
      assert s[..|s| - 1] == NatToString(n / 10);
    }
  }

  /** Distinct numbers render to distinct strings. */
  lemma NatToStringInjective(a: nat, b: nat)
    requires NatToString(a) == NatToString(b)
    ensures a == b
  {
    NatToStringRoundTrip(a);
    NatToStringRoundTrip(b);
  }

  /* ---------------- word tokens ---------------- */

  /** Python's `\w`, restricted to ASCII: letters, digits and underscore. */
  predicate IsWordChar(c: char) {
    ('a' <= c <= 'z') || ('A' <= c <= 'Z') || IsDigit(c) || c == '_'
  }

  /** Length of the longest prefix of `s` made of word characters. */
  function WordRunLength(s: string): (n: nat)
    ensures n <= |s|
    ensures forall k :: 0 <= k < n ==> IsWordChar(s[k])
    ensures n == |s| || !IsWordChar(s[n])
    decreases |s|
  {
    if s != [] && IsWordChar(s[0]) then 1 + WordRunLength(s[1..]) else 0
  }

  /** `s` without its leading run of non-word characters. */
  function SkipNonWord(s: string): (r: string)
    ensures |r| <= |s| && r == s[|s| - |r|..]
    ensures r == [] || IsWordChar(r[0])
    ensures forall k :: 0 <= k < |s| - |r| ==> !IsWordChar(s[k])
    decreases |s|
  {
    if s == [] || IsWordChar(s[0]) then s
    else
      var r := SkipNonWord(s[1..]);
      assert forall k :: 1 <= k < |s| ==> s[k] == s[1..][k - 1];
      r
  }

  /** The word characters of `s`, in order. */
  function WordChars(s: string): string
    decreases |s|
  {
    if s == [] then []
    else (if IsWordChar(s[0]) then [s[0]] else []) + WordChars(s[1..])
  }

  /** Concatenation of a sequence of strings. */
  function Concat(xs: seq<string>): string
    decreases |xs|
  {
    if xs == [] then [] else xs[0] + Concat(xs[1..])
  }

  /** `re.findall(r'\b\w+\b', s)`: the maximal runs of word characters of
      `s`, in order. */
  function WordTokens(s: string): (r: seq<string>)
    ensures |r| <= |s|
    decreases |s|
  {
    var t := SkipNonWord(s);
    if t == [] then []
    else
      var n := WordRunLength(t);
      [t[..n]] + WordTokens(t[n..])
  }

  /** A leading non-word character separates nothing and is skipped. */
  lemma WordTokensNonWordHead(c: char, s: string)
    requires !IsWordChar(c)
    ensures WordTokens([c] + s) == WordTokens(s)
  {
    SkipNonWordCons(c, s);
    WordTokensBySkip([c] + s);
    WordTokensBySkip(s);
  }

  lemma SkipNonWordCons(c: char, s: string)
    requires !IsWordChar(c)
    ensures SkipNonWord([c] + s) == SkipNonWord(s)
  {
    var t := [c] + s;
    assert t[0] == c && t[1..] == s;
    assert SkipNonWord(t) == SkipNonWord(t[1..]);
  }

  /** `WordTokens` looks only at the text after the leading non-word run. */
  lemma WordTokensBySkip(s: string)
    ensures WordTokens(s) == TokensFrom(SkipNonWord(s))
  {
  }

  /** The tokens of a text that starts at a word character (or is empty). */
  function TokensFrom(t: string): seq<string>
    decreases |t| + 1
  {
    if t == [] then []
    else
      var n := WordRunLength(t);
      if n == 0 then [] else [t[..n]] + WordTokens(t[n..])
  }

  /** A word-character run `w` followed by the end or by a non-word character
      is one whole token: `\b\w+\b` matches maximal runs only. */
  lemma WordTokensRunHead(w: string, rest: string)
    requires w != [] && forall k :: 0 <= k < |w| ==> IsWordChar(w[k])
    requires rest == [] || !IsWordChar(rest[0])
    ensures WordTokens(w + rest) == [w] + WordTokens(rest)
  {
    var t := w + rest;
    assert IsWordChar(t[0]);
    assert SkipNonWord(t) == t;
    WordRunLengthRun(w, rest);
    assert t[..|w|] == w && t[|w|..] == rest;
  }

  /** `WordTokensRunHead` after lower-casing, which keeps word characters
      apart from the others: the lower-cased run is the first token. */
  lemma LowerWordTokensRunHead(w: string, rest: string)
    requires w != [] && forall k :: 0 <= k < |w| ==> IsWordChar(w[k])
    requires rest == [] || !IsWordChar(rest[0])
    ensures WordTokens(Lower(w + rest)) == [Lower(w)] + WordTokens(Lower(rest))
  {
    var lw, lr := Lower(w), Lower(rest);
    assert Lower(w + rest) == lw + lr by { LowerAppend(w, rest); }
    assert lw != [] && forall k :: 0 <= k < |lw| ==> IsWordChar(lw[k]) by { LowerAppend(w, rest); }
    assert lr == [] || !IsWordChar(lr[0]) by { LowerAppend(rest, []); }
    WordTokensRunHead(lw, lr);
  }

  /** The leading run of `w + rest` is exactly `w`. */
  lemma {:induction false} WordRunLengthRun(w: string, rest: string)
    requires forall k :: 0 <= k < |w| ==> IsWordChar(w[k])
    requires rest == [] || !IsWordChar(rest[0])
    ensures WordRunLength(w + rest) == |w|
    decreases |w|
  {
    if w == [] {
      assert w + rest == rest;
    } else {
      assert (w + rest)[1..] == w[1..] + rest;
      WordRunLengthRun(w[1..], rest);
    }
  }

  /** Every token is a non-empty run of word characters. */
  lemma {:induction false} WordTokensAreWords(s: string)
    ensures forall i :: 0 <= i < |WordTokens(s)| ==> IsWord(WordTokens(s)[i])
    decreases |s|
  {
    var t := SkipNonWord(s);
    if t != [] {
      var n := WordRunLength(t);
      var w := t[..n];
      assert IsWord(w);
      var rest := WordTokens(t[n..]);
      WordTokensAreWords(t[n..]);
      assert WordTokens(s) == [w] + rest;
      WordsCons(w, rest);
    }
  }

  lemma WordsCons(w: string, rest: seq<string>)
    requires IsWord(w) && forall i :: 0 <= i < |rest| ==> IsWord(rest[i])
    ensures forall i :: 0 <= i < |[w] + rest| ==> IsWord(([w] + rest)[i])
  {
  }

  /** A non-empty run of word characters. */
  predicate IsWord(w: string) {
    w != [] && forall k :: 0 <= k < |w| ==> IsWordChar(w[k])
  }

  lemma {:induction false} WordCharsAppend(a: string, b: string)
    ensures WordChars(a + b) == WordChars(a) + WordChars(b)
    decreases |a|
  {
    if a == [] {
      assert a + b == b;
    } else {
      WordCharsAppend(a[1..], b);
      var head := if IsWordChar(a[0]) then [a[0]] else [];
      assert (a + b)[0] == a[0];
      assert (a + b)[1..] == a[1..] + b;
      assert WordChars(a + b) == head + WordChars(a[1..] + b);
      assert WordChars(a) == head + WordChars(a[1..]);
    }
  }

  lemma {:induction false} WordCharsAll(s: string)
    ensures (forall k :: 0 <= k < |s| ==> IsWordChar(s[k])) ==> WordChars(s) == s
    ensures (forall k :: 0 <= k < |s| ==> !IsWordChar(s[k])) ==> WordChars(s) == []
    decreases |s|
  {
    if s != [] {
      WordCharsAll(s[1..]);
    }
  }

  /** Skipping the leading non-word characters loses no word character. */
  lemma WordCharsSkip(s: string)
    ensures WordChars(s) == WordChars(SkipNonWord(s))
  {
    var t := SkipNonWord(s);
    var skipped := s[..|s| - |t|];
    assert s == skipped + t;
    WordCharsAppend(skipped, t);
    assert WordChars(skipped) == [] by {
      assert forall k :: 0 <= k < |skipped| ==> !IsWordChar(skipped[k]);
      WordCharsAll(skipped);
    }
  }

  /** The word characters of a string that starts with a run of them are the
      run, then the word characters of the rest. */
  lemma WordCharsRun(t: string)
    ensures WordChars(t) == t[..WordRunLength(t)] + WordChars(t[WordRunLength(t)..])
  {
    var n := WordRunLength(t);
    assert t == t[..n] + t[n..];
    WordCharsAppend(t[..n], t[n..]);
    WordCharsAll(t[..n]);
  }

  /** The tokens, laid end to end, are exactly the word characters of the
      input: no word character is lost and nothing else gets in. */
  lemma {:induction false} WordTokensCover(s: string)
    ensures Concat(WordTokens(s)) == WordChars(s)
    decreases |s|
  {
    var t := SkipNonWord(s);
    WordCharsSkip(s);
    if t != [] {
      var n := WordRunLength(t);
      var rest := WordTokens(t[n..]);
      WordTokensCover(t[n..]);
      WordCharsRun(t);
      assert WordTokens(s) == [t[..n]] + rest;
      assert Concat([t[..n]] + rest) == t[..n] + Concat(rest) by {
        assert ([t[..n]] + rest)[1..] == rest;
      }
    }
  }
}

=== FILE: technique.dfy ===
/** The `Technique` record and the indicators derived from it: detection
    patterns, platform applicability, and the static tables of processes,
    files, registry keys, network cues and environment-agnostic cues, keyed by
    technique-id prefix and platform name. */
module Techniques {
  import opened Strings
  import opened Seqs

  /** One ATT&CK technique or sub-technique. */
  datatype Technique = Technique(
    id: string,
    name: string,
    description: string,
    tactics: seq<string>,
    platforms: seq<string>,
    dataSources: seq<string>,
    detection: string,
    relatedTechniques: seq<string>,
    isSubtechnique: bool)

  /* ---------------- detection patterns ---------------- */

  /** The characters `strip('- *')` removes. */
  const Bullets: CharSet := Chars("- *")

  /** `part.strip('- *').strip()`. */
  function CleanLine(part: string): string {
    Strip(StripBy(part, Bullets))
  }

  /** The entries the lines of the `detection` text contribute: each line that
      is not blank and is not only bullets contributes its cleaned form. */
  function DetectionLinePatterns(lines: seq<string>): (r: seq<string>)
    ensures |r| <= |lines|
    ensures forall i :: 0 <= i < |r| ==> r[i] != []
    decreases |lines|
  {
    if lines == [] then []
    else
      var part := lines[0];
      var rest := DetectionLinePatterns(lines[1..]);
      if Strip(part) == [] then rest
      else if CleanLine(part) != [] then [CleanLine(part)] + rest
      else rest
  }

  /** Reference reading of the detection lines: clean every line, keep the
      non-empty results. */
  function CleanedLines(lines: seq<string>): (r: seq<string>)
    ensures |r| == |lines|
  {
    seq(|lines|, i requires 0 <= i < |lines| => CleanLine(lines[i]))
  }

  /** A blank line cleans to nothing, so the source's separate blank-line test
      never changes the outcome. */
  lemma BlankLineCleansEmpty(part: string)
    requires Strip(part) == []
    ensures CleanLine(part) == []
  {
    StripEmptyIff(part, Whitespace);
    var t := TrimStart(part, Bullets);
    var x := TrimEnd(t, Bullets);
    TrimStartSpec(part, Bullets);
    TrimEndSpec(t, Bullets);
    var n := |part| - |t|;
    assert forall k :: 0 <= k < |t| ==> t[k] == part[n + k];
    assert forall k :: 0 <= k < |x| ==> x[k] == t[k];
    StripEmptyIff(x, Whitespace);
  }

  /** The string has at least one character. */
  predicate NonEmpty(s: string) {
    s != []
  }

  /** One line's step of `DetectionLinePatterns`, with the blank-line test
      folded into the emptiness test of the cleaned line. */
  lemma DetectionLineStep(lines: seq<string>)
    requires lines != []
    ensures DetectionLinePatterns(lines)
         == (if NonEmpty(CleanLine(lines[0])) then [CleanLine(lines[0])] else []) + DetectionLinePatterns(lines[1..])
  {
    if Strip(lines[0]) == [] {
      BlankLineCleansEmpty(lines[0]);
    }
  }

  /** The detection-line entries are exactly the non-empty cleaned lines, in
      line order. */
  lemma {:induction false} DetectionLinePatternsSpec(lines: seq<string>)
    ensures DetectionLinePatterns(lines) == Filter(CleanedLines(lines), NonEmpty)
    decreases |lines|
  {
    if lines != [] {
      DetectionLinePatternsSpec(lines[1..]);
      DetectionLineStep(lines);
      var cleaned := CleanedLines(lines);
      assert cleaned[0] == CleanLine(lines[0]);
      assert cleaned[1..] == CleanedLines(lines[1..]);
      FilterCons(cleaned, NonEmpty);
    }
  }

  /** The phrases whose presence in a lower-cased description line marks it as
      describing detection. */
  const DetectionKeywords: seq<string> := ["monitor", "detect", "look for", "observe", "identify"]

  predicate MentionsDetection(line: string) {
    exists i | 0 <= i < |DetectionKeywords| :: Contains(Lower(line), DetectionKeywords[i])
  }

  /** The entries the description lines contribute: a line mentioning a
      keyword contributes its stripped form once, however many keywords it
      mentions. */
  function DescriptionPatterns(lines: seq<string>): (r: seq<string>)
    ensures |r| <= |lines|
    decreases |lines|
  {
    if lines == [] then []
    else
      var rest := DescriptionPatterns(lines[1..]);
      if MentionsDetection(lines[0]) then [Strip(lines[0])] + rest else rest
  }

  /** The description entries are the stripped keyword lines, in line order,
      one per line. */
  lemma {:induction false} DescriptionPatternsSpec(lines: seq<string>)
    ensures DescriptionPatterns(lines) == StripEach(Filter(lines, MentionsDetection))
    decreases |lines|
  {
    if lines != [] {
      DescriptionPatternsSpec(lines[1..]);
      var head := if MentionsDetection(lines[0]) then [lines[0]] else [];
      FilterCons(lines, MentionsDetection);
      StripEachAppend(head, Filter(lines[1..], MentionsDetection));
      assert StripEach(head) == if MentionsDetection(lines[0]) then [Strip(lines[0])] else [];
    }
  }

  /** Every line stripped, in order. */
  function StripEach(lines: seq<string>): (r: seq<string>)
    ensures |r| == |lines|
    ensures forall i :: 0 <= i < |lines| ==> r[i] == Strip(lines[i])
  {
    seq(|lines|, i requires 0 <= i < |lines| => Strip(lines[i]))
  }

  lemma StripEachAppend(a: seq<string>, b: seq<string>)
    ensures StripEach(a + b) == StripEach(a) + StripEach(b)
  {
  }

  /** One "Data Source: ..." entry per data source, in order. */
  function DataSourcePatterns(sources: seq<string>): (r: seq<string>)
    ensures |r| == |sources|
    ensures forall i :: 0 <= i < |r| ==> r[i] == "Data Source: " + sources[i]
  {
    seq(|sources|, i requires 0 <= i < |sources| => "Data Source: " + sources[i])
  }

  /** `Technique.get_detection_patterns`: detection-line entries, then
      description entries, then data-source entries. */
  function DetectionPatterns(t: Technique): (r: seq<string>)
    ensures |t.dataSources| <= |r|
    ensures r[|r| - |t.dataSources|..] == DataSourcePatterns(t.dataSources)
    ensures t.detection == [] ==> r == DescriptionPatterns(Split(t.description, '\n')) + DataSourcePatterns(t.dataSources)
    ensures var detectionLines := Split(t.detection, '\n');
            r == (if t.detection != [] then Filter(CleanedLines(detectionLines), NonEmpty) else [])
                 + StripEach(Filter(Split(t.description, '\n'), MentionsDetection))
                 + DataSourcePatterns(t.dataSources)
  {
    DetectionLinePatternsSpec(Split(t.detection, '\n'));
    DescriptionPatternsSpec(Split(t.description, '\n'));
    var fromDetection := if t.detection != [] then DetectionLinePatterns(Split(t.detection, '\n')) else [];
    var fromDescription := DescriptionPatterns(Split(t.description, '\n'));
    var fromText := fromDetection + fromDescription;
    assert t.detection == [] ==> fromText == fromDescription;
    var fromSources := DataSourcePatterns(t.dataSources);
    assert (fromText + fromSources)[|fromText|..] == fromSources;
    fromText + fromSources
  }

  /* ---------------- platform applicability ---------------- */

  /** Some platform entry, lower-cased, equals `name`. */
  predicate HasPlatformExactly(platforms: seq<string>, name: string) {
    exists i | 0 <= i < |platforms| :: Lower(platforms[i]) == name
  }

  /** Some platform entry, lower-cased, is one of `names`. */
  predicate HasPlatformIn(platforms: seq<string>, names: seq<string>) {
    exists i | 0 <= i < |platforms| :: Lower(platforms[i]) in names
  }

  /** `Technique.is_applicable_to_platform`: applicable to everything when no
      platform is listed; otherwise the query, lower-cased, must equal or
      contain some listed platform, lower-cased. */
  function IsApplicableToPlatform(t: Technique, platform: string): (r: bool)
    ensures r <==> |t.platforms| == 0 ||
                   exists i | 0 <= i < |t.platforms| :: Contains(Lower(platform), Lower(t.platforms[i]))
  {
    var query := Lower(platform);
    if |t.platforms| == 0 then true
    else if HasPlatformExactly(t.platforms, query) then
      var i :| 0 <= i < |t.platforms| && Lower(t.platforms[i]) == query;
      ContainsSelf(query);
      true
    else exists i | 0 <= i < |t.platforms| :: Contains(query, Lower(t.platforms[i]))
  }

  /* ---------------- processes ---------------- */

  /** `id.split('.')[0]`: the parent technique id. */
  function BaseId(id: string): (b: string)
    ensures '.' !in b && StartsWith(id, b)
    ensures '.' !in id ==> b == id
  {
    SplitFirst(id, '.');
    Split(id, '.')[0]
  }

  const WindowsPlatformNames: seq<string> := ["windows", "win"]
  const UnixProcessPlatformNames: seq<string> := ["linux", "macos", "mac os"]

  const WindowsProcesses: map<string, seq<string>> := map[
    "T1055" := ["explorer.exe", "lsass.exe", "services.exe", "svchost.exe"],
    "T1059" := ["cmd.exe", "powershell.exe", "wscript.exe", "cscript.exe"],
    "T1053" := ["schtasks.exe", "at.exe"],
    "T1218" := ["regsvr32.exe", "rundll32.exe", "msiexec.exe"]
  ]

  const UnixProcesses: map<string, seq<string>> := map[
    "T1059" := ["bash", "sh", "python", "perl", "ruby"],
    "T1053" := ["cron", "at"],
    "T1543" := ["systemctl", "launchctl", "service"]
  ]

  /** The table entry for `key`, or nothing. */
  function Lookup(table: map<string, seq<string>>, key: string): seq<string> {
    if key in table then table[key] else []
  }

  /** The Windows processes for `t`: its base id's Windows entry, when some
      platform is Windows-like. */
  function WindowsProcessesFor(t: Technique): seq<string> {
    if HasPlatformIn(t.platforms, WindowsPlatformNames) then Lookup(WindowsProcesses, BaseId(t.id)) else []
  }

  /** The Unix processes for `t`: its base id's Unix entry, when some platform
      is Linux or macOS. */
  function UnixProcessesFor(t: Technique): seq<string> {
    if HasPlatformIn(t.platforms, UnixProcessPlatformNames) then Lookup(UnixProcesses, BaseId(t.id)) else []
  }

  /** `Technique.get_common_processes`. */
  function CommonProcesses(t: Technique): (r: seq<string>)
    ensures (!HasPlatformIn(t.platforms, WindowsPlatformNames) && !HasPlatformIn(t.platforms, UnixProcessPlatformNames))
              ==> r == []
    ensures forall x :: x in r <==> x in WindowsProcessesFor(t) || x in UnixProcessesFor(t)
    ensures (HasPlatformIn(t.platforms, WindowsPlatformNames) && !HasPlatformIn(t.platforms, UnixProcessPlatformNames))
              ==> r == Lookup(WindowsProcesses, BaseId(t.id))
    ensures (!HasPlatformIn(t.platforms, WindowsPlatformNames) && HasPlatformIn(t.platforms, UnixProcessPlatformNames))
              ==> r == Lookup(UnixProcesses, BaseId(t.id))
    ensures (HasPlatformIn(t.platforms, WindowsPlatformNames) && HasPlatformIn(t.platforms, UnixProcessPlatformNames))
              ==> r == Lookup(WindowsProcesses, BaseId(t.id)) + Lookup(UnixProcesses, BaseId(t.id))
  {
    WindowsProcessesFor(t) + UnixProcessesFor(t)
  }

  /** The name has a four-character extension such as ".exe". */
  predicate HasExtension(p: string) {
    |p| >= 4 && p[|p| - 4] == '.'
  }

  /** Every Windows table entry carries the ".exe" extension. */
  lemma WindowsProcessesHaveExtension(b: string)
    ensures forall i :: 0 <= i < |Lookup(WindowsProcesses, b)| ==> HasExtension(Lookup(WindowsProcesses, b)[i])
  {
    if b == "T1055" {
      assert Lookup(WindowsProcesses, b) == ["explorer.exe", "lsass.exe", "services.exe", "svchost.exe"];
    } else if b == "T1059" {
      assert Lookup(WindowsProcesses, b) == ["cmd.exe", "powershell.exe", "wscript.exe", "cscript.exe"];
    } else if b == "T1053" {
      assert Lookup(WindowsProcesses, b) == ["schtasks.exe", "at.exe"];
    } else if b == "T1218" {
      assert Lookup(WindowsProcesses, b) == ["regsvr32.exe", "rundll32.exe", "msiexec.exe"];
    } else {
      assert Lookup(WindowsProcesses, b) == [];
    }
  }

  /** No Unix table entry has an extension. */
  lemma UnixProcessesLackExtension(b: string)
    ensures forall i :: 0 <= i < |Lookup(UnixProcesses, b)| ==> !HasExtension(Lookup(UnixProcesses, b)[i])
  {
    if b == "T1059" {
      assert Lookup(UnixProcesses, b) == ["bash", "sh", "python", "perl", "ruby"];
    } else if b == "T1053" {
      assert Lookup(UnixProcesses, b) == ["cron", "at"];
    } else if b == "T1543" {
      assert Lookup(UnixProcesses, b) == ["systemctl", "launchctl", "service"];
    } else {
      assert Lookup(UnixProcesses, b) == [];
    }
  }

  /** Every Windows process precedes every Unix process in the result: once an
      entry without an extension (a Unix name) appears, no ".exe" follows. */
  lemma CommonProcessesWindowsFirst(t: Technique)
    ensures forall i, j :: 0 <= i < j < |CommonProcesses(t)| && HasExtension(CommonProcesses(t)[j])
              ==> HasExtension(CommonProcesses(t)[i])
  {
    WindowsProcessesHaveExtension(BaseId(t.id));
    UnixProcessesLackExtension(BaseId(t.id));
  }

  /** `T1059.001` on Windows yields the four interpreter binaries. */
  lemma CommonProcessesSubtechniqueExample()
    ensures CommonProcesses(Technique("T1059.001", "", "", [], ["Windows"], [], "", [], true))
            == ["cmd.exe", "powershell.exe", "wscript.exe", "cscript.exe"]
  {
    var t := Technique("T1059.001", "", "", [], ["Windows"], [], "", [], true);
    assert BaseId(t.id) == "T1059" by {
      BaseIdOfSubId("T1059", "001");
      assert "T1059" + ['.'] + "001" == t.id;
    }
    InterpreterProcessesOnWindows(t);
  }

  /** Any technique under `T1059` whose only platform is Windows gets the
      Windows interpreter binaries and no Unix ones. */
  lemma InterpreterProcessesOnWindows(t: Technique)
    requires BaseId(t.id) == "T1059" && t.platforms == ["Windows"]
    ensures CommonProcesses(t) == ["cmd.exe", "powershell.exe", "wscript.exe", "cscript.exe"]
  {
    WindowsOnly(t.platforms);
    assert Lookup(WindowsProcesses, "T1059") == ["cmd.exe", "powershell.exe", "wscript.exe", "cscript.exe"];
    assert UnixProcessesFor(t) == [];
    assert CommonProcesses(t) == WindowsProcessesFor(t) + [];
  }

  /** The base id of `p.s` is `p` when `p` has no dot. */
  lemma BaseIdOfSubId(p: string, s: string)
    requires '.' !in p
    ensures BaseId(p + ['.'] + s) == p
  {
    IndexOfAfter(p, '.', s);
  }

  /** The platform list ["Windows"] is Windows-like and neither Linux nor macOS. */
  lemma WindowsOnly(platforms: seq<string>)
    requires platforms == ["Windows"]
    ensures HasPlatformIn(platforms, WindowsPlatformNames)
    ensures HasPlatformExactly(platforms, "windows")
    ensures !HasPlatformIn(platforms, UnixProcessPlatformNames)
    ensures !HasPlatformIn(platforms, UnixFilePlatformNames)
  {
    assert Lower("Windows") == "windows";
    assert Lower(platforms[0]) in WindowsPlatformNames;
  }

  /* ---------------- files ---------------- */

  const UnixFilePlatformNames: seq<string> := ["linux", "macos"]

  const WindowsAutostartFiles: seq<string> := [
    "C:\\Windows\\System32\\Tasks\\*",
    "C:\\ProgramData\\Microsoft\\Windows\\Start Menu\\Programs\\Startup\\*",
    "HKLM\\Software\\Microsoft\\Windows\\CurrentVersion\\Run\\*",
    "HKCU\\Software\\Microsoft\\Windows\\CurrentVersion\\Run\\*"
  ]

  const ScriptGlobs: seq<string> := ["*.ps1", "*.bat", "*.cmd", "*.vbs", "*.js"]

  const UnixAutostartFiles: seq<string> := [
    "/etc/init.d/*",
    "/etc/crontab",
    "/etc/cron.*/*",
    "/Library/LaunchAgents/*",
    "/Library/LaunchDaemons/*",
    "~/.bash_profile",
    "~/.bashrc"
  ]

  /** `Technique.get_common_files`: keyed by the full id's prefix; the Windows
      test is an exact "windows" (not "win"). */
  function CommonFiles(t: Technique): (r: seq<string>)
    ensures |r| <= 11
    ensures var win, unix := HasPlatformExactly(t.platforms, "windows"), HasPlatformIn(t.platforms, UnixFilePlatformNames);
            var autostart, script := StartsWith(t.id, "T1547"), StartsWith(t.id, "T1059");
            && (autostart && win && unix ==> r == WindowsAutostartFiles + UnixAutostartFiles)
            && (autostart && win && !unix ==> r == WindowsAutostartFiles)
            && (autostart && !win && unix ==> r == UnixAutostartFiles)
            && (!autostart && win && script ==> r == ScriptGlobs)
            && (r == [] <==> !(autostart && (win || unix)) && !(win && script))
  {
    var windows :=
      if !HasPlatformExactly(t.platforms, "windows") then []
      else if StartsWith(t.id, "T1547") then WindowsAutostartFiles
      else if StartsWith(t.id, "T1059") then ScriptGlobs
      else [];
    var unix :=
      if HasPlatformIn(t.platforms, UnixFilePlatformNames) && StartsWith(t.id, "T1547") then UnixAutostartFiles
      else [];
    windows + unix
  }

  /** Which platforms and ids give which files. */
  lemma CommonFilesSpec(t: Technique)
    ensures (!HasPlatformExactly(t.platforms, "windows") && !HasPlatformIn(t.platforms, UnixFilePlatformNames))
              ==> CommonFiles(t) == []
    ensures |CommonFiles(t)| in {0, 4, 5, 7, 11}
    ensures (HasPlatformExactly(t.platforms, "windows") && StartsWith(t.id, "T1547"))
              ==> |CommonFiles(t)| >= 4 && CommonFiles(t)[..4] == WindowsAutostartFiles
    ensures (HasPlatformIn(t.platforms, UnixFilePlatformNames) && StartsWith(t.id, "T1547"))
              ==> |CommonFiles(t)| >= 7 && CommonFiles(t)[|CommonFiles(t)| - 7..] == UnixAutostartFiles
    ensures !StartsWith(t.id, "T1547") ==>
              CommonFiles(t) == [] || (CommonFiles(t) == ScriptGlobs && HasPlatformExactly(t.platforms, "windows"))
  {
  }

  /* ---------------- registry keys ---------------- */

  const RunKeys: seq<string> := [
    "HKLM\\SOFTWARE\\Microsoft\\Windows\\CurrentVersion\\Run",
    "HKCU\\SOFTWARE\\Microsoft\\Windows\\CurrentVersion\\Run",
    "HKLM\\SOFTWARE\\Microsoft\\Windows\\CurrentVersion\\RunOnce",
    "HKCU\\SOFTWARE\\Microsoft\\Windows\\CurrentVersion\\RunOnce"
  ]

  const ModifyRegistryKeys: seq<string> := [
    "HKLM\\SYSTEM\\CurrentControlSet\\Services",
    "HKLM\\SOFTWARE\\Microsoft\\Windows NT\\CurrentVersion\\Image File Execution Options",
    "HKLM\\SOFTWARE\\Microsoft\\Windows NT\\CurrentVersion\\Winlogon\\Notify",
    "HKLM\\SOFTWARE\\Microsoft\\Windows NT\\CurrentVersion\\Winlogon\\Shell"
  ]

  /** `Technique.get_common_registry_keys`: Windows only. */
  function CommonRegistryKeys(t: Technique): (r: seq<string>)
    ensures r != [] ==> HasPlatformExactly(t.platforms, "windows")
  {
    if !HasPlatformExactly(t.platforms, "windows") then []
    else if StartsWith(t.id, "T1547") then RunKeys
    else if StartsWith(t.id, "T1112") then ModifyRegistryKeys
    else []
  }

  /** Which ids give which registry keys. */
  lemma CommonRegistryKeysSpec(t: Technique)
    ensures CommonRegistryKeys(t) != [] <==>
              HasPlatformExactly(t.platforms, "windows") && (StartsWith(t.id, "T1547") || StartsWith(t.id, "T1112"))
    ensures CommonRegistryKeys(t) == [] || CommonRegistryKeys(t) == RunKeys || CommonRegistryKeys(t) == ModifyRegistryKeys
    ensures CommonRegistryKeys(t) == RunKeys <==> HasPlatformExactly(t.platforms, "windows") && StartsWith(t.id, "T1547")
  {
  }

  /* ---------------- network and environment-agnostic cues ---------------- */

  const AppLayerProtocolCues: seq<string> := [
    "Unusual outbound connections to high ports",
    "DNS queries with high entropy or encoded data",
    "HTTP/HTTPS requests with suspicious user agents",
    "Beaconing patterns in network traffic"
  ]

  const NonAppLayerProtocolCues: seq<string> := [
    "Direct use of TCP/UDP sockets",
    "ICMP traffic with data",
    "Raw IP packets with unusual formats",
    "Non-standard protocol usage"
  ]

  const NonStandardPortCues: seq<string> := [
    "Common protocols on non-standard ports",
    "Web traffic on ports other than 80/443",
    "Database traffic on non-standard ports"
  ]

  const ProtocolTunnelingCues: seq<string> := [
    "DNS tunneling patterns",
    "HTTP/HTTPS tunneling over unexpected ports",
    "Unusual data patterns in standard protocols"
  ]

  /** `Technique.get_common_network_indicators`: the first matching id prefix
      decides; platforms play no part. */
  function NetworkIndicators(t: Technique): (r: seq<string>)
    ensures |r| <= 4
    ensures StartsWith(t.id, "T1071") ==> r == AppLayerProtocolCues
    ensures StartsWith(t.id, "T1095") ==> r == NonAppLayerProtocolCues
    ensures StartsWith(t.id, "T1571") ==> r == NonStandardPortCues
    ensures StartsWith(t.id, "T1572") ==> r == ProtocolTunnelingCues
    ensures (!StartsWith(t.id, "T1071") && !StartsWith(t.id, "T1095")
             && !StartsWith(t.id, "T1571") && !StartsWith(t.id, "T1572")) ==> r == []
  {
    if StartsWith(t.id, "T1071") then AppLayerProtocolCues
    else if StartsWith(t.id, "T1095") then NonAppLayerProtocolCues
    else if StartsWith(t.id, "T1571") then NonStandardPortCues
    else if StartsWith(t.id, "T1572") then ProtocolTunnelingCues
    else []
  }

  const ProcessInjectionCues: seq<string> := [
    "Unusual memory allocation patterns",
    "Process creating threads in another process",
    "Unexpected process handle operations"
  ]

  const InterpreterCues: seq<string> := [
    "Execution of script interpreters with suspicious arguments",
    "Encoded or obfuscated command line arguments",
    "Script execution from unusual locations"
  ]

  const SystemServiceCues: seq<string> := [
    "Service creation with unusual executable paths",
    "Service modifications with suspicious command lines",
    "Unexpected service starts or stops"
  ]

  const ValidAccountCues: seq<string> := [
    "Authentication from unusual locations",
    "Login attempts at unusual times",
    "Multiple failed login attempts followed by successful login",
    "Privileged account usage for routine tasks"
  ]

  /** `Technique.get_environment_agnostic_patterns`: the first matching id
      prefix decides; platforms play no part. */
  function AgnosticPatterns(t: Technique): (r: seq<string>)
    ensures |r| <= 4
    ensures StartsWith(t.id, "T1055") ==> r == ProcessInjectionCues
    ensures StartsWith(t.id, "T1059") ==> r == InterpreterCues
    ensures StartsWith(t.id, "T1569") ==> r == SystemServiceCues
    ensures StartsWith(t.id, "T1078") ==> r == ValidAccountCues
    ensures (!StartsWith(t.id, "T1055") && !StartsWith(t.id, "T1059")
             && !StartsWith(t.id, "T1569") && !StartsWith(t.id, "T1078")) ==> r == []
  {
    if StartsWith(t.id, "T1055") then ProcessInjectionCues
    else if StartsWith(t.id, "T1059") then InterpreterCues
    else if StartsWith(t.id, "T1569") then SystemServiceCues
    else if StartsWith(t.id, "T1078") then ValidAccountCues
    else []
  }

  /** Which ids give network and agnostic cues. */
  lemma CuesSpec(t: Technique)
    ensures |NetworkIndicators(t)| in {0, 3, 4}
    ensures NetworkIndicators(t) != [] <==>
              (StartsWith(t.id, "T1071") || StartsWith(t.id, "T1095") || StartsWith(t.id, "T1571") || StartsWith(t.id, "T1572"))
    ensures |AgnosticPatterns(t)| in {0, 3, 4}
    ensures AgnosticPatterns(t) != [] <==>
              (StartsWith(t.id, "T1055") || StartsWith(t.id, "T1059") || StartsWith(t.id, "T1569") || StartsWith(t.id, "T1078"))
  {
  }

  /** The network and agnostic cues depend on the id alone. */
  lemma CuesIgnorePlatforms(t: Technique, u: Technique)
    requires t.id == u.id
    ensures NetworkIndicators(t) == NetworkIndicators(u)
    ensures AgnosticPatterns(t) == AgnosticPatterns(u)
  {
  }
}

=== FILE: wrappers.dfy ===
/** Failure-carrying wrappers used across the model: `Option` for values that
    may be absent (Python's `None`), `Result` for operations that raise. */
module Wrappers {

  datatype Option<+T> = None | Some(value: T) {

    /** The wrapped value, or `default` when absent (Python's `dict.get(k, default)`). */
    function GetOr(default: T): T {
      match this
      case Some(v) => v
      case None => default
    }
  }

  datatype Result<+R, +E> = Success(value: R) | Failure(error: E) {

    predicate IsFailure() {
      Failure?
    }

    function PropagateFailure<U>(): Result<U, E>
      requires Failure?
    {
      Failure(error)
    }

    function Extract(): R
      requires Success?
    {
      value
    }
  }
}

=== FILE: yara.dfy ===
/** The YARA rule's derived parts: the string table (one entry per indicator,
    with a synthetic `<kind>_<index>` id) and the condition fragments that
    group those ids by kind. */
module YaraConverter {
  import opened Wrappers
  import opened Strings
  import opened Seqs
  import opened Techniques
  import BaseConverter

  /** The ten id families the string table uses. */
  datatype StringKind =
    | FileString | ProcessString | RegistryString
    | DnsString | HttpString | PortString
    | MemoryString | ScriptString | ServiceString | AccountString

  function KindPrefix(k: StringKind): string {
    match k
    case FileString => "file_"
    case ProcessString => "process_"
    case RegistryString => "registry_"
    case DnsString => "dns_"
    case HttpString => "http_"
    case PortString => "port_"
    case MemoryString => "memory_"
    case ScriptString => "script_"
    case ServiceString => "service_"
    case AccountString => "account_"
  }

  /** The regular expression a regex entry of each network or agnostic kind carries. */
  function RegexFor(k: StringKind): string {
    match k
    case DnsString => "(dns|domain|nslookup)"
    case HttpString => "(http|https|web)"
    case PortString => "(port|connect|socket)"
    case MemoryString => "(VirtualAlloc|mmap|malloc)"
    case ScriptString => "(powershell|cmd\\.exe|bash|python|perl|sh)"
    case ServiceString => "(service|daemon|systemctl|systemd)"
    case AccountString => "(login|account|user|credential)"
    case _ => ""
  }

  datatype PatternType = Text | Regex

  /** One entry of the `strings:` section. */
  datatype YaraString = YaraString(id: string, patternType: PatternType, value: string)

  /** The id `f"{prefix}{idx}"` of the entry for the `idx`-th indicator of a kind. */
  function StringId(k: StringKind, idx: nat): string {
    KindPrefix(k) + NatToString(idx)
  }

  // ---------------------------------------------------------------------
  // Reading an id back
  // ---------------------------------------------------------------------

  /** A position in the string table: which kind, which enumerate index. */
  datatype Slot = Slot(kind: StringKind, index: nat)

  function Signature(k: StringKind): (char, char, char) {
    var p := KindPrefix(k);
    (p[0], p[1], p[2])
  }

  /** The first three characters already tell the ten prefixes apart. */
  lemma SignatureInjective(k1: StringKind, k2: StringKind)
    requires Signature(k1) == Signature(k2)
    ensures k1 == k2
  {
  }

  /** An id starts with the prefix of its own kind and of no other. */
  lemma PrefixDeterminesKind(k: StringKind, other: StringKind, idx: nat)
    ensures StartsWith(StringId(k, idx), KindPrefix(other)) <==> k == other
  {
    var id := StringId(k, idx);
    var p := KindPrefix(other);
    assert id[..|KindPrefix(k)|] == KindPrefix(k);
    if StartsWith(id, p) {
      assert id[0] == p[0] && id[1] == p[1] && id[2] == p[2];
      assert id[0] == KindPrefix(k)[0] && id[1] == KindPrefix(k)[1] && id[2] == KindPrefix(k)[2];
      SignatureInjective(k, other);
    }
  }

  /** The kind whose prefix an id starts with, tried in table order. */
  function KindOfId(id: string): (r: Option<StringKind>)
    ensures r.Some? ==> StartsWith(id, KindPrefix(r.value))
  {
    if StartsWith(id, KindPrefix(FileString)) then Some(FileString)
    else if StartsWith(id, KindPrefix(ProcessString)) then Some(ProcessString)
    else if StartsWith(id, KindPrefix(RegistryString)) then Some(RegistryString)
    else if StartsWith(id, KindPrefix(DnsString)) then Some(DnsString)
    else if StartsWith(id, KindPrefix(HttpString)) then Some(HttpString)
    else if StartsWith(id, KindPrefix(PortString)) then Some(PortString)
    else if StartsWith(id, KindPrefix(MemoryString)) then Some(MemoryString)
    else if StartsWith(id, KindPrefix(ScriptString)) then Some(ScriptString)
    else if StartsWith(id, KindPrefix(ServiceString)) then Some(ServiceString)
    else if StartsWith(id, KindPrefix(AccountString)) then Some(AccountString)
    else None
  }

  /** The slot an id names: its kind prefix followed by a decimal index. */
  function ParseId(id: string): (r: Option<Slot>)
    ensures r.Some? ==> StartsWith(id, KindPrefix(r.value.kind))
  {
    match KindOfId(id)
    case None => None
    case Some(k) =>
      var digits := id[|KindPrefix(k)|..];
      if digits != [] && forall i :: 0 <= i < |digits| ==> IsDigit(digits[i])
      then Some(Slot(k, DigitsValue(digits)))
      else None
  }

  /** Reading an id back gives the kind and index it was made from. */
  lemma ParseStringId(k: StringKind, idx: nat)
    ensures ParseId(StringId(k, idx)) == Some(Slot(k, idx))
  {
    var id := StringId(k, idx);
    forall other: StringKind
      ensures StartsWith(id, KindPrefix(other)) <==> k == other
    {
      PrefixDeterminesKind(k, other, idx);
    }
    assert KindOfId(id) == Some(k);
    assert id[|KindPrefix(k)|..] == NatToString(idx);
    NatToStringRoundTrip(idx);
  }

  /** Different slots give different ids. */
  lemma StringIdInjective(k1: StringKind, i1: nat, k2: StringKind, i2: nat)
    ensures StringId(k1, i1) == StringId(k2, i2) ==> k1 == k2 && i1 == i2
  {
    ParseStringId(k1, i1);
    ParseStringId(k2, i2);
  }

  // ---------------------------------------------------------------------
  // The string table
  // ---------------------------------------------------------------------

  /** The section of the table a kind's entries are emitted in. */
  function Section(k: StringKind): nat {
    match k
    case FileString => 0
    case ProcessString => 1
    case RegistryString => 2
    case DnsString | HttpString | PortString => 3
    case _ => 4
  }

  /** Slot order: by section, then by enumerate index. */
  predicate SlotBefore(a: Slot, b: Slot) {
    Section(a.kind) < Section(b.kind) || (Section(a.kind) == Section(b.kind) && a.index < b.index)
  }

  predicate Increasing(sl: seq<Slot>) {
    forall p, q :: 0 <= p < q < |sl| ==> SlotBefore(sl[p], sl[q])
  }

  predicate AllInSection(sl: seq<Slot>, n: nat) {
    forall p :: 0 <= p < |sl| ==> Section(sl[p].kind) == n
  }

  predicate AllBelowSection(sl: seq<Slot>, n: nat) {
    forall p :: 0 <= p < |sl| ==> Section(sl[p].kind) < n
  }

  /** Appending the slots of a later section keeps the order. */
  lemma IncreasingAppend(a: seq<Slot>, b: seq<Slot>, n: nat)
    requires Increasing(a) && AllBelowSection(a, n)
    requires Increasing(b) && AllInSection(b, n)
    ensures Increasing(a + b) && AllBelowSection(a + b, n + 1)
  {
    var ab := a + b;
    forall p, q | 0 <= p < q < |ab|
      ensures SlotBefore(ab[p], ab[q])
    {
      if q < |a| {
        assert ab[p] == a[p] && ab[q] == a[q];
      } else if p < |a| {
        assert ab[p] == a[p] && ab[q] == b[q - |a|];
      } else {
        assert ab[p] == b[p - |a|] && ab[q] == b[q - |a|];
      }
    }
  }

  /** One `text` entry per indicator of a file, process or registry list. */
  function TextStrings(k: StringKind, xs: seq<string>): (r: seq<YaraString>)
    ensures |r| == |xs|
    ensures forall i :: 0 <= i < |xs| ==> r[i] == YaraString(StringId(k, i), Text, xs[i])
  {
    seq(|xs|, i requires 0 <= i < |xs| => YaraString(StringId(k, i), Text, xs[i]))
  }

  /** The slots a kind's text entries fill: 0, 1, 2, ... */
  function TextSlots(k: StringKind, n: nat): (r: seq<Slot>)
    ensures |r| == n
    ensures forall i :: 0 <= i < n ==> r[i] == Slot(k, i)
    ensures Increasing(r) && AllInSection(r, Section(k))
  {
    seq(n, i requires 0 <= i < n => Slot(k, i))
  }

  /** The regex kind of a network indicator: "DNS", then "HTTP" (both
      case-sensitive), then "port" in any case. */
  function NetworkKind(indicator: string): (r: Option<StringKind>)
    ensures r.Some? ==> Section(r.value) == 3
    ensures r == Some(DnsString) <==> Contains(indicator, "DNS")
    ensures r == Some(HttpString) <==> !Contains(indicator, "DNS") && Contains(indicator, "HTTP")
    ensures r == Some(PortString) <==> !Contains(indicator, "DNS") && !Contains(indicator, "HTTP")
                                       && Contains(Lower(indicator), "port")
    ensures r.None? <==> !Contains(indicator, "DNS") && !Contains(indicator, "HTTP")
                         && !Contains(Lower(indicator), "port")
  {
    if Contains(indicator, "DNS") then Some(DnsString)
    else if Contains(indicator, "HTTP") then Some(HttpString)
    else if Contains(Lower(indicator), "port") then Some(PortString)
    else None
  }

  /** The regex kind of an agnostic pattern, all tests case-insensitive:
      memory allocation, then script, then service, then account or login. */
  function AgnosticKind(pattern: string): (r: Option<StringKind>)
    ensures r.Some? ==> Section(r.value) == 4
    ensures r == Some(MemoryString) <==> Contains(Lower(pattern), "memory allocation")
    ensures r == Some(ScriptString) <==> !Contains(Lower(pattern), "memory allocation")
                                         && Contains(Lower(pattern), "script")
    ensures r == Some(ServiceString) <==> !Contains(Lower(pattern), "memory allocation")
                                          && !Contains(Lower(pattern), "script") && Contains(Lower(pattern), "service")
    ensures r == Some(AccountString) <==> !Contains(Lower(pattern), "memory allocation")
                                          && !Contains(Lower(pattern), "script") && !Contains(Lower(pattern), "service")
                                          && (Contains(Lower(pattern), "account") || Contains(Lower(pattern), "login"))
    ensures r.None? <==> !Contains(Lower(pattern), "memory allocation") && !Contains(Lower(pattern), "script")
                         && !Contains(Lower(pattern), "service") && !Contains(Lower(pattern), "account")
                         && !Contains(Lower(pattern), "login")
  {
    var l := Lower(pattern);
    if Contains(l, "memory allocation") then Some(MemoryString)
    else if Contains(l, "script") then Some(ScriptString)
    else if Contains(l, "service") then Some(ServiceString)
    else if Contains(l, "account") || Contains(l, "login") then Some(AccountString)
    else None
  }

  /** The entry for an indicator of the given kind at the given index. */
  function RegexEntry(k: StringKind, idx: nat): YaraString {
    YaraString(StringId(k, idx), Regex, RegexFor(k))
  }

  /** At most one `regex` entry per indicator, the `idx` of `enumerate`
      counting from `from`, and nothing for an unclassified indicator. */
  function RegexStrings(xs: seq<string>, classify: string -> Option<StringKind>, from: nat): (r: seq<YaraString>)
    ensures |r| <= |xs|
    decreases |xs|
  {
    if xs == [] then []
    else
      var rest := RegexStrings(xs[1..], classify, from + 1);
      match classify(xs[0])
      case None => rest
      case Some(k) => [RegexEntry(k, from)] + rest
  }

  /** The slots `RegexStrings` fills, one per classified indicator. */
  function RegexSlots(xs: seq<string>, classify: string -> Option<StringKind>, from: nat): (r: seq<Slot>)
    ensures |r| <= |xs|
    decreases |xs|
  {
    if xs == [] then []
    else
      var rest := RegexSlots(xs[1..], classify, from + 1);
      match classify(xs[0])
      case None => rest
      case Some(k) => [Slot(k, from)] + rest
  }

  /** Slot `s` names an indicator of `xs` (numbered from `from`) that the
      classifier puts in `s.kind`. */
  predicate ClassifiedSlot(s: Slot, xs: seq<string>, classify: string -> Option<StringKind>, from: nat) {
    from <= s.index < from + |xs| && classify(xs[s.index - from]) == Some(s.kind)
  }

  /** Every regex slot names a classified indicator. */
  lemma {:induction false} RegexSlotsSound(xs: seq<string>, classify: string -> Option<StringKind>, from: nat)
    ensures forall p :: 0 <= p < |RegexSlots(xs, classify, from)| ==>
              ClassifiedSlot(RegexSlots(xs, classify, from)[p], xs, classify, from)
    decreases |xs|
  {
    if xs != [] {
      RegexSlotsSound(xs[1..], classify, from + 1);
      var rest := RegexSlots(xs[1..], classify, from + 1);
      forall p | 0 <= p < |rest|
        ensures ClassifiedSlot(rest[p], xs, classify, from)
      {
        assert ClassifiedSlot(rest[p], xs[1..], classify, from + 1);
        assert xs[1..][rest[p].index - from - 1] == xs[rest[p].index - from];
      }
    }
  }

  /** Regex slot indices strictly increase. */
  lemma {:induction false} RegexSlotsIncreasing(xs: seq<string>, classify: string -> Option<StringKind>, from: nat)
    ensures forall p :: 0 <= p < |RegexSlots(xs, classify, from)| ==> RegexSlots(xs, classify, from)[p].index >= from
    ensures forall p, q :: 0 <= p < q < |RegexSlots(xs, classify, from)| ==>
              RegexSlots(xs, classify, from)[p].index < RegexSlots(xs, classify, from)[q].index
    decreases |xs|
  {
    if xs != [] {
      RegexSlotsIncreasing(xs[1..], classify, from + 1);
    }
  }

  /** No classified indicator is missed. */
  lemma {:induction false} RegexSlotsComplete(xs: seq<string>, classify: string -> Option<StringKind>, from: nat)
    ensures forall j :: 0 <= j < |xs| && classify(xs[j]).Some? ==>
              Slot(classify(xs[j]).value, from + j) in RegexSlots(xs, classify, from)
    decreases |xs|
  {
    if xs != [] {
      RegexSlotsComplete(xs[1..], classify, from + 1);
      forall j | 1 <= j < |xs| && classify(xs[j]).Some?
        ensures Slot(classify(xs[j]).value, from + j) in RegexSlots(xs, classify, from)
      {
        assert xs[j] == xs[1..][j - 1];
      }
    }
  }

  /** `RegexStrings` emits exactly the entries of `RegexSlots`, in order. */
  lemma {:induction false} RegexStringsFollowSlots(xs: seq<string>, classify: string -> Option<StringKind>, from: nat)
    ensures |RegexStrings(xs, classify, from)| == |RegexSlots(xs, classify, from)|
    ensures forall p :: 0 <= p < |RegexSlots(xs, classify, from)| ==>
              RegexStrings(xs, classify, from)[p] == SlotEntry(RegexSlots(xs, classify, from)[p])
    decreases |xs|
  {
    if xs != [] {
      RegexStringsFollowSlots(xs[1..], classify, from + 1);
      var rs := RegexStrings(xs[1..], classify, from + 1);
      var sl := RegexSlots(xs[1..], classify, from + 1);
      match classify(xs[0])
      case None =>
        assert RegexStrings(xs, classify, from) == rs && RegexSlots(xs, classify, from) == sl;
      case Some(k) =>
        var r, sl2 := RegexStrings(xs, classify, from), RegexSlots(xs, classify, from);
        assert r == [RegexEntry(k, from)] + rs;
        assert sl2 == [Slot(k, from)] + sl;
        forall p | 0 <= p < |sl2|
          ensures r[p] == SlotEntry(sl2[p])
        {
          if p > 0 {
            assert r[p] == rs[p - 1] && sl2[p] == sl[p - 1];
          }
        }
    }
  }

  function SlotEntry(s: Slot): YaraString {
    RegexEntry(s.kind, s.index)
  }

  /** Regex slots of a classifier that stays in one section are ordered and
      all in that section. */
  lemma RegexSlotsOrdered(xs: seq<string>, classify: string -> Option<StringKind>, n: nat)
    requires forall j :: 0 <= j < |xs| && classify(xs[j]).Some? ==> Section(classify(xs[j]).value) == n
    ensures Increasing(RegexSlots(xs, classify, 0)) && AllInSection(RegexSlots(xs, classify, 0), n)
  {
    var r := RegexSlots(xs, classify, 0);
    RegexSlotsSound(xs, classify, 0);
    RegexSlotsIncreasing(xs, classify, 0);
    forall p | 0 <= p < |r|
      ensures Section(r[p].kind) == n
    {
      assert ClassifiedSlot(r[p], xs, classify, 0);
    }
  }

  /** The five indicator lists a rule's strings come from. */
  datatype Indicators = Indicators(
    files: seq<string>, processes: seq<string>, registry: seq<string>,
    network: seq<string>, agnostic: seq<string>)

  function TechniqueIndicators(t: Technique): Indicators {
    Indicators(CommonFiles(t), CommonProcesses(t), CommonRegistryKeys(t), NetworkIndicators(t), AgnosticPatterns(t))
  }

  function TextCount(ind: Indicators): nat {
    |ind.files| + |ind.processes| + |ind.registry|
  }

  /** The string table built from the five lists, in the emission order. */
  function StringTable(ind: Indicators): (r: seq<YaraString>)
    ensures TextCount(ind) <= |r| <= TextCount(ind) + |ind.network| + |ind.agnostic|
  {
    TextStrings(FileString, ind.files)
    + TextStrings(ProcessString, ind.processes)
    + TextStrings(RegistryString, ind.registry)
    + RegexStrings(ind.network, NetworkKind, 0)
    + RegexStrings(ind.agnostic, AgnosticKind, 0)
  }

  /** The slot of every entry of the table, in table order. */
  function TableSlots(ind: Indicators): (r: seq<Slot>)
    ensures Increasing(r)
  {
    var files := TextSlots(FileString, |ind.files|);
    var procs := TextSlots(ProcessString, |ind.processes|);
    var regs := TextSlots(RegistryString, |ind.registry|);
    var net := RegexSlots(ind.network, NetworkKind, 0);
    var agn := RegexSlots(ind.agnostic, AgnosticKind, 0);
    RegexSlotsOrdered(ind.network, NetworkKind, 3);
    RegexSlotsOrdered(ind.agnostic, AgnosticKind, 4);
    IncreasingAppend(files, procs, 1);
    IncreasingAppend(files + procs, regs, 2);
    IncreasingAppend(files + procs + regs, net, 3);
    IncreasingAppend(files + procs + regs + net, agn, 4);
    files + procs + regs + net + agn
  }

  /** Entry `p` of `r` carries the id of slot `p` of `sl`. */
  predicate Follows(r: seq<YaraString>, sl: seq<Slot>) {
    |r| == |sl| && forall p :: 0 <= p < |r| ==> r[p].id == StringId(sl[p].kind, sl[p].index)
  }

  lemma FollowsAppend(r1: seq<YaraString>, s1: seq<Slot>, r2: seq<YaraString>, s2: seq<Slot>)
    requires Follows(r1, s1) && Follows(r2, s2)
    ensures Follows(r1 + r2, s1 + s2)
  {
    var r, sl := r1 + r2, s1 + s2;
    forall p | 0 <= p < |r|
      ensures r[p].id == StringId(sl[p].kind, sl[p].index)
    {
      if p < |r1| {
        assert r[p] == r1[p] && sl[p] == s1[p];
      } else {
        assert r[p] == r2[p - |r1|] && sl[p] == s2[p - |r1|];
      }
    }
  }

  lemma RegexFollows(xs: seq<string>, classify: string -> Option<StringKind>)
    ensures Follows(RegexStrings(xs, classify, 0), RegexSlots(xs, classify, 0))
  {
    RegexStringsFollowSlots(xs, classify, 0);
  }

  /** Entry `p` of the table carries the id of slot `p`. */
  lemma StringTableFollowsSlots(ind: Indicators)
    ensures |StringTable(ind)| == |TableSlots(ind)|
    ensures forall p :: 0 <= p < |TableSlots(ind)| ==>
              StringTable(ind)[p].id == StringId(TableSlots(ind)[p].kind, TableSlots(ind)[p].index)
  {
    var f, fs := TextStrings(FileString, ind.files), TextSlots(FileString, |ind.files|);
    var pr, ps := TextStrings(ProcessString, ind.processes), TextSlots(ProcessString, |ind.processes|);
    var rg, rs := TextStrings(RegistryString, ind.registry), TextSlots(RegistryString, |ind.registry|);
    var net, ns := RegexStrings(ind.network, NetworkKind, 0), RegexSlots(ind.network, NetworkKind, 0);
    var agn, as_ := RegexStrings(ind.agnostic, AgnosticKind, 0), RegexSlots(ind.agnostic, AgnosticKind, 0);
    assert Follows(f, fs) && Follows(pr, ps) && Follows(rg, rs);
    RegexFollows(ind.network, NetworkKind);
    RegexFollows(ind.agnostic, AgnosticKind);
    FollowsAppend(f, fs, pr, ps);
    FollowsAppend(f + pr, fs + ps, rg, rs);
    FollowsAppend(f + pr + rg, fs + ps + rs, net, ns);
    FollowsAppend(f + pr + rg + net, fs + ps + rs + ns, agn, as_);
    assert StringTable(ind) == f + pr + rg + net + agn;
    assert TableSlots(ind) == fs + ps + rs + ns + as_;
  }

  /** All string ids of a table are pairwise distinct. */
  lemma StringTableIdsDistinct(ind: Indicators)
    ensures forall p, q :: 0 <= p < q < |StringTable(ind)| ==> StringTable(ind)[p].id != StringTable(ind)[q].id
  {
    var r := StringTable(ind);
    var sl := TableSlots(ind);
    StringTableFollowsSlots(ind);
    forall p, q | 0 <= p < q < |r|
      ensures r[p].id != r[q].id
    {
      assert SlotBefore(sl[p], sl[q]);
      StringIdInjective(sl[p].kind, sl[p].index, sl[q].kind, sl[q].index);
    }
  }

  /** The text entries come first, files then processes then registry keys,
      each carrying its indicator and its enumerate index. */
  lemma StringTableTextPart(ind: Indicators)
    ensures var r, nf, np := StringTable(ind), |ind.files|, |ind.processes|;
            (forall i :: 0 <= i < nf ==> r[i] == YaraString(StringId(FileString, i), Text, ind.files[i]))
            && (forall i :: 0 <= i < np ==> r[nf + i] == YaraString(StringId(ProcessString, i), Text, ind.processes[i]))
            && (forall i :: 0 <= i < |ind.registry| ==>
                  r[nf + np + i] == YaraString(StringId(RegistryString, i), Text, ind.registry[i]))
  {
    var f := TextStrings(FileString, ind.files);
    var pr := TextStrings(ProcessString, ind.processes);
    var rg := TextStrings(RegistryString, ind.registry);
    var rest := RegexStrings(ind.network, NetworkKind, 0) + RegexStrings(ind.agnostic, AgnosticKind, 0);
    var r := StringTable(ind);
    assert r == f + pr + rg + rest;
    ConcatParts(f, pr, rg, rest);
    forall i | 0 <= i < |ind.files|
      ensures r[i] == YaraString(StringId(FileString, i), Text, ind.files[i])
    {
      assert r[i] == f[i];
    }
    forall i | 0 <= i < |ind.processes|
      ensures r[|ind.files| + i] == YaraString(StringId(ProcessString, i), Text, ind.processes[i])
    {
      assert r[|f| + i] == pr[i];
    }
    forall i | 0 <= i < |ind.registry|
      ensures r[|ind.files| + |ind.processes| + i] == YaraString(StringId(RegistryString, i), Text, ind.registry[i])
    {
      assert r[|f| + |pr| + i] == rg[i];
    }
  }

  /** Every entry of `r` is a `regex` entry. */
  predicate AllRegex(r: seq<YaraString>) {
    forall p :: 0 <= p < |r| ==> r[p].patternType == Regex
  }

  lemma RegexStringsAllRegex(xs: seq<string>, classify: string -> Option<StringKind>)
    ensures AllRegex(RegexStrings(xs, classify, 0))
  {
    RegexStringsFollowSlots(xs, classify, 0);
  }

  /** After the text entries come only regex entries. */
  lemma StringTableRegexOnly(ind: Indicators)
    ensures forall p :: TextCount(ind) <= p < |StringTable(ind)| ==> StringTable(ind)[p].patternType == Regex
  {
    var text := TextStrings(FileString, ind.files) + TextStrings(ProcessString, ind.processes)
                + TextStrings(RegistryString, ind.registry);
    var net := RegexStrings(ind.network, NetworkKind, 0);
    var agn := RegexStrings(ind.agnostic, AgnosticKind, 0);
    RegexStringsAllRegex(ind.network, NetworkKind);
    RegexStringsAllRegex(ind.agnostic, AgnosticKind);
    var rest := net + agn;
    assert AllRegex(rest) by {
      forall p | 0 <= p < |rest|
        ensures rest[p].patternType == Regex
      {
        if p < |net| {
          assert rest[p] == net[p];
        } else {
          assert rest[p] == agn[p - |net|];
        }
      }
    }
    assert StringTable(ind) == text + rest;
    forall p | |text| <= p < |text + rest|
      ensures (text + rest)[p].patternType == Regex
    {
      assert (text + rest)[p] == rest[p - |text|];
    }
  }

  /** Every classified network indicator has its regex entry in the table. */
  lemma StringTableHasNetworkEntries(ind: Indicators)
    ensures forall j :: 0 <= j < |ind.network| && NetworkKind(ind.network[j]).Some? ==>
              RegexEntry(NetworkKind(ind.network[j]).value, j) in StringTable(ind)
  {
    RegexStringsFollowSlots(ind.network, NetworkKind, 0);
    RegexSlotsComplete(ind.network, NetworkKind, 0);
    var text := TextStrings(FileString, ind.files) + TextStrings(ProcessString, ind.processes)
                + TextStrings(RegistryString, ind.registry);
    var net := RegexStrings(ind.network, NetworkKind, 0);
    var r := text + net + RegexStrings(ind.agnostic, AgnosticKind, 0);
    assert r == StringTable(ind);
    forall j | 0 <= j < |ind.network| && NetworkKind(ind.network[j]).Some?
      ensures RegexEntry(NetworkKind(ind.network[j]).value, j) in r
    {
      var sl := RegexSlots(ind.network, NetworkKind, 0);
      var p :| 0 <= p < |sl| && sl[p] == Slot(NetworkKind(ind.network[j]).value, j);
      assert r[|text| + p] == net[p];
    }
  }

  /** Every classified agnostic pattern has its regex entry in the table. */
  lemma StringTableHasAgnosticEntries(ind: Indicators)
    ensures forall j :: 0 <= j < |ind.agnostic| && AgnosticKind(ind.agnostic[j]).Some? ==>
              RegexEntry(AgnosticKind(ind.agnostic[j]).value, j) in StringTable(ind)
  {
    RegexStringsFollowSlots(ind.agnostic, AgnosticKind, 0);
    RegexSlotsComplete(ind.agnostic, AgnosticKind, 0);
    var front := TextStrings(FileString, ind.files) + TextStrings(ProcessString, ind.processes)
                 + TextStrings(RegistryString, ind.registry) + RegexStrings(ind.network, NetworkKind, 0);
    var agn := RegexStrings(ind.agnostic, AgnosticKind, 0);
    var r := front + agn;
    assert r == StringTable(ind);
    forall j | 0 <= j < |ind.agnostic| && AgnosticKind(ind.agnostic[j]).Some?
      ensures RegexEntry(AgnosticKind(ind.agnostic[j]).value, j) in r
    {
      var sl := RegexSlots(ind.agnostic, AgnosticKind, 0);
      var p :| 0 <= p < |sl| && sl[p] == Slot(AgnosticKind(ind.agnostic[j]).value, j);
      assert r[|front| + p] == agn[p];
    }
  }

  /** Past the text entries the table is the network entries followed by
      the agnostic entries, so (by `RegexSlotsSound`) every regex entry
      belongs to a classified indicator. */
  lemma StringTableRegexTail(ind: Indicators)
    ensures StringTable(ind)[TextCount(ind)..]
            == RegexStrings(ind.network, NetworkKind, 0) + RegexStrings(ind.agnostic, AgnosticKind, 0)
  {
    var text := TextStrings(FileString, ind.files) + TextStrings(ProcessString, ind.processes)
                + TextStrings(RegistryString, ind.registry);
    var tail := RegexStrings(ind.network, NetworkKind, 0) + RegexStrings(ind.agnostic, AgnosticKind, 0);
    assert StringTable(ind) == text + tail;
    assert |text| == TextCount(ind);
  }

  /** `_generate_strings`. */
  function GenerateStrings(t: Technique): (r: seq<YaraString>)
    ensures forall p, q :: 0 <= p < q < |r| ==> r[p].id != r[q].id
  {
    StringTableIdsDistinct(TechniqueIndicators(t));
    StringTable(TechniqueIndicators(t))
  }

  // ---------------------------------------------------------------------
  // Conditions
  // ---------------------------------------------------------------------

  datatype Group = FileGroup | ProcessGroup | RegistryGroup | NetworkGroup | OtherGroup

  function GroupRank(g: Group): nat {
    match g
    case FileGroup => 0
    case ProcessGroup => 1
    case RegistryGroup => 2
    case NetworkGroup => 3
    case OtherGroup => 4
  }

  /** The order in which the groups' fragments are emitted. */
  const GroupOrder: seq<Group> := [FileGroup, ProcessGroup, RegistryGroup, NetworkGroup, OtherGroup]

  /** The group an id is counted in, by its prefix. */
  function IdGroup(id: string): Group {
    if StartsWith(id, KindPrefix(FileString)) then FileGroup
    else if StartsWith(id, KindPrefix(ProcessString)) then ProcessGroup
    else if StartsWith(id, KindPrefix(RegistryString)) then RegistryGroup
    else if StartsWith(id, KindPrefix(DnsString)) || StartsWith(id, KindPrefix(HttpString))
            || StartsWith(id, KindPrefix(PortString)) then NetworkGroup
    else OtherGroup
  }

  /** Each id of the table lands in the group of its own kind. */
  lemma IdGroupOfStringId(k: StringKind, idx: nat)
    ensures IdGroup(StringId(k, idx)) == match k
      case FileString => FileGroup
      case ProcessString => ProcessGroup
      case RegistryString => RegistryGroup
      case DnsString | HttpString | PortString => NetworkGroup
      case _ => OtherGroup
  {
    forall other: StringKind
      ensures StartsWith(StringId(k, idx), KindPrefix(other)) <==> k == other
    {
      PrefixDeterminesKind(k, other, idx);
    }
  }

  /** The ids of `ss` counted in group `g`, in table order. */
  function GroupIds(ss: seq<YaraString>, g: Group): (r: seq<string>)
    ensures |r| <= |ss|
    ensures forall i :: 0 <= i < |r| ==> IdGroup(r[i]) == g
    ensures forall p :: 0 <= p < |ss| && IdGroup(ss[p].id) == g ==> ss[p].id in r
    ensures r == [] <==> forall p :: 0 <= p < |ss| ==> IdGroup(ss[p].id) != g
    decreases |ss|
  {
    if ss == [] then []
    else
      var rest := GroupIds(ss[1..], g);
      assert forall p :: 1 <= p < |ss| ==> ss[p] == ss[1..][p - 1];
      if IdGroup(ss[0].id) == g then [ss[0].id] + rest else rest
  }

  /** Every id of a group is the id of some entry of the table. */
  lemma {:induction false} GroupIdsFromTable(ss: seq<YaraString>, g: Group)
    ensures forall x :: x in GroupIds(ss, g) ==> exists p :: 0 <= p < |ss| && ss[p].id == x
    decreases |ss|
  {
    if ss != [] {
      GroupIdsFromTable(ss[1..], g);
      var rest := GroupIds(ss[1..], g);
      forall x | x in GroupIds(ss, g)
        ensures exists p :: 0 <= p < |ss| && ss[p].id == x
      {
        if x != ss[0].id {
          assert x in rest;
          var q :| 0 <= q < |ss[1..]| && ss[1..][q].id == x;
          assert ss[q + 1].id == x;
        }
      }
    }
  }

  /** `GroupIds` keeps the table's order and multiplicity: the ids of `a + b`
      in a group are those of `a`, then those of `b`. */
  lemma {:induction false} GroupIdsAppend(a: seq<YaraString>, b: seq<YaraString>, g: Group)
    ensures GroupIds(a + b, g) == GroupIds(a, g) + GroupIds(b, g)
    decreases |a|
  {
    if a == [] {
      assert a + b == b;
    } else {
      assert (a + b)[0] == a[0];
      assert (a + b)[1..] == a[1..] + b;
      GroupIdsAppend(a[1..], b, g);
    }
  }

  /** An entry in the middle of the table contributes its id to group `g`,
      in its place, exactly when its id's prefix puts it in `g`. */
  lemma GroupIdsInOrder(a: seq<YaraString>, s: YaraString, b: seq<YaraString>, g: Group)
    ensures GroupIds(a + [s] + b, g)
         == GroupIds(a, g) + (if IdGroup(s.id) == g then [s.id] else []) + GroupIds(b, g)
  {
    assert GroupIds([s], g) == (if IdGroup(s.id) == g then [s.id] else []) by {
      assert [s][1..] == [];
    }
    calc {
      GroupIds(a + [s] + b, g);
      { GroupIdsAppend(a + [s], b, g); }
      GroupIds(a + [s], g) + GroupIds(b, g);
      { GroupIdsAppend(a, [s], g); }
      GroupIds(a, g) + GroupIds([s], g) + GroupIds(b, g);
    }
  }

  /** The groups of `gs` that are in `keep`, in the order of `gs`. */
  function KeepIn(gs: seq<Group>, keep: set<Group>): (r: seq<Group>)
    ensures |r| <= |gs|
    decreases |gs|
  {
    if gs == [] then []
    else (if gs[0] in keep then [gs[0]] else []) + KeepIn(gs[1..], keep)
  }

  /** Filtering by `keep` preserves rank order. */
  lemma {:induction false} KeepInOrdered(gs: seq<Group>, keep: set<Group>)
    requires forall i, j :: 0 <= i < j < |gs| ==> GroupRank(gs[i]) < GroupRank(gs[j])
    ensures forall i, j :: 0 <= i < j < |KeepIn(gs, keep)| ==>
              GroupRank(KeepIn(gs, keep)[i]) < GroupRank(KeepIn(gs, keep)[j])
    decreases |gs|
  {
    if gs != [] {
      KeepInOrdered(gs[1..], keep);
      KeepInSound(gs[1..], keep);
      var rest := KeepIn(gs[1..], keep);
      var head := if gs[0] in keep then [gs[0]] else [];
      var r := head + rest;
      assert KeepIn(gs, keep) == r;
      forall i, j | 0 <= i < j < |r|
        ensures GroupRank(r[i]) < GroupRank(r[j])
      {
        if |head| == 1 && i == 0 {
          assert r[j] == rest[j - 1];
          assert rest[j - 1] in gs[1..];
        } else {
          assert r[i] == rest[i - |head|] && r[j] == rest[j - |head|];
        }
      }
    }
  }

  /** Filtering keeps only groups of `gs` in `keep`. */
  lemma {:induction false} KeepInSound(gs: seq<Group>, keep: set<Group>)
    ensures forall i :: 0 <= i < |KeepIn(gs, keep)| ==> KeepIn(gs, keep)[i] in gs && KeepIn(gs, keep)[i] in keep
    decreases |gs|
  {
    if gs != [] {
      KeepInSound(gs[1..], keep);
      var rest := KeepIn(gs[1..], keep);
      var head := if gs[0] in keep then [gs[0]] else [];
      var r := head + rest;
      assert KeepIn(gs, keep) == r;
      forall i | 0 <= i < |r|
        ensures r[i] in gs && r[i] in keep
      {
        if i >= |head| {
          assert r[i] == rest[i - |head|];
          assert rest[i - |head|] in gs[1..];
        }
      }
    }
  }

  /** Filtering keeps every group of `gs` in `keep`. */
  lemma {:induction false} KeepInComplete(gs: seq<Group>, keep: set<Group>)
    ensures forall i :: 0 <= i < |gs| && gs[i] in keep ==> gs[i] in KeepIn(gs, keep)
    decreases |gs|
  {
    if gs != [] {
      KeepInComplete(gs[1..], keep);
      var rest := KeepIn(gs[1..], keep);
      var head := if gs[0] in keep then [gs[0]] else [];
      assert KeepIn(gs, keep) == head + rest;
      forall i | 0 <= i < |gs| && gs[i] in keep
        ensures gs[i] in head + rest
      {
        if i > 0 {
          assert gs[i] == gs[1..][i - 1];
        }
      }
    }
  }

  /** The groups some id of `ss` falls in. */
  function NonEmptyGroups(ss: seq<YaraString>): set<Group> {
    set g | g in GroupOrder && GroupIds(ss, g) != []
  }

  /** The groups of `gs` with at least one id, in the order of `gs`. */
  function UsedGroups(ss: seq<YaraString>, gs: seq<Group>): (r: seq<Group>)
    ensures |r| <= |gs|
  {
    KeepIn(gs, NonEmptyGroups(ss))
  }

  /** The used groups keep the rank order of `gs`, and are exactly its
      non-empty groups. */
  lemma UsedGroupsSpec(ss: seq<YaraString>, gs: seq<Group>)
    requires forall i, j :: 0 <= i < j < |gs| ==> GroupRank(gs[i]) < GroupRank(gs[j])
    ensures forall i, j :: 0 <= i < j < |UsedGroups(ss, gs)| ==>
              GroupRank(UsedGroups(ss, gs)[i]) < GroupRank(UsedGroups(ss, gs)[j])
    ensures forall i :: 0 <= i < |UsedGroups(ss, gs)| ==>
              UsedGroups(ss, gs)[i] in gs && GroupIds(ss, UsedGroups(ss, gs)[i]) != []
    ensures forall i :: 0 <= i < |gs| && GroupIds(ss, gs[i]) != [] ==> gs[i] in UsedGroups(ss, gs)
  {
    var keep := NonEmptyGroups(ss);
    KeepInOrdered(gs, keep);
    KeepInSound(gs, keep);
    KeepInComplete(gs, keep);
    forall g: Group
      ensures g in keep <==> GroupIds(ss, g) != []
    {
      assert g in GroupOrder by {
        match g
        case FileGroup => assert GroupOrder[0] == g;
        case ProcessGroup => assert GroupOrder[1] == g;
        case RegistryGroup => assert GroupOrder[2] == g;
        case NetworkGroup => assert GroupOrder[3] == g;
        case OtherGroup => assert GroupOrder[4] == g;
      }
    }
  }

  /** `', '.join('$' + s for s in ids)`. */
  function DollarList(ids: seq<string>): string {
    Join(seq(|ids|, i requires 0 <= i < |ids| => "$" + ids[i]), ", ")
  }

  /** The fragment of one non-empty group. */
  function Fragment(ids: seq<string>): (r: string)
    requires ids != []
    ensures |r| >= 1 && r[0] != 'f'
  {
    if |ids| > 1 then "any of (" + DollarList(ids) + ")"
    else "$" + ids[0]
  }

  const FallbackCondition: string := "filesize < 5MB"

  /** `GroupOrder` lists every group once, by rank. */
  predicate CompleteOrder(gs: seq<Group>) {
    (forall i, j :: 0 <= i < j < |gs| ==> GroupRank(gs[i]) < GroupRank(gs[j]))
    && (forall g: Group :: GroupRank(g) < |gs| && gs[GroupRank(g)] == g)
  }

  lemma GroupOrderComplete()
    ensures CompleteOrder(GroupOrder)
  {
    forall g: Group
      ensures GroupRank(g) < |GroupOrder| && GroupOrder[GroupRank(g)] == g
    {
      match g
      case FileGroup =>
      case ProcessGroup =>
      case RegistryGroup =>
      case NetworkGroup =>
      case OtherGroup =>
    }
  }

  /** The ids of each non-empty group of `gs`, in the order of `gs`. */
  function ConditionGroupsIn(ss: seq<YaraString>, gs: seq<Group>): seq<seq<string>> {
    var used := UsedGroups(ss, gs);
    seq(|used|, i requires 0 <= i < |used| => GroupIds(ss, used[i]))
  }

  /** The id groups behind the fragments, in emission order. */
  function ConditionGroups(ss: seq<YaraString>): (r: seq<seq<string>>)
    ensures |r| <= 5
    ensures forall i :: 0 <= i < |r| ==> r[i] != []
    ensures ss != [] <==> r != []
  {
    GroupOrderComplete();
    GroupsCover(ss, GroupOrder);
    ConditionGroupsIn(ss, GroupOrder)
  }

  /** Every string id is in some condition group ... */
  lemma ConditionGroupsCover(ss: seq<YaraString>)
    ensures forall p :: 0 <= p < |ss| ==> InSomeGroup(ss[p].id, ConditionGroups(ss))
  {
    GroupOrderComplete();
    GroupsCover(ss, GroupOrder);
    assert ConditionGroups(ss) == ConditionGroupsIn(ss, GroupOrder);
  }

  /** ... and in only one. */
  lemma ConditionGroupsUnique(ss: seq<YaraString>)
    ensures forall p, i, j ::
              (0 <= p < |ss| && 0 <= i < |ConditionGroups(ss)| && 0 <= j < |ConditionGroups(ss)|
               && ss[p].id in ConditionGroups(ss)[i] && ss[p].id in ConditionGroups(ss)[j]) ==> i == j
  {
    GroupOrderComplete();
    GroupsUnique(ss, GroupOrder);
  }

  /** Each condition group is the whole of one prefix group, and the groups
      come in the order file, process, registry, network, other. */
  lemma ConditionGroupsOrdered(ss: seq<YaraString>)
    ensures forall i :: 0 <= i < |ConditionGroups(ss)| ==>
              ConditionGroups(ss)[i] == GroupIds(ss, IdGroup(ConditionGroups(ss)[i][0]))
    ensures forall i, j, a, b ::
              (0 <= i < j < |ConditionGroups(ss)| && 0 <= a < |ConditionGroups(ss)[i]|
               && 0 <= b < |ConditionGroups(ss)[j]|) ==>
              GroupRank(IdGroup(ConditionGroups(ss)[i][a])) < GroupRank(IdGroup(ConditionGroups(ss)[j][b]))
  {
    GroupOrderComplete();
    GroupsInOrder(ss, GroupOrder);
  }

  lemma GroupsInOrder(ss: seq<YaraString>, gs: seq<Group>)
    requires CompleteOrder(gs)
    ensures var r := ConditionGroupsIn(ss, gs);
            forall i :: 0 <= i < |r| ==> r[i] != [] && r[i] == GroupIds(ss, IdGroup(r[i][0]))
    ensures var r := ConditionGroupsIn(ss, gs);
            forall i, j, a, b :: (0 <= i < j < |r| && 0 <= a < |r[i]| && 0 <= b < |r[j]|) ==>
              GroupRank(IdGroup(r[i][a])) < GroupRank(IdGroup(r[j][b]))
  {
    var used := UsedGroups(ss, gs);
    UsedGroupsSpec(ss, gs);
  }

  /** At most five groups, none empty, every id in some group, and groups
      exist exactly when ids do. */
  lemma GroupsCover(ss: seq<YaraString>, gs: seq<Group>)
    requires CompleteOrder(gs)
    ensures |ConditionGroupsIn(ss, gs)| <= 5
    ensures forall i :: 0 <= i < |ConditionGroupsIn(ss, gs)| ==> ConditionGroupsIn(ss, gs)[i] != []
    ensures forall p :: 0 <= p < |ss| ==> InSomeGroup(ss[p].id, ConditionGroupsIn(ss, gs))
    ensures ss != [] <==> ConditionGroupsIn(ss, gs) != []
  {
    GroupsBounded(ss, gs);
    GroupsCoverIds(ss, gs);
    var r := ConditionGroupsIn(ss, gs);
    if ss != [] {
      assert InSomeGroup(ss[0].id, r);
    }
  }

  /** Some group of `r` holds `id`. */
  predicate InSomeGroup(id: string, r: seq<seq<string>>) {
    exists i :: 0 <= i < |r| && id in r[i]
  }

  /** At most five groups, none of them empty. */
  lemma GroupsBounded(ss: seq<YaraString>, gs: seq<Group>)
    requires forall i, j :: 0 <= i < j < |gs| ==> GroupRank(gs[i]) < GroupRank(gs[j])
    ensures |ConditionGroupsIn(ss, gs)| <= 5
    ensures forall i :: 0 <= i < |ConditionGroupsIn(ss, gs)| ==> ConditionGroupsIn(ss, gs)[i] != []
    ensures ConditionGroupsIn(ss, gs) != [] ==> ss != []
  {
    var used := UsedGroups(ss, gs);
    var r := ConditionGroupsIn(ss, gs);
    UsedGroupsSpec(ss, gs);
    RanksBound(used);
    if r != [] {
      assert r[0] == GroupIds(ss, used[0]) && r[0] != [] && |r[0]| <= |ss|;
    }
  }

  /** Every id lands in some group. */
  lemma GroupsCoverIds(ss: seq<YaraString>, gs: seq<Group>)
    requires CompleteOrder(gs)
    ensures forall p :: 0 <= p < |ss| ==> InSomeGroup(ss[p].id, ConditionGroupsIn(ss, gs))
  {
    var used := UsedGroups(ss, gs);
    var r := ConditionGroupsIn(ss, gs);
    UsedGroupsSpec(ss, gs);
    assert |r| == |used| && forall i :: 0 <= i < |used| ==> r[i] == GroupIds(ss, used[i]);
    forall p | 0 <= p < |ss|
      ensures InSomeGroup(ss[p].id, r)
    {
      EveryIdGrouped(ss, gs, used, r, p);
    }
  }

  /** No id lands in two groups. */
  lemma GroupsUnique(ss: seq<YaraString>, gs: seq<Group>)
    requires CompleteOrder(gs)
    ensures var r := ConditionGroupsIn(ss, gs);
            forall p, i, j :: (0 <= p < |ss| && 0 <= i < |r| && 0 <= j < |r| && ss[p].id in r[i] && ss[p].id in r[j]) ==> i == j
  {
    var used := UsedGroups(ss, gs);
    var r := ConditionGroupsIn(ss, gs);
    UsedGroupsSpec(ss, gs);
    UsedGroupsDistinct(used);
    forall p, i, j | 0 <= p < |ss| && 0 <= i < |r| && 0 <= j < |r| && ss[p].id in r[i] && ss[p].id in r[j]
      ensures i == j
    {
      assert IdGroup(ss[p].id) == used[i] && IdGroup(ss[p].id) == used[j];
    }
  }

  /** The id at position `p` is in the group of its prefix. */
  lemma EveryIdGrouped(ss: seq<YaraString>, gs: seq<Group>, used: seq<Group>, r: seq<seq<string>>, p: nat)
    requires forall g: Group :: GroupRank(g) < |gs| && gs[GroupRank(g)] == g
    requires forall i :: 0 <= i < |gs| && GroupIds(ss, gs[i]) != [] ==> gs[i] in used
    requires |r| == |used| && forall i :: 0 <= i < |used| ==> r[i] == GroupIds(ss, used[i])
    requires p < |ss|
    ensures exists i :: 0 <= i < |r| && ss[p].id in r[i]
  {
    var g := IdGroup(ss[p].id);
    assert gs[GroupRank(g)] == g;
    assert GroupIds(ss, g) != [];
    var i :| 0 <= i < |used| && used[i] == g;
    assert ss[p].id in r[i];
  }

  /** Strictly increasing ranks mean no group is used twice. */
  lemma UsedGroupsDistinct(used: seq<Group>)
    requires forall i, j :: 0 <= i < j < |used| ==> GroupRank(used[i]) < GroupRank(used[j])
    ensures forall i, j :: 0 <= i < |used| && 0 <= j < |used| && used[i] == used[j] ==> i == j
  {
  }

  /** Strictly increasing ranks below `n` leave room for at most `n` groups. */
  lemma {:induction false} RanksBound(gs: seq<Group>)
    requires forall i, j :: 0 <= i < j < |gs| ==> GroupRank(gs[i]) < GroupRank(gs[j])
    ensures |gs| <= 5
  {
    if gs != [] {
      RanksGrow(gs, |gs| - 1);
    }
  }

  lemma {:induction false} RanksGrow(gs: seq<Group>, k: nat)
    requires forall i, j :: 0 <= i < j < |gs| ==> GroupRank(gs[i]) < GroupRank(gs[j])
    requires k < |gs|
    ensures GroupRank(gs[k]) >= k
    decreases k
  {
    if k > 0 {
      RanksGrow(gs, k - 1);
    }
  }

  /** The condition list for a string table: one fragment per non-empty group,
      or the file-size fallback when there are none. */
  function Conditions(ss: seq<YaraString>): (r: seq<string>)
    ensures 1 <= |r| <= 5
    ensures r == [FallbackCondition] <==> ss == []
    ensures ss != [] ==> |r| == |ConditionGroups(ss)|
                         && forall i :: 0 <= i < |r| ==> r[i] == Fragment(ConditionGroups(ss)[i])
  {
    var gs := ConditionGroups(ss);
    if gs == [] then [FallbackCondition]
    else
      var r := seq(|gs|, i requires 0 <= i < |gs| => Fragment(gs[i]));
      assert r[0][0] != FallbackCondition[0];
      r
  }

  /** `_generate_conditions`. */
  function GenerateConditions(t: Technique): (r: seq<string>)
    ensures 1 <= |r| <= 5
    ensures r == [FallbackCondition] <==> GenerateStrings(t) == []
  {
    Conditions(GenerateStrings(t))
  }

  /** A group of one id gives `$id`; a larger group is `any of (...)` around
      the `$`-prefixed ids, and either way every id of the group occurs in
      the fragment. */
  lemma FragmentShape(ids: seq<string>)
    requires ids != []
    ensures |ids| == 1 ==> Fragment(ids) == "$" + ids[0]
    ensures |ids| > 1 ==> StartsWith(Fragment(ids), "any of (") && Fragment(ids)[|Fragment(ids)| - 1] == ')'
    ensures |ids| > 1 ==> Fragment(ids) == "any of (" + DollarList(ids) + ")"
    ensures forall i :: 0 <= i < |ids| ==> Contains(Fragment(ids), "$" + ids[i])
  {
    forall i | 0 <= i < |ids|
      ensures Contains(Fragment(ids), "$" + ids[i])
    {
      if |ids| == 1 {
        ContainsSelf("$" + ids[0]);
      } else {
        var dollars := seq(|ids|, j requires 0 <= j < |ids| => "$" + ids[j]);
        JoinContains(dollars, ", ", i);
        ContainsInHead(DollarList(ids), ")", "$" + ids[i]);
        ContainsInTail("any of (", DollarList(ids) + ")", "$" + ids[i]);
        assert Fragment(ids) == "any of (" + (DollarList(ids) + ")");
      }
    }
  }

  /** The rule name and reference `convert` adds to the context. */
  function RuleName(t: Technique): (r: string)
    ensures r == BaseConverter.RuleName(t.id)
    ensures '.' !in r
  {
    "MITRE_ATT_CK_" + ReplaceChar(t.id, '.', '_')
  }

  function Reference(t: Technique): (r: string)
    ensures r == BaseConverter.Reference(t.id)
  {
    "https://attack.mitre.org/techniques/" + ReplaceChar(t.id, '.', '/') + "/"
  }
}
